=== FILE: README.md ===
# Form editor core in Dafny

A model of the core of an SDL/OpenGL form editor written in Rust. The model
covers four parts of the program:

- **The text editor** (`src/textedit.rs`). A character buffer is split into
  lines at `'\n'` and has a cursor. Typing, backspace, the arrow keys and
  setting the cursor are modelled, as is the reflow pass. Reflow records
  the breaks to add or drop and then replays them in one batch. Hit-testing
  maps a point in the text box to a text position.
- **The widget tree** (`src/widgets.rs`):
  - how the tree is indexed: the pre-order child-size table and the
    selection list built from it;
  - the keyboard selection state and its entries (dropdown selectors and
    text editors);
  - routing a click or a hover down the tree, with its event context;
  - the dropdown's click and deselect behaviour;
  - the stack and grid layouts' remeasure passes.
- **The graph editor** (`src/graph_mode.rs`): adding a vertex, connecting
  every selected vertex to every selected vertex, selecting by click, and
  the key and mouse dispatch.
- **The application dispatcher** (`src/interface.rs`). The event context
  accumulates status flags, queued callbacks and a cursor. The dispatcher
  acts on that result: it drops the selection, remeasures, schedules a
  redraw, runs the callbacks in order and sets the cursor. It also routes
  mouse and keyboard events.

The modules follow the program's structure:

| module | file | contents |
|---|---|---|
| `Base` | `base.dfy` | option type, sums, key codes and modifiers |
| `Status` | `status.dfy` | status flags, event result, event-context operations |
| `Geometry` | `geometry.dfy` | points and rectangles |
| `Rope` | `rope.dfy` | line arithmetic over a character sequence: line starts and ends, character to line |
| `Reflow` | `reflow.dfy` | the scan and replay phases of `format_text` |
| `TextEditor` | `textedit.rs` logic in `textedit.dfy` | the `TextEdit` operations |
| `Entries` | `entries.dfy` | `DropDownSelect` and the text editor as selection entries |
| `Tree` | `tree.dfy` | widgets, constructors, pre-order tables, the selection list |
| `Selection` | `selection.dfy` | `SelectionState` |
| `Layout` | `layout.dfy` | stack and grid placement |
| `Routing` | `routing.dfy` | click, hover, deselect and remeasure over the tree |
| `GraphMode` | `graph.dfy` | the graph editor |
| `App` | `app.dfy` | `AppState` and its event handlers |

Modelling conventions:

- **Status flags.** The status bit set is modelled as a set of bit
  positions: REDRAW = {0} and REMEASURE = {0, 1}, as in the bitflags
  declaration. DESELECT is {2}, because the program uses this flag without
  declaring its value.
- **Panics.** Where the program panics, the as-written member returns
  `None` or is shown to index out of range. The member the rest of the
  model uses removes the defect; see Findings.
- **Metrics.** Glyph metrics, line height and the text measure come from
  the renderer and are a `Metrics` parameter of plain functions.
- **Redraw requests from entries.** The text editor's hooks return REDRAW
  inside their answer (src/textedit.rs:293, 297, 310). The callers drop that
  answer: `set_select` (src/widgets.rs:455-460) ignores both hooks' answers,
  and the keyboard handler (src/interface.rs:185-186) only tests whether
  there was one. So selecting, deselecting and typing never schedule a
  draw, and the entries' members leave the event result's flags alone.
- **Stack spacing.** In the stack layout the `first` flag starts out false
  and is never set. So the spacing is added before every visible child,
  including the first; the model follows that.

## Model

| member | source | states |
|---|---|---|
| Base.CharFromKeycode | src/textedit.rs:411-421 | A key gives a character exactly when its name is one character long or it is Space; a one-character key gives that character. |
| Status.PushCb | src/interface.rs:335-337 | The callback is appended after every callback already queued; flags and cursor are untouched. |
| Status.SetRedraw | src/interface.rs:338-340 | REDRAW is set afterwards, no flag is cleared, and no other bit, callback or the cursor changes. |
| Status.SetRemeasure | src/interface.rs:341-343 | REMEASURE and with it REDRAW are set, no flag is cleared, and nothing outside those bits changes. |
| Status.SetCursor | src/interface.rs:344-346 | Only the cursor changes, to the one given. |
| Status.SetStatus | src/interface.rs:158 | The requested flag is set afterwards, no flag is cleared, other bits, callbacks and cursor are kept. |
| Status.RunAccumulates | src/interface.rs:335-346 | Any sequence of context operations leaves the flags equal to the union of the starting flags with every flag set along the way, and the callbacks equal to the starting queue followed by the pushed ones in order. |
| Rope.PositionOnLine | src/textedit.rs:58 | The line a position maps to exists, and the position lies between that line's start and end (strictly before the end unless it is the end of the text). |
| Rope.CharToLineWithin | src/textedit.rs:58 | Converse of PositionOnLine: a position inside line `l` maps back to `l`. |
| Rope.LineStartStable | src/textedit.rs:191-226 | Editing only after a line's start leaves that line's start where it was. |
| Reflow.Scan | src/textedit.rs:195-208 | The scan records strictly increasing edits inside the scanned range, each adding a break before a non-break character or dropping an existing break. |
| Reflow.Replay | src/textedit.rs:209-225 | The cursor the replay carries stays inside the replayed text. |
| Reflow.ReplayRebuilds | src/textedit.rs:209-225 | Replaying the recorded edits in one pass with a running offset produces exactly the text rebuilt edit by edit from the original. |
| Reflow.ReplayShiftsCursor | src/textedit.rs:209-225 | Replay moves the cursor by the number of breaks added minus dropped strictly before it. |
| Reflow.RebuildLength | src/textedit.rs:209-225 | The rebuilt text is longer by the added breaks and shorter by the dropped ones. |
| Reflow.RebuildKeepsText | src/textedit.rs:191-226 | Breaks aside, the rebuilt text is the original text. |
| Reflow.RebuildStripPrefix | src/textedit.rs:209-225 | A position of the original text, shifted by the net edits before it, marks in the rebuilt text the same characters before it, breaks aside. |
| TextEditor.NewTextEdit | src/textedit.rs:46-55 | A new editor holds the given text, its cursor at 0 (a valid position) and no focus. |
| TextEditor.SetCursorPos | src/textedit.rs:123-126 | The cursor moves to the requested position or, when that is past the text, to its end; nothing else changes. |
| TextEditor.SetCursorPosIdempotent | src/textedit.rs:123-126 | Setting the same position twice equals setting it once. |
| TextEditor.NeedsFormat | src/textedit.rs:171-190 | An overflowing line always needs reflow. On the last line reflow is needed exactly when the line overflows. A line that fits, with a line below it, needs reflow exactly when the next line is non-empty and its first glyph would also fit. |
| TextEditor.FormatEdits | src/textedit.rs:195-208 | The edits reflow records are increasing, lie from the start line on, and only add or drop breaks. |
| TextEditor.FormatText | src/textedit.rs:191-226 | Without need nothing changes. Otherwise the text before the start line is kept, the rest is rebuilt from the recorded edits, the cursor shifts by the net edits before it, and the cursor stays valid. |
| TextEditor.FormatTextOnlyMovesBreaks | src/textedit.rs:191-226 | Reflow keeps the text before the start line, keeps every non-break character in order, and changes the length by one per added or dropped break. |
| TextEditor.FormatTextKeepsCursor | src/textedit.rs:191-226 | Breaks aside, the text before the cursor is the same after reflow as before. |
| TextEditor.InsertChar | src/textedit.rs:56-79 | A refused insertion (line full and no room for another line) leaves the editor unchanged. Otherwise the result is the typed editor itself when the cursor ends at the end of the text, and that editor reflowed from the cursor's line when it does not. |
| TextEditor.Typed | src/textedit.rs:66-75 | The text becomes the text before the cursor, then the character, preceded by a break exactly when the cursor ends a full last line, then the text after the cursor. The cursor moves past what was inserted and stays valid. |
| TextEditor.InsertAtEnd | src/textedit.rs:56-79 | Typing at the end of the text appends the character, with a break before it exactly when the last line plus the glyph overflows the box. The cursor ends at the end of the text. |
| TextEditor.InsertCharSplices | src/textedit.rs:56-79 | Breaks aside, typing inserts exactly the typed character at the cursor and leaves the cursor right after it. |
| TextEditor.InsertCharKeepsEarlierLines | src/textedit.rs:56-79 | Typing never changes the text before the cursor's line. |
| TextEditor.DeleteCharAsWritten | src/textedit.rs:80-95 | Backspace as written: empty text is left alone; a deletion point at 0 panics; without reflow the result is the deletion; with reflow it panics exactly when the cursor's old line no longer exists. Whenever it does not panic the cursor stays valid. |
| TextEditor.DeletePoint | src/textedit.rs:84-87 | Backspace deletes just before the cursor, or one further back exactly when the cursor is at the start of a line after the first. |
| TextEditor.Deleted | src/textedit.rs:89-91 | Exactly the character before the deletion point goes: the text is the part before it followed by the part after it, and the cursor lands where the character was. |
| TextEditor.DeletedReinserts | src/textedit.rs:89-91 | Putting the deleted character back at the new cursor restores the original text exactly. |
| TextEditor.DeleteChar | src/textedit.rs:80-95 | Backspace with nothing to delete (empty text, cursor at 0, or cursor 1 after a leading break) changes nothing. Otherwise the result is the deletion itself when at most one character follows the new cursor, and the deletion reflowed from the cursor's old line (or the last line, if that one is gone) when more follow. The cursor stays valid. |
| TextEditor.DeleteCharAgrees | src/textedit.rs:80-95 | Wherever the as-written backspace does not panic, it gives the same editor as the corrected one. |
| TextEditor.DeleteAtStartPanics | src/textedit.rs:89-91 | Backspace at position 0 of "a" panics as written; the corrected one leaves the editor unchanged. |
| TextEditor.DeleteAfterEmptyLinePanics | src/textedit.rs:84-93 | Backspace before "b" in "a", empty line, "b" reflows from a line that no longer exists. |
| TextEditor.DeleteCharRemoves | src/textedit.rs:80-95 | Breaks aside, backspace removes exactly the character before the deletion point and leaves the cursor where it was. |
| TextEditor.DeleteThenRetype | src/textedit.rs:56-95 | Typing back the deleted character at the cursor restores the original text, breaks aside. |
| TextEditor.MoveCursorAsWritten | src/textedit.rs:127-170 | Arrow movement as written; whenever it does not panic only the cursor changes and it stays valid. |
| TextEditor.LeftAsWritten | src/textedit.rs:133-140 | Left as written; where it does not panic only the cursor changes and stays valid. |
| TextEditor.RightAsWritten | src/textedit.rs:141-148 | Right keeps the cursor valid and changes nothing else. |
| TextEditor.MoveRightSteps | src/textedit.rs:141-148 | Right moves one position and stops at the end of the text. |
| TextEditor.UpAsWritten | src/textedit.rs:149-158 | Up as written does nothing on the first line. When the column fits within the upper line's characters before its break, it agrees with the corrected Up. When it does not, the cursor lands on the start of its own line instead. |
| TextEditor.DownAsWritten | src/textedit.rs:159-168 | Down as written keeps the cursor valid, changes nothing else, and does nothing on the last line. |
| TextEditor.DownAsWrittenAgrees | src/textedit.rs:159-168 | Down as written agrees with the corrected Down onto a line that ends in a break, and onto the last line when the column lies inside it. Onto a last line too short for the column, it stops one position before the end of the text, which the corrected Down reaches. |
| TextEditor.MoveCursor | src/textedit.rs:127-170 | Corrected arrow movement changes only the cursor and keeps it valid. |
| TextEditor.MoveLeft | src/textedit.rs:133-140 | At 0 Left does nothing. Otherwise it moves back one position inside a line, or at most two at a line start. |
| TextEditor.MoveUp | src/textedit.rs:149-158 | Corrected Up changes only the cursor and keeps it valid. |
| TextEditor.MoveDown | src/textedit.rs:159-168 | Corrected Down changes only the cursor and keeps it valid. |
| TextEditor.MoveLeftAgrees | src/textedit.rs:133-140 | Wherever Left as written does not panic it agrees with the corrected Left. |
| TextEditor.MoveLeftPanics | src/textedit.rs:133-140 | Left from position 1 of "\nx" panics as written; the corrected Left goes to 0. |
| TextEditor.MoveUpLandsAbove | src/textedit.rs:149-158 | Up moves to the line above and keeps the column, clamped to that line's characters before its break. |
| TextEditor.MoveDownLandsBelow | src/textedit.rs:159-168 | Down moves to the line below and keeps the column, clamped to that line's characters before its break. |
| TextEditor.MoveUpDownAtEdges | src/textedit.rs:149-168 | Up on the first line and Down on the last line change nothing. |
| TextEditor.DownThenUp | src/textedit.rs:149-168 | Down then Up returns to the start when the column exists on the line below. |
| TextEditor.UpThenDown | src/textedit.rs:149-168 | Up then Down returns to the start when the column exists on the line above. |
| TextEditor.MoveUpStaysOnLine | src/textedit.rs:149-158 | Up as written from column 2 of "bcd" below "a" stays on "bcd"; the corrected Up reaches line 0. |
| TextEditor.MoveDownStaysOnLine | src/textedit.rs:159-168 | From the start of the text "\n" (an empty last line below), Down as written leaves the editor unchanged on line 0, while the corrected Down reaches line 1. |
| TextEditor.HoverText | src/textedit.rs:96-122 | A point left or right of the box, or whose truncated row is negative or past the last line, gives no position (a point less than one line above the box truncates to row 0). Otherwise the answer is the last position on the point's line whose preceding glyphs fit before `x`, and it lies on that line. |
| TextEditor.LastFit | src/textedit.rs:113-121 | The position found is inside the line, its preceding glyphs fit, and the next glyph would not; no position means not even the first glyph fits. |
| TextEditor.ScanLine | src/textedit.rs:113-121 | The walk that stops at the first overshooting glyph computes exactly LastFit. |
| Entries.DropDownKey | src/widgets.rs:331-351 | A key is answered exactly when it is Down with the selected value below the maximum, or Up above 0. It then moves the selected value by one. An unanswered key changes nothing. |
| Entries.DropDownKeysStayInRange | src/widgets.rs:331-351 | Any key sequence keeps the selected value between 0 and the maximum, and the maximum never changes. |
| Entries.DownPastLastOption | src/widgets.rs:331-351 | With the option count as maximum, Down on the last option is answered and moves the selection to a position past every option. |
| Entries.OptionKeysStayOnOptions | src/widgets.rs:331-351 | From any option, any key sequence on the corrected selector keeps the selection on an option. |
| Entries.DropDownDownUp | src/widgets.rs:331-351 | Down then Up returns to the starting option, both answered. |
| Entries.DirFromKeycode | src/textedit.rs:422-430 | Exactly the four arrow keys give a direction, each its own. |
| Entries.OnSelect | src/textedit.rs:290-294 | Selecting a text entry focuses it, answers, and sets the I-beam cursor. A dropdown entry ignores it. No flag or callback changes, because the redraw request travels in the answer. |
| Entries.OnDeselect | src/textedit.rs:295-298 | Deselecting a text entry unfocuses it and answers. A dropdown entry ignores it. The event result is untouched. |
| Entries.TextKey | src/textedit.rs:299-310 | A text entry answers exactly character keys, arrow keys and Backspace, performing InsertChar, MoveCursor or DeleteChar. Any other key changes nothing. The event result is untouched either way. |
| Entries.OnKey | src/textedit.rs:299-310 | Keys go to the entry's own handler. Entries keep their kind and validity, and the event result is untouched. |
| Tree.NewWidget | src/widgets.rs:698-707 | A new leaf has the behaviour given, no children, default stack layout, visible. |
| Tree.NewContainer | src/widgets.rs:708-717 | A new container has the layout given, no children, visible. |
| Tree.NewDropDown | src/widgets.rs:1040-1069 | A new dropdown is closed with the given selected option and one hover-coloured label child per option. |
| Tree.Push | src/widgets.rs:742-745 | Pushing appends the child at the end and changes nothing else. |
| Tree.PushKeepsIndices | src/widgets.rs:742-745 | Pushing a child keeps every existing pre-order index and puts the new subtree last. |
| Tree.Selection | src/widgets.rs:1146-1150 | Exactly dropdowns have a selector. It holds their selected option, and its maximum is their last option. |
| Tree.ChildrenRecurse | src/widgets.rs:366-378 | The recursive pass returns the subtree's node count and appends one row per node, in pre-order, listing the sizes of its children's subtrees. |
| Tree.RecurseKids | src/widgets.rs:371-375 | The loop over the children appends their subtree sizes to the parent's row and their own rows after, returning the running size plus theirs. |
| Tree.ChildrenSizes | src/widgets.rs:379-385 | The table has one row per node in pre-order, each listing its children's subtree sizes. |
| Tree.RecurseBuild | src/widgets.rs:409-422 | The build appends the subtree's selectors in pre-order and, per node, its selector index or none. |
| Tree.BuildKids | src/widgets.rs:419-421 | The loop over the children appends their subtrees' selectors and index maps in order. |
| Tree.NewSelectionList | src/widgets.rs:423-434 | The list holds every selector in pre-order and a per-node index map. |
| Tree.IndexMapNumbers | src/widgets.rs:409-422 | A node maps to an entry exactly when it has a selector, and that entry is its own selector, numbered by the selectors before it. |
| Tree.ChildWidgetIdx | src/widgets.rs:512-520 | The child's index is its parent's plus one plus the sizes of the earlier siblings' subtrees. |
| Tree.ChildIndexIsPreorder | src/widgets.rs:512-520 | That index is the child's position in the pre-order listing of the tree. |
| Selection.NewSelectionState | src/widgets.rs:445-451 | A new state is consistent with nothing selected and holds the tree's selectors, index map and size table. |
| Selection.SetSelect | src/widgets.rs:455-460 | The new index is selected. The old entry is deselected and the new one selected (text entries change focus, and the I-beam is set). Other entries and the tables are unchanged. No flag or callback changes, and without a text entry selected the event result is untouched. |
| Selection.SelectNext | src/widgets.rs:467-475 | With a next entry, that entry is selected through its hook and becomes current; at the last entry or with nothing selected nothing changes. |
| Selection.SelectPrev | src/interface.rs:188-189 | The mirror of SelectNext: the previous entry, unless at the first or none. |
| Selection.HandleKeyDown | src/widgets.rs:528-530 | The key goes to the current entry, and the current index never changes. With nothing selected the key is not handled. The event result is untouched. |
| Selection.SelectNextBounded | src/widgets.rs:467-475 | Moving forward n times lands n entries on, stopping at the last. |
| Selection.SelectWidget | src/widgets.rs:483-488 | Selecting the entry a node maps to makes that node the selected widget, and the entry is that node's selector. |
| Layout.ListRemeasure | src/widgets.rs:840-872 | Needs a slot only for each visible child. Each visible child gets the rectangle its measured size and the running offset give. Collapsed children and extra slots keep their rectangles. The size is the stack's length along the axis and its largest child across. |
| Layout.PlaceChild | src/widgets.rs:853-864 | A visible child starts one spacing past the stack so far; the stack grows by its length plus the spacing and widens to cover it. |
| Layout.StackPlace | src/widgets.rs:840-872 | Every visible child gets its stack rectangle and the other slots keep theirs; the size is the stack's length and breadth. |
| Layout.StackRect | src/widgets.rs:865-868 | A child's rectangle has its measured size and starts one spacing past the visible children before it. |
| Layout.StackAdjacent | src/widgets.rs:840-872 | Consecutive visible children are one spacing apart along the stack. |
| Layout.StackSkipsCollapsed | src/widgets.rs:840-872 | Collapsed children take no room. |
| Layout.StackEndsAtLast | src/widgets.rs:840-872 | The stack's length ends at the last visible child's far edge. |
| Layout.CrossMaxCovers | src/widgets.rs:840-872 | The stack's breadth covers every visible child. |
| Layout.GridRemeasure | src/widgets.rs:879-908 | Each paired cell gets its measured size at its column and row offsets; unpaired slots are kept; the size covers the widest row and all rows. |
| Layout.GridTracks | src/widgets.rs:885-895 | The first pass computes exactly every column's widest cell and every row's tallest cell. |
| Layout.PlaceRows | src/widgets.rs:896-906 | Every paired cell is placed and unpaired slots are kept; the row offset ends past all rows, the width is the widest row. |
| Layout.PlaceRow | src/widgets.rs:898-902 | The cells of one row are placed at their column offsets and nothing else moves; the column offset ends past the row. |
| Layout.GridCell | src/widgets.rs:888-891 | A cell has its measured size and sits at the offsets of its column and row. |
| Layout.GridPlace | src/widgets.rs:879-908 | The placed table has one slot per original slot. |
| Layout.GridPlaceCells | src/widgets.rs:879-908 | A paired cell is placed at the offsets of its column and row with its measured size; other slots are unchanged. |
| Layout.GridSizeGrows | src/widgets.rs:904-906 | The grid's width never shrinks below its previous value. |
| Layout.ColMaxCovers | src/widgets.rs:885-894 | A column's width covers every cell in it. |
| Layout.GridColumnsDisjoint | src/widgets.rs:897-902 | With non-negative spacing a cell ends before the next column starts. |
| Routing.GetIdx | src/widgets.rs:797-800 | The answer is the first rectangle containing the point; no answer means no rectangle contains it. |
| Routing.Paired | src/widgets.rs:810-823 | Rectangles are paired with children only as far as both lists go. |
| Routing.ChildIdx | src/widgets.rs:589-594 | Inside the size table the child's context index is its pre-order index. |
| Routing.Click | src/widgets.rs:668-674 | A click only adds flags and callbacks, and adds no flag beyond REMEASURE. An answer is always Handled. The tree keeps its shape. A button queues its callback and does not answer. A dropdown answers and asks for a remeasure. |
| Routing.ClickL | src/widgets.rs:810-823 | A click that hits no child changes nothing. Otherwise the first paired child whose rectangle holds the point gets the click, at the point minus the rectangle's near corner and with that child's walk index; the answer and the context are the child's, and every other child is unchanged. |
| Routing.FirstHit | src/widgets.rs:814-819 | A paired child whose rectangle holds the point, with no earlier paired rectangle holding it, is the one the search picks. |
| Routing.ClickGoesToFirstHit | src/widgets.rs:810-823 | Stated without the search: a click inside the first rectangle that holds it is the child's click, and only that child changes. |
| Routing.CollapseOthers | src/widgets.rs:1124-1128 | Every option but the kept one is collapsed; the kept one is unchanged. |
| Routing.DropDownClick | src/widgets.rs:1117-1133 | A click toggles the dropdown. Opening changes nothing else. Closing picks the option under the pointer (0 when none) and collapses the rest. Either way it asks for a remeasure and answers Handled. |
| Routing.ClickWithoutDropDownMisses | src/widgets.rs:668-674 | In a tree without a dropdown no click is ever answered. |
| Routing.ClickStaysInSubtree | src/widgets.rs:583-594 | The context index a click ends at stays inside the subtree it started in. |
| Routing.Hover | src/widgets.rs:675-681 | A hover never answers, queues no callback and adds no flag beyond REMEASURE. A button sets the hand cursor. A hover-coloured label turns hovered and asks for a remeasure the first time. |
| Routing.HoverL | src/widgets.rs:824-838 | A hover that hits no child changes nothing. Otherwise the first paired child whose rectangle holds the point gets the hover, at the point minus the rectangle's near corner and with that child's walk index; the resulting context is the child's, and every other child is unchanged. |
| Routing.HoverGoesToFirstHit | src/widgets.rs:824-838 | Stated without the search: a hover inside the first rectangle that holds it is the child's hover, and only that child changes. |
| Routing.Deselect | src/widgets.rs:736-741 | Afterwards no dropdown is open; only dropdowns change, their `open` flag alone; an already closed tree is unchanged. |
| Routing.ClickKeepsGrids | src/widgets.rs:810-823 | A click keeps every grid's column count positive. |
| Routing.HoverKeepsGrids | src/widgets.rs:824-838 | A hover keeps every grid's column count positive. |
| Routing.Remeasure | src/widgets.rs:731-735 | Every measured child's rectangle has its new size. A node's cached size is its layout's size. In a stack, collapsed children are untouched. Shape and behaviours are kept. |
| Routing.RemeasureList | src/widgets.rs:840-872 | A stack places the remeasured children exactly as the stack placement prescribes, leaving collapsed children alone. |
| Routing.RemeasureGrid | src/widgets.rs:879-908 | With the table padded to a slot per child, every child of a grid gets a rectangle of its new size, and the grid never shrinks. |
| Routing.RemeasuredStackAdjacent | src/widgets.rs:840-872 | After remeasure consecutive visible children of a stack are one spacing apart. |
| Routing.FreshDropDownCannotRemeasure | src/widgets.rs:180-189 | A new dropdown's stack has no rectangle slot for its visible option. |
| Routing.GridPartialRowPanics | src/widgets.rs:881 | Three cells in two columns need two rows; the row table has one. |
| Routing.EmptyGridPlacesNothing | src/widgets.rs:241-248 | A grid whose table is empty (as every grid's is) places no child, keeps its width and raises its height only to 0. The padded pass gives every child a slot. |
| Routing.ShapeKeepsSizeTable | src/widgets.rs:379-385 | Trees of the same shape have the same size table. |
| Routing.EventsKeepSizeTable | src/widgets.rs:379-385 | Click, hover, deselect and remeasure leave the size table valid. |
| GraphMode.NewStateInv | src/graph_mode.rs:71-77 | The empty editor satisfies the graph invariant. |
| GraphMode.Add | src/graph_mode.rs:21-26 | The new vertex gets the next id, an empty neighbour set, and the counter moves on; with ids below the counter the id is fresh. |
| GraphMode.AddSequential | src/graph_mode.rs:21-26 | Two additions give consecutive ids, both present. |
| GraphMode.AddVert | src/graph_mode.rs:78-82 | One unselected vertex more, edges unchanged, invariant kept. |
| GraphMode.AddSelectedEdges | src/graph_mode.rs:83-97 | Each selected vertex gains every selected vertex as a neighbour and the unselected ones are untouched. The edge list keeps its old prefix and the invariant holds. A fully connected selection changes nothing. |
| GraphMode.ConnectEach | src/graph_mode.rs:84-95 | The outer loop over the selection computes exactly the vertex-by-vertex connection of every listed vertex. |
| GraphMode.Link | src/graph_mode.rs:89-92 | Connecting `v` to `u` adds `u` to `v`'s neighbours exactly when `u` is selected, is a no-op when already connected, and touches no other vertex. |
| GraphMode.ConnectFrom | src/graph_mode.rs:86-94 | One vertex gains exactly the selected vertices listed, and no other vertex changes. |
| GraphMode.ConnectAll | src/graph_mode.rs:83-97 | Over the whole order the connections match the promise of AddSelectedEdges. |
| GraphMode.HandleSelect | src/graph_mode.rs:119-126 | A hit vertex becomes selected and the others keep their flags. A miss clears the selection. The graph never changes. |
| GraphMode.SelectEffect | src/graph_mode.rs:119-126 | A miss leaves nothing selected, a hit adds exactly that vertex, and a hit on an unknown id changes nothing. |
| GraphMode.HandleMouseEvent | src/graph_mode.rs:127-135 | A press selects as above; any other event changes nothing; the graph never changes. |
| GraphMode.HandleKeyboardEvent | src/graph_mode.rs:136-146 | V adds a vertex. E leaves every pair of selected vertices connected. Any other key changes nothing. |
| App.NewApp | src/interface.rs:114-126 | A new application has nothing selected, a draw due and no callback run, and satisfies the dispatcher invariant. |
| App.HandleResult | src/interface.rs:127-143 | DESELECT clears the selection, and without it the selection is untouched. REMEASURE remeasures the tree, and without it (and no pending measure) the tree is untouched. REDRAW schedules a draw. The callbacks run in order and the cursor is set. |
| App.SetSelectApp | src/interface.rs:202-207 | The selection becomes the requested one and no callback runs. |
| App.ToTree | src/interface.rs:152-155 | Shifting the routed point back by the interface offset gives the window point. |
| App.HandleMouseEvent | src/interface.rs:144-176 | A left click runs the callbacks it queued and, unanswered, drops the selection. Motion keeps the selection. Other events reset the cursor and keep the rest. |
| App.HandleKeyboardEvent | src/interface.rs:177-201 | No callback runs and no draw is scheduled. Without a key press or a selection only the cursor resets. A key other than Tab goes to the selected entry and leaves the selected index where it was. With a selection, something stays selected. |
| App.TabUnanswered | src/interface.rs:185-187 | No entry answers Tab, so the key changes nothing. |
| App.TabMovesSelection | src/interface.rs:185-192 | Tab selects the next entry, left shift + Tab the previous one, and both stop at the ends. |
| App.MissedClickDeselects | src/interface.rs:156-159 | In a tree without a dropdown every left click drops the keyboard selection. |
| App.FreshResultOnlyResetsCursor | src/interface.rs:127-143 | A result asking for nothing only resets the cursor. |

## Left out

- Drawing, rendering, fonts and the caret blink are left out. That covers every `draw` method, `render`, `GraphDrawing::place` and the select-time value. They produce pixels, not state.
- Line breaks are '\n' only. The rope library the editor uses also breaks lines at "\r", "\r\n", U+000B, U+000C, U+0085, U+2028 and U+2029. For a text containing any of those the program's line structure (and so `CharToLine`, the line count, the moves and reflow) differs from the model's; the model does not restrict the initial text, it just does not cover such texts faithfully.
- Floating point is replaced by integers. Pixel positions, sizes and glyph metrics are `int`. Where the program casts a float quotient, truncation is modelled explicitly (`TruncDiv`).
- `select_circle` (the graph editor's hit test) and the renderer's metrics are inputs. The same holds for `needs_measure`, which is not part of this model.
- Callback bodies are foreign code. The model records only which callbacks ran and in which order; it does not model what they do to the application.
- The cursor map and the SDL cursor are left out. The model keeps only the chosen cursor value.
- The selection hash map is iterated in an order the program does not fix. That order is an explicit parameter (`order`) of `GraphMode.AddSelectedEdges` and `GraphMode.HandleKeyboardEvent`.
- `TextBox`, `DateWidget`, `MDDoc` serialisation and `new_form` are left out. Tree entries are therefore dropdown selectors only; the text editor is modelled as an entry (`Entries.OnKey`) but never placed in a tree.
- `remeasure_self_after` is left out: `WidgetS::remeasure` calls `measure_self_after`, whose default returns the children's size, so the overrides are never reached.
- `interface.rs` and `widgets.rs` disagree about the event context. The dispatcher builds it with two arguments, reads `.res` and calls `set_status`, none of which `widgets.rs` provides. The model follows the dispatcher: an event result of flags, callbacks and cursor, and `set_status` as a bitwise OR.
- `select_prev` is called but not defined. It is modelled as the mirror image of `select_next`.
- `Selection.SelectNext`: like the program, it does not deselect the entry left behind.
- `WidgetS::deselect` is modelled (`Routing.Deselect`), but no handler in the dispatcher calls it.
- `Routing.ChildIdx`: outside the size table it falls back to the parent's index rather than panicking; the lemmas use it only inside the table.
- `Routing.Remeasure` requires every grid to have at least one column. With zero columns the division `len() / n_cols` at src/widgets.rs:881 panics.
- Entries.TextKey: Up and Down use the corrected moves of Findings rows 4 and 5, not `move_cursor` as written; so do typing and Backspace (rows 1 and 2). `TextEditor.UpAsWritten` and `TextEditor.DownAsWrittenAgrees` state exactly where the written moves differ.
- Geometry.InBounds: `Rect::in_bounds` is not part of this model. The half-open test (near edges in, far edges out) is a chosen stand-in, and the viewport argument the program passes at src/widgets.rs:199, 799, 816 and 830 is dropped. Statements that a rectangle holds or misses a point, such as `EmptyRect` holding none, rest on this choice.
- Geometry.SetOffset: `Rect::set_offset`, used at src/widgets.rs:900, is not part of this model. It is modelled as moving the near corner to the offset and keeping the extent.
- `GraphMode.HandleSelect` takes the hit vertex as a parameter, because the circle hit test depends on drawing positions.
- The `Shape` drag and click code and `Shape::set_rect` in `interface.rs` are left out; nothing in the dispatcher uses them.

## Findings

| source | as written | input that shows it | evidently intended | confidence | as-written member | corrected member |
|---|---|---|---|---|---|---|
| src/textedit.rs:89-91 | backspace subtracts one from a cursor at 0, which a cursor at 1 after a leading break is first stepped back to | text "a", cursor 0 | nothing to delete, nothing happens | not executed | TextEditor.DeleteAtStartPanics | TextEditor.DeleteChar |
| src/textedit.rs:84-93 | after deleting the break, reflow starts from the cursor's old line, which no longer exists | text "a\n\nb", cursor 3 | reflow from the merged line | not executed | TextEditor.DeleteAfterEmptyLinePanics | TextEditor.DeleteChar |
| src/textedit.rs:133-140 | Left at a line start steps back two, underflowing at position 1 | text "\nx", cursor 1 | stop at position 0 | not executed | TextEditor.MoveLeftPanics | TextEditor.MoveLeft |
| src/textedit.rs:149-158 | Up clamps the column to the upper line's length including its break, which is the current line's start | text "a\nbcd", cursor 4 | land on the line above | not executed | TextEditor.MoveUpStaysOnLine | TextEditor.MoveUpLandsAbove |
| src/textedit.rs:159-168 | Down clamps to the next line's length minus one even when that line has no break | text "\n", cursor 0 | land on the empty last line | not executed | TextEditor.MoveDownStaysOnLine | TextEditor.MoveDownLandsBelow |
| src/widgets.rs:180-189 | a stack's rectangle table starts empty and is indexed per visible child | a new dropdown with one option | one rectangle slot per child | not executed | Routing.FreshDropDownCannotRemeasure | Routing.RemeasureList |
| src/widgets.rs:881 | the row table has `len / n_cols` rows, missing a final partial row; reachable only once the table from row 8 has slots | 3 cells, 2 columns | one row per started row | not executed | Routing.GridPartialRowPanics | Routing.RemeasureGrid |
| src/widgets.rs:241-248 | a grid's rectangle table starts empty and nothing grows it, so remeasure pairs no child with a slot | a new grid with one child | one rectangle slot per child | not executed | Routing.EmptyGridPlacesNothing | Routing.RemeasureGrid |
| src/widgets.rs:1146-1150 | a dropdown's selector gets the option count as its maximum, so Down on the last option moves past it | 2 options, option 1 selected, Down | stop on the last option | not executed | Entries.DownPastLastOption | Entries.OptionKeysStayOnOptions |

=== FILE: app.dfy ===
/**
 * The application's dispatch loop: an input event goes to the widget tree
 * (mouse) or to the keyboard selection (keys), and the event result it
 * produces is then acted on — the selection dropped, the tree remeasured,
 * a redraw scheduled, the queued callbacks run in order and the cursor set.
 */
module App {
  import opened Base
  import opened Status
  import opened Geometry
  import opened Reflow
  import opened Entries
  import opened Tree
  import opened Routing
  import opened Selection

  /** The mouse button an event names. */
  datatype MouseButton = LeftButton | OtherButton

  /** The input events the dispatcher distinguishes; the rest are `OtherEvent`. */
  datatype Event =
    | MouseDown(button: MouseButton, x: int, y: int)
    | MouseUp(button: MouseButton)
    | MouseMotion(x: int, y: int)
    | KeyDown(kc: Keycode)
    | OtherEvent

  /**
   * The application: the widget tree, the keyboard selection, whether a
   * redraw is due, the cursor last set, and the callbacks run so far (their
   * effects on the application are not modelled, only their order).
   */
  datatype AppState = AppState(tree: Widget, select: SelectionState, needsDraw: bool, cursor: Cursor, ran: seq<Callback>)

  /** Where the tree is drawn in the window: pointer positions are shifted by this before routing. */
  const InterfaceOffset: Point := Point(15, 15)

  /**
   * The state the dispatcher keeps: every grid has a column, the selection
   * is consistent, and its size table is the tree's.
   */
  predicate AppInv(a: AppState)
  {
    GridsOk(a.tree) && Consistent(a.select) && a.select.childSizes == ChildrenSizes(a.tree)
  }

  /** A new application: nothing selected, a draw due, the arrow cursor, no callback run. */
  function NewApp(root: Widget): (a: AppState)
    ensures a.tree == root && a.select.cur.None? && a.needsDraw && a.ran == []
    ensures GridsOk(root) ==> AppInv(a)
  {
    AppState(root, NewSelectionState(root), true, Arrow, [])
  }

  /** A result with the flags of a fresh one requests nothing. */
  lemma NoFlagsNoRequest(r: EventResult)
    requires SameFlags(Fresh, r)
    ensures !Has(r.status, DESELECT) && !Has(r.status, REMEASURE) && !Has(r.status, REDRAW) && r.callbacks == []
  {
    assert 2 !in r.status && 0 !in r.status;
  }

  /**
   * Acts on an event result. A deselect request drops the keyboard
   * selection first (which produces and handles a result of its own); then
   * the tree is remeasured if the result asks for it or the tree reports it
   * needs measuring (`needsMeasure`, which the tree computes outside this
   * model); a redraw request schedules a draw; the queued callbacks run in
   * order; and the result's cursor is set.
   */
  function HandleResult(a: AppState, r: EventResult, needsMeasure: bool): (a': AppState)
    requires AppInv(a)
    ensures AppInv(a')
    ensures a'.cursor == r.cursor
    ensures a'.ran == a.ran + r.callbacks
    ensures Has(r.status, DESELECT) ==> a'.select.cur.None?
    ensures !Has(r.status, DESELECT) ==> a'.select == a.select
    ensures Has(r.status, REDRAW) || a.needsDraw ==> a'.needsDraw
    ensures !Has(r.status, REDRAW) && !Has(r.status, DESELECT) ==> a'.needsDraw == a.needsDraw
    ensures !Has(r.status, REMEASURE) && !needsMeasure ==> a'.tree == a.tree
    ensures Has(r.status, REMEASURE) && !needsMeasure ==> a'.tree == Remeasure(a.tree)
    ensures ChildrenSizes(a'.tree) == ChildrenSizes(a.tree)
    decreases if Has(r.status, DESELECT) then 2 else 0
  {
    var a1 := if Has(r.status, DESELECT) then SetSelectApp(a, None, needsMeasure) else a;
    var a2 :=
      if Has(r.status, REMEASURE) || needsMeasure then
        var t := Remeasure(a1.tree);
        ShapeKeepsSizeTable(t, a1.tree);
        a1.(tree := t)
      else a1;
    var a3 := if Has(r.status, REDRAW) then a2.(needsDraw := true) else a2;
    a3.(ran := a3.ran + r.callbacks, cursor := r.cursor)
  }

  /**
   * Changes the keyboard selection to `idx` and handles the result the
   * entries' hooks produced; no callback runs and nothing but the entries
   * and the selection index changes in the selection.
   */
  function SetSelectApp(a: AppState, idx: Option<nat>, needsMeasure: bool): (a': AppState)
    requires AppInv(a)
    requires idx.Some? ==> idx.value < |a.select.list.entries|
    ensures AppInv(a')
    ensures a'.select == SetSelect(a.select, idx, Fresh).state && a'.select.cur == idx
    ensures a'.ran == a.ran
    ensures ChildrenSizes(a'.tree) == ChildrenSizes(a.tree)
    ensures !needsMeasure ==> a'.tree == a.tree
    decreases 1
  {
    var o := SetSelect(a.select, idx, Fresh);
    NoFlagsNoRequest(o.res);
    HandleResult(a.(select := o.state), o.res, needsMeasure)
  }

  /** The pointer position in the tree's coordinates. */
  function ToTree(x: int, y: int): (p: Point)
    ensures Add(p, InterfaceOffset) == Point(x, y)
  {
    Sub(Point(x, y), InterfaceOffset)
  }

  /** A left click routed through the tree from the root, with a fresh result. */
  function RootClick(a: AppState, x: int, y: int): Routed
  {
    Click(a.tree, ToTree(x, y), Ctx(Fresh, 0), a.select.childSizes)
  }

  /** The pointer moving, routed through the tree from the root, with a fresh result. */
  function RootHover(a: AppState, x: int, y: int): Routed
  {
    Hover(a.tree, ToTree(x, y), Ctx(Fresh, 0), a.select.childSizes)
  }

  /**
   * A mouse event. A left press is routed to the tree as a click; a click
   * that no widget answers requests deselection. Motion is routed as a
   * hover. Anything else produces a fresh result. The result is then
   * handled.
   */
  function HandleMouseEvent(a: AppState, ev: Event, needsMeasure: bool): (a': AppState)
    requires AppInv(a)
    ensures AppInv(a')
    ensures ev.MouseDown? && ev.button == LeftButton ==>
              var c := RootClick(a, ev.x, ev.y);
              && a'.ran == a.ran + c.ctx.res.callbacks
              && (c.resp.None? ==> a'.select.cur.None?)
              && (c.resp.Some? ==> a'.select == a.select)
    ensures ev.MouseMotion? ==> a'.select == a.select && a'.ran == a.ran
    ensures !(ev.MouseDown? && ev.button == LeftButton) && !ev.MouseMotion? ==>
              a'.select == a.select && a'.ran == a.ran && a'.cursor == Arrow && a'.needsDraw == a.needsDraw
    ensures !(ev.MouseDown? && ev.button == LeftButton) && !ev.MouseMotion? && !needsMeasure ==> a'.tree == a.tree
  {
    match ev
    case MouseDown(LeftButton, x, y) =>
      var c := RootClick(a, x, y);
      ClickKeepsGrids(a.tree, ToTree(x, y), Ctx(Fresh, 0), a.select.childSizes);
      ShapeKeepsSizeTable(c.w, a.tree);
      assert !Has(c.ctx.res.status, DESELECT) by {
        assert 2 !in c.ctx.res.status - REMEASURE;
      }
      var res := if c.resp.None? then SetStatus(c.ctx.res, DESELECT) else c.ctx.res;
      HandleResult(a.(tree := c.w), res, needsMeasure)
    case MouseMotion(x, y) =>
      var h := RootHover(a, x, y);
      HoverKeepsGrids(a.tree, ToTree(x, y), Ctx(Fresh, 0), a.select.childSizes);
      ShapeKeepsSizeTable(h.w, a.tree);
      assert !Has(h.ctx.res.status, DESELECT) by {
        assert 2 !in h.ctx.res.status - REMEASURE;
      }
      HandleResult(a.(tree := h.w), h.ctx.res, needsMeasure)
    case _ =>
      HandleResult(a, Fresh, needsMeasure)
  }

  /**
   * A key press. Only while an entry is selected: the key goes to that
   * entry, and if the entry leaves it unanswered and it is Tab, the
   * selection moves — to the previous entry when exactly left shift is
   * held, to the next otherwise. The result is then handled.
   */
  function HandleKeyboardEvent(a: AppState, ev: Event, kmod: Mod, m: Metrics, needsMeasure: bool): (a': AppState)
    requires AppInv(a)
    ensures AppInv(a')
    ensures a'.ran == a.ran && a'.needsDraw == a.needsDraw
    ensures !ev.KeyDown? || !IsSelect(a.select) ==> a'.select == a.select && a'.cursor == Arrow
    ensures ev.KeyDown? && IsSelect(a.select) ==> a'.select.cur.Some?
    ensures ev.KeyDown? && IsSelect(a.select) && ev.kc != Tab ==>
              a'.select == HandleKeyDown(a.select, ev.kc, m, Fresh).state && a'.select.cur == a.select.cur
    ensures !needsMeasure ==> a'.tree == a.tree
  {
    if ev.KeyDown? && IsSelect(a.select) then
      var o := HandleKeyDown(a.select, ev.kc, m, Fresh);
      var o2 :=
        if o.resp.None? && ev.kc == Tab then
          if kmod == LShiftMod then SelectPrev(o.state, o.res) else SelectNext(o.state, o.res)
        else o;
      NoFlagsNoRequest(o2.res);
      HandleResult(a.(select := o2.state), o2.res, needsMeasure)
    else HandleResult(a, Fresh, needsMeasure)
  }

  /** No entry answers Tab, so handing it to the selection changes nothing. */
  lemma TabUnanswered(s: SelectionState, m: Metrics, r: EventResult)
    requires Consistent(s) && s.cur.Some?
    ensures HandleKeyDown(s, Tab, m, r) == Outcome(s, r, None)
  {
    var es := s.list.entries;
    var i := s.cur.value;
    var h := OnKey(es[i], Tab, m, r);
    assert h.entry == es[i];
    assert es[i := h.entry] == es;
  }

  /**
   * Tab with an entry selected moves the selection one entry forward, or
   * one back with left shift held, and stays put at either end.
   */
  lemma {:induction false} TabMovesSelection(a: AppState, kmod: Mod, m: Metrics, needsMeasure: bool)
    requires AppInv(a) && a.select.cur.Some?
    ensures var i, n := a.select.cur.value, |a.select.list.entries|;
            var a' := HandleKeyboardEvent(a, KeyDown(Tab), kmod, m, needsMeasure);
            && (kmod == LShiftMod ==> a'.select.cur == Some(if i > 0 then i - 1 else i))
            && (kmod != LShiftMod ==> a'.select.cur == Some(if i + 1 < n then i + 1 else i))
  {
    TabUnanswered(a.select, m, Fresh);
  }

  /**
   * In a tree without a dropdown no widget answers a left click, so every
   * left click drops the keyboard selection; the callbacks the click queued
   * still run.
   */
  lemma {:induction false} MissedClickDeselects(a: AppState, x: int, y: int, needsMeasure: bool)
    requires AppInv(a) && !AnyDropDown(a.tree)
    ensures HandleMouseEvent(a, MouseDown(LeftButton, x, y), needsMeasure).select.cur.None?
  {
    ClickWithoutDropDownMisses(a.tree, ToTree(x, y), Ctx(Fresh, 0), a.select.childSizes);
  }

  /**
   * Handling a result that asks for nothing, with the tree not needing a
   * measure, only resets the cursor to the arrow.
   */
  lemma {:induction false} FreshResultOnlyResetsCursor(a: AppState)
    requires AppInv(a)
    ensures HandleResult(a, Fresh, false) == a.(cursor := Arrow)
  {
    assert Fresh.callbacks == [];
    assert a.ran + [] == a.ran;
  }
}

=== FILE: base.dfy ===
/** Small shared vocabulary: optional values and keyboard codes. */
module Base {

  /** An optional value, the model of Rust's `Option`. */
  datatype Option<+T> = None | Some(value: T)

  /** Sum of a sequence of naturals. */
  function Sum(s: seq<nat>): nat
  {
    if |s| == 0 then 0 else s[0] + Sum(s[1..])
  }

  lemma {:induction false} SumAppend(a: seq<nat>, b: seq<nat>)
    ensures Sum(a + b) == Sum(a) + Sum(b)
  {
    if |a| == 0 {
      assert a + b == b;
    } else {
      assert (a + b)[1..] == a[1..] + b;
      SumAppend(a[1..], b);
    }
  }

  lemma {:induction false} SumPrefixStep(s: seq<nat>, i: nat)
    requires i < |s|
    ensures Sum(s[..i + 1]) == Sum(s[..i]) + s[i]
  {
    assert s[..i + 1] == s[..i] + [s[i]];
    SumAppend(s[..i], [s[i]]);
  }

  /**
   * A key as the event source reports it. `Named(ch)` stands for every key
   * whose name is a single character (letters, digits, punctuation); the
   * remaining constructors are the keys the program matches on by name.
   */
  datatype Keycode = Named(ch: char) | Space | Tab | Backspace | Left | Right | Up | Down | OtherKey(code: nat)

  /** Keyboard modifier state; only left shift is distinguished. */
  datatype Mod = NoMod | LShiftMod | OtherMod(code: nat)

  /** The character a key types: its one-character name, or a blank for Space. */
  function CharFromKeycode(kc: Keycode): (r: Option<char>)
    ensures r.Some? <==> kc.Named? || kc == Space
    ensures kc.Named? ==> r == Some(kc.ch)
  {
    match kc
    case Named(ch) => Some(ch)
    case Space => Some(' ')
    case _ => None
  }
}

=== FILE: entries.dfy ===
/**
 * Keyboard-selectable entries: the dropdown's option selector and the text
 * editor. Each answers the three selection hooks (selected, deselected, key
 * pressed) by updating itself and the event result, and reports whether it
 * consumed the event.
 */
module Entries {
  import opened Base
  import opened Status
  import opened Reflow
  import opened TextEditor

  /** The dropdown's selector: the highlighted option and the bound it may reach. */
  datatype DropDownSelect = DropDownSelect(selected: nat, maxValue: nat)

  /** The selector together with the hook's answer. */
  datatype Keyed = Keyed(sel: DropDownSelect, resp: Option<Response>)

  /**
   * Down moves to the next option while `selected < maxValue`, Up to the
   * previous one while `selected > 0`; anything else, including a move past
   * either bound, is left to the caller.
   */
  function DropDownKey(d: DropDownSelect, kc: Keycode): (r: Keyed)
    ensures r.sel.maxValue == d.maxValue
    ensures r.resp.Some? <==> (kc == Down && d.selected < d.maxValue) || (kc == Up && d.selected > 0)
    ensures r.resp.Some? ==> r.resp == Some(Handled)
    ensures r.resp.None? ==> r.sel == d
    ensures kc == Down && r.resp.Some? ==> r.sel.selected == d.selected + 1
    ensures kc == Up && r.resp.Some? ==> r.sel.selected + 1 == d.selected
  {
    match kc
    case Down =>
      if d.selected < d.maxValue then Keyed(d.(selected := d.selected + 1), Some(Handled))
      else Keyed(d, None)
    case Up =>
      if d.selected > 0 then Keyed(d.(selected := d.selected - 1), Some(Handled))
      else Keyed(d, None)
    case _ => Keyed(d, None)
  }

  /**
   * The selector a dropdown of `n` options hands out, as the program builds
   * it: the bound is the option count itself, one past the last option.
   */
  function OptionSelectAsWritten(selected: nat, n: nat): (d: DropDownSelect)
    ensures d.selected == selected && d.maxValue == n
  {
    DropDownSelect(selected, n)
  }

  /** The selector with its bound at the last option, so Down stops on it. */
  function OptionSelect(selected: nat, n: nat): (d: DropDownSelect)
    ensures d.selected == selected
    ensures n > 0 ==> d.maxValue + 1 == n
    ensures n == 0 ==> d.maxValue == 0
  {
    DropDownSelect(selected, if n > 0 then n - 1 else 0)
  }

  /**
   * As the program builds the selector, Down on the last of `n` options is
   * answered and moves the selection to `n`, which names no option.
   */
  lemma {:induction false} DownPastLastOption(n: nat)
    requires n > 0
    ensures var k := DropDownKey(OptionSelectAsWritten(n - 1, n), Down);
            k.resp == Some(Handled) && k.sel.selected == n
  {
  }

  /** With the corrected bound, no key sequence moves the selection off the options. */
  lemma {:induction false} OptionKeysStayOnOptions(selected: nat, n: nat, keys: seq<Keycode>)
    requires selected < n
    ensures PressAll(OptionSelect(selected, n), keys).selected < n
  {
    DropDownKeysStayInRange(OptionSelect(selected, n), keys);
  }

  /** Key presses keep a selector that starts in [0, maxValue] inside that range. */
  lemma {:induction false} DropDownKeysStayInRange(d: DropDownSelect, keys: seq<Keycode>)
    requires d.selected <= d.maxValue
    ensures PressAll(d, keys).selected <= PressAll(d, keys).maxValue
    ensures PressAll(d, keys).maxValue == d.maxValue
    decreases |keys|
  {
    if |keys| > 0 {
      DropDownKeysStayInRange(DropDownKey(d, keys[0]).sel, keys[1..]);
    }
  }

  /** The selector after a sequence of key presses. */
  function PressAll(d: DropDownSelect, keys: seq<Keycode>): DropDownSelect
    decreases |keys|
  {
    if |keys| == 0 then d else PressAll(DropDownKey(d, keys[0]).sel, keys[1..])
  }

  /** A handled Down followed by Up returns to the original option. */
  lemma {:induction false} DropDownDownUp(d: DropDownSelect)
    requires d.selected < d.maxValue
    ensures DropDownKey(DropDownKey(d, Down).sel, Up) == Keyed(d, Some(Handled))
  {
  }

  /** The arrow keys the editor moves its cursor with. */
  function DirFromKeycode(kc: Keycode): (r: Option<Direction>)
    ensures r.Some? <==> kc in {Left, Right, Up, Down}
    ensures r == Some(DirLeft) <==> kc == Left
    ensures r == Some(DirRight) <==> kc == Right
    ensures r == Some(DirUp) <==> kc == Up
    ensures r == Some(DirDown) <==> kc == Down
  {
    match kc
    case Left => Some(DirLeft)
    case Right => Some(DirRight)
    case Up => Some(DirUp)
    case Down => Some(DirDown)
    case _ => None
  }

  /** An entry of the selection list. */
  datatype Entry = DropEntry(d: DropDownSelect) | TextEntry(t: TextEdit)

  predicate EntryValid(e: Entry)
  {
    e.TextEntry? ==> Valid(e.t)
  }

  /** An entry after a hook, with the event result it wrote to and the hook's answer. */
  datatype Hooked = Hooked(entry: Entry, res: EventResult, resp: Option<Response>)

  /**
   * Selection: the dropdown ignores it; the editor becomes active, sets the
   * text cursor, and reports the event handled. The redraw request the
   * editor returns travels in its answer, which every caller drops, so it
   * never reaches the event result.
   */
  function OnSelect(e: Entry, r: EventResult): (h: Hooked)
    ensures h.entry.DropEntry? <==> e.DropEntry?
    ensures e.DropEntry? ==> h == Hooked(e, r, None)
    ensures e.TextEntry? ==> h.entry == TextEntry(e.t.(active := true))
    ensures e.TextEntry? ==> h.res == r.(cursor := IBeam) && h.resp == Some(Handled)
    ensures h.res.status == r.status && h.res.callbacks == r.callbacks
  {
    match e
    case DropEntry(_) => Hooked(e, r, None)
    case TextEntry(t) => Hooked(TextEntry(t.(active := true)), SetCursor(r, IBeam), Some(Handled))
  }

  /**
   * Deselection: the dropdown ignores it; the editor becomes inactive and
   * reports the event handled. The event result is untouched.
   */
  function OnDeselect(e: Entry, r: EventResult): (h: Hooked)
    ensures h.entry.DropEntry? <==> e.DropEntry?
    ensures e.DropEntry? ==> h == Hooked(e, r, None)
    ensures e.TextEntry? ==> h.entry == TextEntry(e.t.(active := false)) && h.resp == Some(Handled)
    ensures h.res == r
  {
    match e
    case DropEntry(_) => Hooked(e, r, None)
    case TextEntry(t) => Hooked(TextEntry(t.(active := false)), r, Some(Handled))
  }

  /**
   * Key press on the editor: a single-character key or space types that
   * character, an arrow moves the cursor, Backspace deletes; those are
   * handled, and every other key is left to the caller. The event result is
   * untouched either way.
   */
  function TextKey(t: TextEdit, kc: Keycode, m: Metrics, r: EventResult): (h: Hooked)
    requires Valid(t)
    ensures h.entry.TextEntry? && Valid(h.entry.t)
    ensures h.resp.Some? <==> CharFromKeycode(kc).Some? || DirFromKeycode(kc).Some? || kc == Backspace
    ensures h.resp.None? ==> h == Hooked(TextEntry(t), r, None)
    ensures h.resp.Some? ==> h.resp == Some(Handled)
    ensures CharFromKeycode(kc).Some? ==> h.entry.t == InsertChar(t, CharFromKeycode(kc).value, m)
    ensures CharFromKeycode(kc).None? && DirFromKeycode(kc).Some? ==> h.entry.t == MoveCursor(t, DirFromKeycode(kc).value)
    ensures kc == Backspace ==> h.entry.t == DeleteChar(t, m)
    ensures h.res == r
  {
    var ch := CharFromKeycode(kc);
    var dir := DirFromKeycode(kc);
    if ch.Some? then Hooked(TextEntry(InsertChar(t, ch.value, m)), r, Some(Handled))
    else if dir.Some? then Hooked(TextEntry(MoveCursor(t, dir.value)), r, Some(Handled))
    else if kc == Backspace then Hooked(TextEntry(DeleteChar(t, m)), r, Some(Handled))
    else Hooked(TextEntry(t), r, None)
  }

  /** Key press on any entry. */
  function OnKey(e: Entry, kc: Keycode, m: Metrics, r: EventResult): (h: Hooked)
    requires EntryValid(e)
    ensures EntryValid(h.entry) && (h.entry.DropEntry? <==> e.DropEntry?)
    ensures e.DropEntry? ==> var k := DropDownKey(e.d, kc); h == Hooked(DropEntry(k.sel), r, k.resp)
    ensures e.TextEntry? ==> h == TextKey(e.t, kc, m, r)
    ensures h.res == r
  {
    match e
    case DropEntry(d) =>
      var k := DropDownKey(d, kc);
      Hooked(DropEntry(k.sel), r, k.resp)
    case TextEntry(t) => TextKey(t, kc, m, r)
  }
}

=== FILE: geometry.dfy ===
/** Points and axis-aligned rectangles in widget-relative coordinates. */
module Geometry {

  /** A point or a size; pixel widths are modelled as integers. */
  datatype Point = Point(x: int, y: int)

  const Origin := Point(0, 0)

  function Add(a: Point, b: Point): Point
  {
    Point(a.x + b.x, a.y + b.y)
  }

  function Sub(a: Point, b: Point): Point
  {
    Point(a.x - b.x, a.y - b.y)
  }

  function Max(a: int, b: int): int
  {
    if a < b then b else a
  }

  /** A rectangle from corner `c1` (near) to corner `c2` (far). */
  datatype Rect = Rect(c1: Point, c2: Point)

  /** The rectangle's extent. */
  function Extent(r: Rect): Point
  {
    Sub(r.c2, r.c1)
  }

  /**
   * Hit test: the near edges belong to the rectangle, the far edges do not.
   * The program's `Rect::in_bounds` is not part of this model; this
   * half-open test stands in for it, and its viewport argument is dropped.
   */
  predicate InBounds(r: Rect, p: Point)
  {
    r.c1.x <= p.x < r.c2.x && r.c1.y <= p.y < r.c2.y
  }

  /**
   * Moves the rectangle so that its near corner is `off`, keeping its
   * extent. The program's `Rect::set_offset` is not part of this model;
   * this is the behaviour the grid layout relies on.
   */
  function SetOffset(r: Rect, off: Point): (r': Rect)
    ensures r'.c1 == off && Extent(r') == Extent(r)
  {
    Rect(off, Add(off, Extent(r)))
  }
}

=== FILE: graph.dfy ===
/**
 * The graph editor: vertices with sequential ids, an adjacency map, an
 * ordered edge list kept in step with it, and a per-vertex selection flag.
 * The V key adds a vertex, the E key connects every selected vertex to
 * every selected vertex, and a click selects the vertex under the pointer
 * or clears the selection.
 */
module GraphMode {
  import opened Base

  /** The graph: adjacency sets by vertex id, the edges in insertion order, and the next id to hand out. */
  datatype Graph = Graph(adj: map<nat, set<nat>>, edges: seq<(nat, nat)>, nextId: nat)

  /** The editor's state: the graph and each vertex's selection flag. */
  datatype GraphState = GraphState(graph: Graph, selection: map<nat, bool>)

  const EmptyGraph: Graph := Graph(map[], [], 0)

  const NewState: GraphState := GraphState(EmptyGraph, map[])

  /** Every vertex id is below the next id to hand out. */
  predicate IdsBelow(g: Graph)
  {
    forall v :: v in g.adj ==> v < g.nextId
  }

  /** Every adjacency target is itself a vertex. */
  predicate Closed(adj: map<nat, set<nat>>)
  {
    forall v, u :: v in adj && u in adj[v] ==> u in adj
  }

  /** The edge list records exactly the adjacency memberships. */
  predicate EdgesMatch(adj: map<nat, set<nat>>, edges: seq<(nat, nat)>)
  {
    && (forall e :: e in edges ==> e.0 in adj && e.1 in adj[e.0])
    && (forall v, u :: v in adj && u in adj[v] ==> (v, u) in edges)
  }

  /** No edge is listed twice. */
  predicate NoDup(edges: seq<(nat, nat)>)
  {
    forall i, j :: 0 <= i < j < |edges| ==> edges[i] != edges[j]
  }

  /** The editor's invariant. */
  predicate Inv(s: GraphState)
  {
    && s.selection.Keys == s.graph.adj.Keys
    && IdsBelow(s.graph)
    && Closed(s.graph.adj)
    && EdgesMatch(s.graph.adj, s.graph.edges)
    && NoDup(s.graph.edges)
  }

  lemma NewStateInv()
    ensures Inv(NewState)
  {
  }

  /** The selected vertices. */
  function Selected(sel: map<nat, bool>): set<nat>
  {
    set v | v in sel && sel[v]
  }

  /**
   * Adds a vertex: the next id is returned, gets an empty adjacency set and
   * is never handed out again.
   */
  function Add(g: Graph): (r: (Graph, nat))
    ensures r.1 == g.nextId && r.0.nextId == g.nextId + 1
    ensures r.0.adj == g.adj[r.1 := {}] && r.0.edges == g.edges
    ensures IdsBelow(g) ==> r.1 !in g.adj && IdsBelow(r.0)
  {
    (Graph(g.adj[g.nextId := {}], g.edges, g.nextId + 1), g.nextId)
  }

  /** Two additions hand out two consecutive, distinct ids. */
  lemma {:induction false} AddSequential(g: Graph)
    ensures Add(Add(g).0).1 == Add(g).1 + 1
    ensures Add(g).1 in Add(Add(g).0).0.adj && Add(Add(g).0).1 in Add(Add(g).0).0.adj
  {
  }

  /** Adds a vertex and registers it as unselected; the invariant is kept. */
  function AddVert(s: GraphState): (r: GraphState)
    ensures r.graph == Add(s.graph).0
    ensures r.selection == s.selection[Add(s.graph).1 := false]
    ensures Inv(s) ==> Inv(r) && |r.graph.adj| == |s.graph.adj| + 1 && r.graph.edges == s.graph.edges
    ensures Selected(r.selection) == Selected(s.selection) - {s.graph.nextId}
  {
    var (g, id) := Add(s.graph);
    var r := GraphState(g, s.selection[id := false]);
    if Inv(s) then
      assert forall v :: v in r.graph.adj && v != id ==> r.graph.adj[v] == s.graph.adj[v];
      r
    else r
  }

  /** `order` lists the selection's vertices, each exactly once: the map's iteration order. */
  predicate Enumerates(order: seq<nat>, sel: map<nat, bool>)
  {
    && Listed(order, sel)
    && (forall v :: v in sel ==> v in order)
    && Distinct(order)
  }

  /** Every vertex `order` lists has a selection flag. */
  predicate Listed(order: seq<nat>, sel: map<nat, bool>)
  {
    forall k :: 0 <= k < |order| ==> order[k] in sel
  }

  /** No vertex is listed twice. */
  predicate Distinct(order: seq<nat>)
  {
    forall i, j :: 0 <= i < j < |order| ==> order[i] != order[j]
  }

  /** The selected vertices among the first `j` of `order`. */
  function SelectedIn(sel: map<nat, bool>, order: seq<nat>, j: nat): (r: set<nat>)
    requires j <= |order| && forall k :: 0 <= k < |order| ==> order[k] in sel
    ensures r <= Selected(sel)
  {
    if j == 0 then {}
    else SelectedIn(sel, order, j - 1) + (if sel[order[j - 1]] then {order[j - 1]} else {})
  }

  /** The prefix selection holds exactly the selected vertices among the first `j`. */
  lemma {:induction false} SelectedInMembers(sel: map<nat, bool>, order: seq<nat>, j: nat)
    requires j <= |order| && forall k :: 0 <= k < |order| ==> order[k] in sel
    ensures forall u :: u in SelectedIn(sel, order, j) <==> u in order[..j] && sel[u]
  {
    if j > 0 {
      SelectedInMembers(sel, order, j - 1);
      assert order[..j] == order[..j - 1] + [order[j - 1]];
    }
  }

  /** Every selected vertex is already adjacent to every selected vertex. */
  predicate AllConnected(adj: map<nat, set<nat>>, sel: map<nat, bool>)
  {
    forall v :: v in adj && v in sel && sel[v] ==> Selected(sel) <= adj[v]
  }

  /**
   * One step of the inner pass: a selected `u` that `v` is not yet adjacent
   * to joins `v`'s set and the edge `(v, u)` is appended; otherwise nothing
   * changes.
   */
  function Link(g: Graph, sel: map<nat, bool>, v: nat, u: nat): (r: Graph)
    requires v in g.adj && u in sel
    ensures r.adj.Keys == g.adj.Keys && r.nextId == g.nextId
    ensures forall x :: x in g.adj && x != v ==> r.adj[x] == g.adj[x]
    ensures r.adj[v] == g.adj[v] + (if sel[u] then {u} else {})
    ensures !sel[u] || u in g.adj[v] ==> r == g
  {
    if sel[u] && u !in g.adj[v] then Graph(g.adj[v := g.adj[v] + {u}], g.edges + [(v, u)], g.nextId) else g
  }

  /** The inner pass for `v` over the first `j` vertices of `order`: the reference for `ConnectFrom`. */
  function LinkFrom(g: Graph, sel: map<nat, bool>, order: seq<nat>, v: nat, j: nat): (r: Graph)
    requires v in g.adj && j <= |order| && forall k :: 0 <= k < |order| ==> order[k] in sel
    ensures r.adj.Keys == g.adj.Keys && r.nextId == g.nextId
  {
    if j == 0 then g else Link(LinkFrom(g, sel, order, v, j - 1), sel, v, order[j - 1])
  }

  /** The outer pass over the first `i` vertices of `order`: the reference for `AddSelectedEdges`. */
  function ConnectUpTo(g: Graph, sel: map<nat, bool>, order: seq<nat>, i: nat): (r: Graph)
    requires i <= |order| && sel.Keys == g.adj.Keys && forall k :: 0 <= k < |order| ==> order[k] in sel
    ensures r.adj.Keys == g.adj.Keys && r.nextId == g.nextId
  {
    if i == 0 then g
    else
      var h := ConnectUpTo(g, sel, order, i - 1);
      if sel[order[i - 1]] then LinkFrom(h, sel, order, order[i - 1], |order|) else h
  }

  /**
   * The inner pass adds exactly the selected vertices seen so far to `v`'s
   * set, touches no other vertex, and changes nothing when they were all
   * there already.
   */
  lemma {:induction false} LinkFromShape(g: Graph, sel: map<nat, bool>, order: seq<nat>, v: nat, j: nat)
    requires v in g.adj && j <= |order| && forall k :: 0 <= k < |order| ==> order[k] in sel
    ensures forall x :: x in g.adj && x != v ==> LinkFrom(g, sel, order, v, j).adj[x] == g.adj[x]
    ensures LinkFrom(g, sel, order, v, j).adj[v] == g.adj[v] + SelectedIn(sel, order, j)
    ensures SelectedIn(sel, order, j) <= g.adj[v] ==> LinkFrom(g, sel, order, v, j) == g
  {
    if j > 0 {
      LinkFromShape(g, sel, order, v, j - 1);
    }
  }

  /** The inner pass keeps adjacency and edge list in step, without repeats, and only appends. */
  lemma {:induction false} LinkFromWf(g: Graph, sel: map<nat, bool>, order: seq<nat>, v: nat, j: nat, base: seq<(nat, nat)>)
    requires v in g.adj && j <= |order| && forall k :: 0 <= k < |order| ==> order[k] in sel
    requires sel.Keys == g.adj.Keys && Closed(g.adj) && EdgesMatch(g.adj, g.edges) && NoDup(g.edges)
    requires |base| <= |g.edges| && g.edges[..|base|] == base
    ensures var r := LinkFrom(g, sel, order, v, j);
      Closed(r.adj) && EdgesMatch(r.adj, r.edges) && NoDup(r.edges) && |base| <= |r.edges| && r.edges[..|base|] == base
  {
    if j > 0 {
      LinkFromWf(g, sel, order, v, j - 1, base);
      var h := LinkFrom(g, sel, order, v, j - 1);
      var u := order[j - 1];
      if sel[u] && u !in h.adj[v] {
        InsertEdge(h.adj, h.edges, v, u);
        PrefixGrows(h.edges, base, (v, u));
      }
    }
  }

  /**
   * After the outer pass has visited the first `i` vertices, each visited
   * selected vertex is adjacent to exactly its old neighbours and all
   * selected vertices.
   */
  lemma {:induction false} ConnectUpToVisited(g: Graph, sel: map<nat, bool>, order: seq<nat>, i: nat)
    requires i <= |order| && sel.Keys == g.adj.Keys && Listed(order, sel) && Distinct(order)
    requires SelectedIn(sel, order, |order|) == Selected(sel)
    ensures forall k :: 0 <= k < i && sel[order[k]] ==>
              ConnectUpTo(g, sel, order, i).adj[order[k]] == g.adj[order[k]] + Selected(sel)
  {
    if i > 0 {
      ConnectUpToVisited(g, sel, order, i - 1);
      ConnectUpToUnvisited(g, sel, order, i - 1);
      var h := ConnectUpTo(g, sel, order, i - 1);
      var r := ConnectUpTo(g, sel, order, i);
      var v := order[i - 1];
      if sel[v] {
        LinkFromShape(h, sel, order, v, |order|);
        forall k | 0 <= k < i && sel[order[k]]
          ensures r.adj[order[k]] == g.adj[order[k]] + Selected(sel)
        {
          if k < i - 1 {
            assert order[k] != v;
          }
        }
      } else {
        forall k | 0 <= k < i && sel[order[k]]
          ensures r.adj[order[k]] == g.adj[order[k]] + Selected(sel)
        {
          assert k != i - 1;
        }
      }
    }
  }

  /** The outer pass leaves the vertices it has not yet visited untouched. */
  lemma {:induction false} ConnectUpToUnvisited(g: Graph, sel: map<nat, bool>, order: seq<nat>, i: nat)
    requires i <= |order| && sel.Keys == g.adj.Keys && Listed(order, sel) && Distinct(order)
    ensures forall k :: i <= k < |order| ==> ConnectUpTo(g, sel, order, i).adj[order[k]] == g.adj[order[k]]
  {
    if i > 0 {
      ConnectUpToUnvisited(g, sel, order, i - 1);
      var h := ConnectUpTo(g, sel, order, i - 1);
      var v := order[i - 1];
      if sel[v] {
        LinkFromShape(h, sel, order, v, |order|);
        forall k | i <= k < |order|
          ensures ConnectUpTo(g, sel, order, i).adj[order[k]] == g.adj[order[k]]
        {
          assert order[k] != v;
        }
      }
    }
  }

  /**
   * The outer pass never touches an unselected vertex, and changes nothing
   * if every selected pair was already connected.
   */
  lemma {:induction false} ConnectUpToUnselected(g: Graph, sel: map<nat, bool>, order: seq<nat>, i: nat)
    requires i <= |order| && sel.Keys == g.adj.Keys && Listed(order, sel) && Distinct(order)
    requires SelectedIn(sel, order, |order|) == Selected(sel)
    ensures forall x :: x in g.adj && !sel[x] ==> ConnectUpTo(g, sel, order, i).adj[x] == g.adj[x]
    ensures AllConnected(g.adj, sel) ==> ConnectUpTo(g, sel, order, i) == g
  {
    if i > 0 {
      ConnectUpToUnselected(g, sel, order, i - 1);
      var h := ConnectUpTo(g, sel, order, i - 1);
      var v := order[i - 1];
      if sel[v] {
        LinkFromShape(h, sel, order, v, |order|);
      }
    }
  }

  /** The outer pass keeps adjacency and edge list in step, without repeats, and only appends. */
  lemma {:induction false} ConnectUpToWf(g: Graph, sel: map<nat, bool>, order: seq<nat>, i: nat)
    requires i <= |order| && sel.Keys == g.adj.Keys && forall k :: 0 <= k < |order| ==> order[k] in sel
    requires Closed(g.adj) && EdgesMatch(g.adj, g.edges) && NoDup(g.edges)
    ensures var r := ConnectUpTo(g, sel, order, i);
      Closed(r.adj) && EdgesMatch(r.adj, r.edges) && NoDup(r.edges) && |g.edges| <= |r.edges| && r.edges[..|g.edges|] == g.edges
  {
    if i > 0 {
      ConnectUpToWf(g, sel, order, i - 1);
      var h := ConnectUpTo(g, sel, order, i - 1);
      if sel[order[i - 1]] {
        LinkFromWf(h, sel, order, order[i - 1], |order|, g.edges);
      }
    }
  }

  /**
   * Connects every selected vertex to every selected vertex, self-loops
   * included: for each selected `v` in iteration order, and each selected
   * `u` in iteration order that `v` is not yet adjacent to, `u` joins
   * `v`'s set and the edge `(v, u)` is appended. Afterwards a selected
   * vertex is adjacent to exactly its old neighbours and all selected
   * vertices, an unselected vertex's set is unchanged, the edge list only
   * grew and still matches the adjacency without repeats, and when every
   * selected pair was already connected nothing changes at all.
   */
  method AddSelectedEdges(s: GraphState, order: seq<nat>) returns (r: GraphState)
    requires Inv(s) && Enumerates(order, s.selection)
    ensures Inv(r)
    ensures r.selection == s.selection && r.graph.nextId == s.graph.nextId
    ensures r.graph.adj.Keys == s.graph.adj.Keys
    ensures forall v :: v in s.graph.adj && s.selection[v] ==> r.graph.adj[v] == s.graph.adj[v] + Selected(s.selection)
    ensures forall v :: v in s.graph.adj && !s.selection[v] ==> r.graph.adj[v] == s.graph.adj[v]
    ensures |s.graph.edges| <= |r.graph.edges| && r.graph.edges[..|s.graph.edges|] == s.graph.edges
    ensures AllConnected(s.graph.adj, s.selection) ==> r == s
  {
    var g := ConnectEach(s.graph, s.selection, order);
    r := GraphState(g, s.selection);
    ConnectAll(s, order);
  }

  /** The outer loop: the inner pass for each selected vertex in iteration order. */
  method ConnectEach(g0: Graph, sel: map<nat, bool>, order: seq<nat>) returns (g: Graph)
    requires sel.Keys == g0.adj.Keys && Enumerates(order, sel)
    ensures g == ConnectUpTo(g0, sel, order, |order|)
  {
    g := g0;
    var i := 0;
    while i < |order|
      invariant 0 <= i <= |order|
      invariant g == ConnectUpTo(g0, sel, order, i)
    {
      var v := order[i];
      if sel[v] {
        g := ConnectFrom(g, sel, order, v);
      }
      i := i + 1;
    }
  }

  /** The whole outer pass, from a state satisfying the invariant. */
  lemma ConnectAll(s: GraphState, order: seq<nat>)
    requires Inv(s) && Enumerates(order, s.selection)
    ensures var g := ConnectUpTo(s.graph, s.selection, order, |order|);
      && Closed(g.adj) && EdgesMatch(g.adj, g.edges) && NoDup(g.edges)
      && (forall v :: v in s.graph.adj && s.selection[v] ==> g.adj[v] == s.graph.adj[v] + Selected(s.selection))
      && (forall v :: v in s.graph.adj && !s.selection[v] ==> g.adj[v] == s.graph.adj[v])
      && |s.graph.edges| <= |g.edges| && g.edges[..|s.graph.edges|] == s.graph.edges
      && (AllConnected(s.graph.adj, s.selection) ==> g == s.graph)
  {
    var sel := s.selection;
    var g := ConnectUpTo(s.graph, sel, order, |order|);
    SelectedInAll(sel, order);
    ConnectUpToVisited(s.graph, sel, order, |order|);
    ConnectUpToUnselected(s.graph, sel, order, |order|);
    ConnectUpToWf(s.graph, sel, order, |order|);
    forall v | v in s.graph.adj && sel[v]
      ensures g.adj[v] == s.graph.adj[v] + Selected(sel)
    {
      var k :| 0 <= k < |order| && order[k] == v;
    }
  }

  /**
   * The inner pass for one selected vertex `v`: every selected vertex not yet
   * in `v`'s set joins it, with its edge appended, so that `v` ends adjacent
   * to its old neighbours and every selected vertex `order` lists, and no
   * other vertex changes.
   */
  method ConnectFrom(g0: Graph, sel: map<nat, bool>, order: seq<nat>, v: nat) returns (g: Graph)
    requires v in g0.adj && Listed(order, sel)
    ensures g == LinkFrom(g0, sel, order, v, |order|)
    ensures g.adj.Keys == g0.adj.Keys && g.adj[v] == g0.adj[v] + SelectedIn(sel, order, |order|)
    ensures forall x :: x in g0.adj && x != v ==> g.adj[x] == g0.adj[x]
    ensures SelectedIn(sel, order, |order|) <= g0.adj[v] ==> g == g0
  {
    g := g0;
    var j := 0;
    while j < |order|
      invariant 0 <= j <= |order|
      invariant g == LinkFrom(g0, sel, order, v, j)
    {
      var u := order[j];
      ghost var before := g;
      if sel[u] && u !in g.adj[v] {
        g := Graph(g.adj[v := g.adj[v] + {u}], g.edges + [(v, u)], g.nextId);
      }
      assert g == Link(before, sel, v, u);
      j := j + 1;
    }
    LinkFromShape(g0, sel, order, v, |order|);
  }

  /** Over the whole enumeration the prefix selection is the selection. */
  lemma SelectedInAll(sel: map<nat, bool>, order: seq<nat>)
    requires Enumerates(order, sel)
    ensures SelectedIn(sel, order, |order|) == Selected(sel)
  {
    SelectedInMembers(sel, order, |order|);
    assert order[..|order|] == order;
  }

  /** Inserting a missing edge into both the adjacency and the list keeps the three invariants. */
  lemma InsertEdge(adj: map<nat, set<nat>>, edges: seq<(nat, nat)>, v: nat, u: nat)
    requires Closed(adj) && EdgesMatch(adj, edges) && NoDup(edges)
    requires v in adj && u in adj && u !in adj[v]
    ensures Closed(adj[v := adj[v] + {u}])
    ensures EdgesMatch(adj[v := adj[v] + {u}], edges + [(v, u)])
    ensures NoDup(edges + [(v, u)])
  {
    assert (v, u) !in edges;
    AppendFresh(edges, (v, u));
  }

  /** Appending keeps a prefix. */
  lemma PrefixGrows(edges: seq<(nat, nat)>, pre: seq<(nat, nat)>, e: (nat, nat))
    requires |pre| <= |edges| && edges[..|pre|] == pre
    ensures (edges + [e])[..|pre|] == pre
  {
    assert (edges + [e])[..|pre|] == edges[..|pre|];
  }

  /** Appending an edge not yet listed keeps the list free of repeats. */
  lemma AppendFresh(edges: seq<(nat, nat)>, e: (nat, nat))
    requires NoDup(edges) && e !in edges
    ensures NoDup(edges + [e])
  {
    var es := edges + [e];
    forall i, j | 0 <= i < j < |es|
      ensures es[i] != es[j]
    {
      if j == |edges| {
        assert es[i] in edges;
      }
    }
  }

  /**
   * A click: if the pointer is over a vertex (the hit test is an input),
   * that vertex becomes selected and the others keep their flags; over
   * empty space every vertex is deselected. The vertices never change.
   */
  function HandleSelect(s: GraphState, hit: Option<nat>): (r: GraphState)
    ensures r.graph == s.graph && r.selection.Keys == s.selection.Keys
    ensures hit.Some? ==> forall v :: v in s.selection ==> r.selection[v] == (s.selection[v] || v == hit.value)
    ensures hit.None? ==> forall v :: v in s.selection ==> !r.selection[v]
    ensures Inv(s) ==> Inv(r)
  {
    match hit
    case Some(id) =>
      if id in s.selection then s.(selection := s.selection[id := true]) else s
    case None =>
      s.(selection := map v | v in s.selection :: false)
  }

  /** Clicking empty space empties the selection; clicking a vertex puts it in. */
  lemma {:induction false} SelectEffect(s: GraphState, hit: Option<nat>)
    ensures hit.None? ==> Selected(HandleSelect(s, hit).selection) == {}
    ensures hit.Some? && hit.value in s.selection ==>
              Selected(HandleSelect(s, hit).selection) == Selected(s.selection) + {hit.value}
    ensures hit.Some? && hit.value !in s.selection ==> HandleSelect(s, hit) == s
  {
    var r := HandleSelect(s, hit);
    if hit.Some? && hit.value in s.selection {
      assert forall v :: v in Selected(r.selection) <==> v in Selected(s.selection) + {hit.value};
    }
  }

  /**
   * The mouse events the graph editor tells apart: a button press (any
   * button) with the vertex under the pointer, if any, and everything else.
   */
  datatype GraphEvent = Press(hit: Option<nat>) | OtherGraphEvent

  /**
   * A mouse event: a press selects as `HandleSelect` does; any other event
   * changes nothing. The graph itself never changes.
   */
  function HandleMouseEvent(s: GraphState, ev: GraphEvent): (r: GraphState)
    ensures r.graph == s.graph && r.selection.Keys == s.selection.Keys
    ensures Inv(s) ==> Inv(r)
    ensures ev.OtherGraphEvent? ==> r == s
    ensures ev.Press? && ev.hit.None? ==> Selected(r.selection) == {}
    ensures ev.Press? && ev.hit.Some? && ev.hit.value in s.selection ==>
              Selected(r.selection) == Selected(s.selection) + {ev.hit.value}
  {
    match ev
    case Press(hit) =>
      SelectEffect(s, hit);
      HandleSelect(s, hit)
    case OtherGraphEvent => s
  }

  /** The key that adds a vertex and the key that adds edges. */
  const AddVertKey: Keycode := Named('V')
  const AddEdgesKey: Keycode := Named('E')

  /** A key press: V adds a vertex, E connects the selection, any other key changes nothing. */
  method HandleKeyboardEvent(s: GraphState, kc: Keycode, order: seq<nat>) returns (r: GraphState)
    requires Inv(s) && Enumerates(order, s.selection)
    ensures Inv(r)
    ensures kc == AddVertKey ==> r == AddVert(s)
    ensures kc == AddEdgesKey ==> r.selection == s.selection && r.graph.adj.Keys == s.graph.adj.Keys
    ensures kc == AddEdgesKey ==> forall v, u :: v in Selected(s.selection) && u in Selected(s.selection) ==> u in r.graph.adj[v]
    ensures kc != AddVertKey && kc != AddEdgesKey ==> r == s
  {
    if kc == AddVertKey {
      r := AddVert(s);
    } else if kc == AddEdgesKey {
      r := AddSelectedEdges(s, order);
    } else {
      r := s;
    }
  }
}

=== FILE: layout.dfy ===
/**
 * The two layouts' measuring passes, as functions from the children's
 * measured sizes to the children's rectangles and the aggregate size: a
 * stack along one axis with a fixed gap, and a grid of equal-width columns
 * and equal-height rows.
 */
module Layout {
  import opened Geometry
  import opened Tree

  /** Extent along the stacking axis. */
  function Main(p: Point, o: Orientation): int
  {
    if o == Vertical then p.y else p.x
  }

  /** Extent across the stacking axis. */
  function Cross(p: Point, o: Orientation): int
  {
    if o == Vertical then p.x else p.y
  }

  /** The point with the given extents along and across the stacking axis. */
  function Along(o: Orientation, main: int, cross: int): (p: Point)
    ensures Main(p, o) == main && Cross(p, o) == cross
  {
    if o == Vertical then Point(cross, main) else Point(main, cross)
  }

  /** Length of the stack of the first `i` children: each visible child adds its extent plus the gap. */
  function StackLen(o: Orientation, sp: int, vis: seq<Visibility>, ms: seq<Point>, i: nat): int
    requires i <= |vis| == |ms|
  {
    if i == 0 then 0
    else StackLen(o, sp, vis, ms, i - 1) + (if vis[i - 1] == Collapsed then 0 else Main(ms[i - 1], o) + sp)
  }

  /** Widest visible child among the first `i`, and 0 when there is none. */
  function CrossMax(o: Orientation, vis: seq<Visibility>, ms: seq<Point>, i: nat): int
    requires i <= |vis| == |ms|
  {
    if i == 0 then 0
    else if vis[i - 1] == Collapsed then CrossMax(o, vis, ms, i - 1)
    else Max(CrossMax(o, vis, ms, i - 1), Cross(ms[i - 1], o))
  }

  /** The rectangle of visible child `i`: one gap past the stack before it, flush with the cross axis. */
  function StackRect(o: Orientation, sp: int, vis: seq<Visibility>, ms: seq<Point>, i: nat): (r: Rect)
    requires i < |vis| == |ms|
    ensures Extent(r) == ms[i]
    ensures Main(r.c1, o) == StackLen(o, sp, vis, ms, i) + sp && Cross(r.c1, o) == 0
  {
    var off := Along(o, StackLen(o, sp, vis, ms, i) + sp, 0);
    Rect(off, Add(off, ms[i]))
  }

  /**
   * The stack's measuring pass over the children's visibilities and measured
   * sizes. Collapsed children are skipped and keep their rectangles. The
   * gap is applied before every visible child, the first included, because
   * the first-child flag starts out false. The rectangle table must have a
   * slot for every visible child; collapsed children are never looked up.
   */
  method ListRemeasure(o: Orientation, spacing: nat, rects: seq<Rect>, vis: seq<Visibility>, ms: seq<Point>)
    returns (rects': seq<Rect>, size: Point)
    requires |vis| == |ms|
    requires forall i :: 0 <= i < |vis| && vis[i] != Collapsed ==> i < |rects|
    ensures |rects'| == |rects|
    ensures forall i :: 0 <= i < |vis| && vis[i] != Collapsed ==> rects'[i] == StackRect(o, spacing, vis, ms, i)
    ensures forall i :: 0 <= i < |rects| && (i >= |vis| || vis[i] == Collapsed) ==> rects'[i] == rects[i]
    ensures size == Along(o, StackLen(o, spacing, vis, ms, |vis|), CrossMax(o, vis, ms, |vis|))
    ensures (rects', size) == StackPlace(o, spacing, rects, vis, ms)
  {
    var off := Origin;
    size := Origin;
    var first := false;
    rects' := rects;
    var i := 0;
    while i < |vis|
      invariant 0 <= i <= |vis| && |rects'| == |rects| && !first
      invariant Main(size, o) == StackLen(o, spacing, vis, ms, i) && Cross(size, o) == CrossMax(o, vis, ms, i)
      invariant Cross(off, o) == 0
      invariant forall j :: 0 <= j < i && j < |rects| && vis[j] == Collapsed ==> rects'[j] == rects[j]
      invariant forall j {:trigger rects'[j]} :: 0 <= j < i && vis[j] != Collapsed ==> rects'[j] == StackRect(o, spacing, vis, ms, j)
      invariant forall j :: i <= j < |rects| ==> rects'[j] == rects[j]
    {
      StackStep(o, spacing, vis, ms, i);
      if vis[i] == Collapsed {
        i := i + 1;
        continue;
      }
      var sp: int;
      if first {
        sp := 0;
      } else {
        first := false;
        sp := spacing;
      }
      off, size := PlaceChild(o, sp, off, size, ms[i]);
      SameAlong(off, StackRect(o, spacing, vis, ms, i).c1, o);
      rects' := rects'[i := Rect(off, Add(off, ms[i]))];
      i := i + 1;
    }
    SameAlong(size, Along(o, StackLen(o, spacing, vis, ms, |vis|), CrossMax(o, vis, ms, |vis|)), o);
    ghost var f := StackPlace(o, spacing, rects, vis, ms).0;
    assert forall j :: 0 <= j < |rects| ==> rects'[j] == f[j];
    assert rects' == f;
  }

  /**
   * The stack's measuring pass as a function: visible children get their
   * stacked rectangles, every other slot keeps its rectangle.
   */
  function StackPlace(o: Orientation, sp: int, rects: seq<Rect>, vis: seq<Visibility>, ms: seq<Point>)
    : (r: (seq<Rect>, Point))
    requires |vis| == |ms|
    requires forall i :: 0 <= i < |vis| && vis[i] != Collapsed ==> i < |rects|
    ensures |r.0| == |rects|
    ensures forall i :: 0 <= i < |vis| && vis[i] != Collapsed ==> r.0[i] == StackRect(o, sp, vis, ms, i)
    ensures forall i :: 0 <= i < |rects| && (i >= |vis| || vis[i] == Collapsed) ==> r.0[i] == rects[i]
    ensures r.1 == Along(o, StackLen(o, sp, vis, ms, |vis|), CrossMax(o, vis, ms, |vis|))
  {
    (seq(|rects|, i requires 0 <= i < |rects| =>
       if i < |vis| && vis[i] != Collapsed then StackRect(o, sp, vis, ms, i) else rects[i]),
     Along(o, StackLen(o, sp, vis, ms, |vis|), CrossMax(o, vis, ms, |vis|)))
  }

  /**
   * One visible child of the stack: it starts one gap past the stack so far,
   * the stack grows by its extent plus the gap and widens to cover it.
   */
  method PlaceChild(o: Orientation, sp: int, off: Point, size: Point, m: Point) returns (off': Point, size': Point)
    ensures Main(off', o) == Main(size, o) + sp && Cross(off', o) == Cross(off, o)
    ensures Main(size', o) == Main(size, o) + Main(m, o) + sp && Cross(size', o) == Max(Cross(size, o), Cross(m, o))
  {
    if o == Vertical {
      off' := off.(y := size.y + sp);
      size' := Point(Max(size.x, m.x), size.y + m.y + sp);
    } else {
      off' := off.(x := size.x + sp);
      size' := Point(size.x + m.x + sp, Max(size.y, m.y));
    }
  }

  /** A point is determined by its two extents. */
  lemma SameAlong(p: Point, q: Point, o: Orientation)
    requires Main(p, o) == Main(q, o) && Cross(p, o) == Cross(q, o)
    ensures p == q
  {
  }

  /** One child's contribution to the stack. */
  lemma StackStep(o: Orientation, sp: int, vis: seq<Visibility>, ms: seq<Point>, i: nat)
    requires i < |vis| == |ms|
    ensures vis[i] == Collapsed ==> StackLen(o, sp, vis, ms, i + 1) == StackLen(o, sp, vis, ms, i)
    ensures vis[i] == Collapsed ==> CrossMax(o, vis, ms, i + 1) == CrossMax(o, vis, ms, i)
    ensures vis[i] != Collapsed ==> StackLen(o, sp, vis, ms, i + 1) == StackLen(o, sp, vis, ms, i) + Main(ms[i], o) + sp
    ensures vis[i] != Collapsed ==> CrossMax(o, vis, ms, i + 1) == Max(CrossMax(o, vis, ms, i), Cross(ms[i], o))
  {
  }

  /** Every visible rectangle begins one gap after the previous visible one ends. */
  lemma {:induction false} StackAdjacent(o: Orientation, sp: int, vis: seq<Visibility>, ms: seq<Point>, i: nat, j: nat)
    requires i < j < |vis| == |ms|
    requires vis[i] != Collapsed && vis[j] != Collapsed
    requires forall k :: i < k < j ==> vis[k] == Collapsed
    ensures Main(StackRect(o, sp, vis, ms, j).c1, o) == Main(StackRect(o, sp, vis, ms, i).c2, o) + sp
  {
    StackSkipsCollapsed(o, sp, vis, ms, i + 1, j);
  }

  /** Collapsed children add nothing to the stack. */
  lemma {:induction false} StackSkipsCollapsed(o: Orientation, sp: int, vis: seq<Visibility>, ms: seq<Point>, i: nat, j: nat)
    requires i <= j <= |vis| == |ms|
    requires forall k :: i <= k < j ==> vis[k] == Collapsed
    ensures StackLen(o, sp, vis, ms, j) == StackLen(o, sp, vis, ms, i)
    decreases j - i
  {
    if i < j {
      StackSkipsCollapsed(o, sp, vis, ms, i, j - 1);
    }
  }

  /** The stack's length is the far edge of its last visible rectangle. */
  lemma {:induction false} StackEndsAtLast(o: Orientation, sp: int, vis: seq<Visibility>, ms: seq<Point>, i: nat)
    requires i < |vis| == |ms| && vis[i] != Collapsed
    requires forall k :: i < k < |vis| ==> vis[k] == Collapsed
    ensures StackLen(o, sp, vis, ms, |vis|) == Main(StackRect(o, sp, vis, ms, i).c2, o)
  {
    StackSkipsCollapsed(o, sp, vis, ms, i + 1, |vis|);
  }

  /** The stack is at least as wide as each visible child. */
  lemma {:induction false} CrossMaxCovers(o: Orientation, vis: seq<Visibility>, ms: seq<Point>, i: nat, k: nat)
    requires k < i <= |vis| == |ms| && vis[k] != Collapsed
    ensures Cross(ms[k], o) <= CrossMax(o, vis, ms, i)
    decreases i
  {
    if k < i - 1 {
      CrossMaxCovers(o, vis, ms, i - 1, k);
    }
  }

  // ---------------------------------------------------------------------------
  // Grid

  /** The smallest row count that holds `total` cells in rows of `n`. */
  function RowsOf(total: nat, n: nat): nat
    requires n > 0
  {
    (total + n - 1) / n
  }

  /** Widest of the first `k` cells that fall in column `c`, and 0 when there is none. */
  function ColMax(ms: seq<Point>, n: nat, c: nat, k: nat): int
    requires n > 0 && k <= |ms|
  {
    if k == 0 then 0
    else if (k - 1) % n == c then Max(ColMax(ms, n, c, k - 1), ms[k - 1].x)
    else ColMax(ms, n, c, k - 1)
  }

  /** Tallest of the first `k` cells that fall in row `r`, and 0 when there is none. */
  function RowMax(ms: seq<Point>, n: nat, r: nat, k: nat): int
    requires n > 0 && k <= |ms|
  {
    if k == 0 then 0
    else if (k - 1) / n == r then Max(RowMax(ms, n, r, k - 1), ms[k - 1].y)
    else RowMax(ms, n, r, k - 1)
  }

  /** Offset of track `c`: the sum of the earlier tracks' extents, each followed by the gap. */
  function Offs(ws: seq<int>, gap: int, c: nat): int
    requires c <= |ws|
  {
    if c == 0 then 0 else Offs(ws, gap, c - 1) + ws[c - 1] + gap
  }

  function ColWidths(ms: seq<Point>, n: nat, total: nat): (cw: seq<int>)
    requires n > 0 && total <= |ms|
    ensures |cw| == n
  {
    seq(n, c requires 0 <= c < n => ColMax(ms, n, c, total))
  }

  function RowHeights(ms: seq<Point>, n: nat, total: nat, nr: nat): (rh: seq<int>)
    requires n > 0 && total <= |ms|
    ensures |rh| == nr
  {
    seq(nr, r requires 0 <= r < nr => RowMax(ms, n, r, total))
  }

  /** Number of cells in row `r`: full rows have `n`, the last may be shorter. */
  function RowLen(total: nat, n: nat, r: nat): (len: nat)
    requires n > 0 && r < RowsOf(total, n)
    ensures 0 < len <= n && r * n + len <= total
    ensures len == n || r * n + len == total
  {
    RowStartBelow(r, n, total);
    var base := r * n;
    if total - base < n then total - base else n
  }

  /** Widest row: the maximum of `start` and the end offsets of the first `r` rows. */
  function WidestRow(start: int, cw: seq<int>, gap: int, total: nat, n: nat, r: nat): int
    requires n > 0 && |cw| == n && r <= RowsOf(total, n)
  {
    if r == 0 then start
    else Max(WidestRow(start, cw, gap, total, n, r - 1), Offs(cw, gap, RowLen(total, n, r - 1)))
  }

  /** The rectangle of cell `k`: its measured size, at its column's and its row's offsets. */
  function GridCell(ms: seq<Point>, cw: seq<int>, rh: seq<int>, gap: Point, n: nat, k: nat): (r: Rect)
    requires n > 0 && k < |ms| && |cw| == n && k / n < |rh|
    ensures Extent(r) == ms[k]
    ensures r.c1 == Point(Offs(cw, gap.x, k % n), Offs(rh, gap.y, k / n))
  {
    SetOffset(Rect(Origin, ms[k]), Point(Offs(cw, gap.x, k % n), Offs(rh, gap.y, k / n)))
  }

  /**
   * The grid's measuring pass. Rectangles and measured sizes are paired up
   * to the shorter of the two and cut into rows of `n`; every column is as
   * wide as its widest cell and every row as tall as its tallest, and each
   * cell is placed at its column's and row's offsets. The aggregate size
   * is the maximum of the previous one and the new extent, so it never
   * shrinks. The row-height table has one slot per `n` rectangles, so the
   * rows of paired cells must fit in it.
   */
  method GridRemeasure(n: nat, gap: Point, size0: Point, rects: seq<Rect>, ms: seq<Point>)
    returns (rects': seq<Rect>, size: Point)
    requires n > 0
    requires RowsOf(if |rects| < |ms| then |rects| else |ms|, n) <= |rects| / n
    ensures var total := if |rects| < |ms| then |rects| else |ms|;
            var cw := ColWidths(ms, n, total);
            var rh := RowHeights(ms, n, total, |rects| / n);
            && |rects'| == |rects|
            && (forall k :: 0 <= k < total ==> k / n < |rh| && rects'[k] == GridCell(ms, cw, rh, gap, n, k))
            && (forall k :: total <= k < |rects| ==> rects'[k] == rects[k])
            && size == Point(WidestRow(size0.x, cw, gap.x, total, n, RowsOf(total, n)),
                             Max(size0.y, Offs(rh, gap.y, RowsOf(total, n))))
    ensures (rects', size) == GridPlace(n, gap, size0, rects, ms, |rects| / n)
  {
    var total := if |rects| < |ms| then |rects| else |ms|;
    var nr := |rects| / n;
    var colW, rowH := GridTracks(ms, n, total, nr);
    forall j | 0 <= j < total
      ensures j / n < nr
    {
      RowBelow(j, n, total);
    }
    var rowOff;
    rects', size, rowOff := PlaceRows(ms, colW, rowH, gap, n, total, size0, rects);
    size := size.(y := Max(size.y, rowOff));
    GridPlaceMatches(n, gap, size0, rects, ms, nr, total, rects');
  }

  /** Second pass: places the rows top to bottom, returning the offset past the last row. */
  method PlaceRows(ms: seq<Point>, colW: seq<int>, rowH: seq<int>, gap: Point, n: nat, total: nat,
                   size0: Point, rects: seq<Rect>)
    returns (rects': seq<Rect>, size: Point, rowOff: int)
    requires n > 0 && total <= |ms| && total <= |rects| && |colW| == n && RowsOf(total, n) <= |rowH|
    requires forall j :: 0 <= j < total ==> j / n < |rowH|
    ensures |rects'| == |rects|
    ensures rowOff == Offs(rowH, gap.y, RowsOf(total, n))
    ensures size == Point(WidestRow(size0.x, colW, gap.x, total, n, RowsOf(total, n)), size0.y)
    ensures forall j :: 0 <= j < total ==> rects'[j] == GridCell(ms, colW, rowH, gap, n, j)
    ensures forall j :: 0 <= j < |rects| && j >= total ==> rects'[j] == rects[j]
  {
    rects' := rects;
    size := size0;
    rowOff := 0;
    var r, base := 0, 0;
    var rows := RowsOf(total, n);
    while r < rows
      invariant 0 <= r <= rows && base == r * n && |rects'| == |rects|
      invariant rowOff == Offs(rowH, gap.y, r)
      invariant size == Point(WidestRow(size0.x, colW, gap.x, total, n, r), size0.y)
      invariant forall j :: 0 <= j < total && j < base ==> rects'[j] == GridCell(ms, colW, rowH, gap, n, j)
      invariant forall j :: 0 <= j < |rects| && (j >= total || j >= base) ==> rects'[j] == rects[j]
    {
      var colOff;
      rects', colOff := PlaceRow(ms, colW, rowH, gap, n, total, r, base, rowOff, rects');
      rowOff := rowOff + rowH[r] + gap.y;
      size := size.(x := Max(size.x, colOff));
      assert (r + 1) * n == base + n;
      r, base := r + 1, base + n;
    }
    FullCover(total, n);
  }

  /** Rectangles placed cell by cell are the functional form's. */
  lemma {:induction false} GridPlaceMatches(n: nat, gap: Point, size0: Point, rects: seq<Rect>, ms: seq<Point>,
                                            nr: nat, total: nat, rects': seq<Rect>)
    requires n > 0 && total == (if |rects| < |ms| then |rects| else |ms|)
    requires RowsOf(total, n) <= nr && |rects'| == |rects|
    requires forall k :: 0 <= k < total ==>
               k / n < nr && rects'[k] == GridCell(ms, ColWidths(ms, n, total), RowHeights(ms, n, total, nr), gap, n, k)
    requires forall k :: total <= k < |rects| ==> rects'[k] == rects[k]
    ensures rects' == GridPlace(n, gap, size0, rects, ms, nr).0
  {
    ghost var f := GridPlace(n, gap, size0, rects, ms, nr).0;
    forall k | 0 <= k < |rects|
      ensures rects'[k] == f[k]
    {
      GridPlaceCells(n, gap, size0, rects, ms, nr, total, k);
    }
  }

  /**
   * The grid's measuring pass as a function, over a row-height table of
   * `nr` rows: each paired cell gets its rectangle, unpaired slots keep theirs.
   */
  function GridPlace(n: nat, gap: Point, size0: Point, rects: seq<Rect>, ms: seq<Point>, nr: nat)
    : (r: (seq<Rect>, Point))
    requires n > 0
    requires RowsOf(if |rects| < |ms| then |rects| else |ms|, n) <= nr
    ensures |r.0| == |rects|
  {
    var total := if |rects| < |ms| then |rects| else |ms|;
    var cw := ColWidths(ms, n, total);
    var rh := RowHeights(ms, n, total, nr);
    AllRowsBelow(total, n);
    (seq(|rects|, k requires 0 <= k < |rects| => if k < total then GridCell(ms, cw, rh, gap, n, k) else rects[k]),
     Point(WidestRow(size0.x, cw, gap.x, total, n, RowsOf(total, n)), Max(size0.y, Offs(rh, gap.y, RowsOf(total, n)))))
  }

  /**
   * Every paired cell's rectangle has exactly its measured size, lies within
   * the row table, and sits at its column's and row's offsets; the other
   * slots are untouched.
   */
  lemma {:induction false} GridPlaceCells(n: nat, gap: Point, size0: Point, rects: seq<Rect>, ms: seq<Point>,
                                          nr: nat, total: nat, k: nat)
    requires n > 0 && total == (if |rects| < |ms| then |rects| else |ms|)
    requires RowsOf(total, n) <= nr && k < |rects|
    ensures k < total ==> k / n < nr
    ensures k < total ==> GridPlace(n, gap, size0, rects, ms, nr).0[k]
                          == GridCell(ms, ColWidths(ms, n, total), RowHeights(ms, n, total, nr), gap, n, k)
    ensures k >= total ==> GridPlace(n, gap, size0, rects, ms, nr).0[k] == rects[k]
  {
    if k < total {
      RowBelow(k, n, total);
    }
  }

  lemma {:induction false} AllRowsBelow(total: nat, n: nat)
    requires n > 0
    ensures forall k :: 0 <= k < total ==> k / n < RowsOf(total, n)
  {
    forall k | 0 <= k < total
      ensures k / n < RowsOf(total, n)
    {
      RowBelow(k, n, total);
    }
  }

  /** First pass: the column widths and row heights. */
  method GridTracks(ms: seq<Point>, n: nat, total: nat, nr: nat) returns (colW: seq<int>, rowH: seq<int>)
    requires n > 0 && total <= |ms| && RowsOf(total, n) <= nr
    ensures colW == ColWidths(ms, n, total) && rowH == RowHeights(ms, n, total, nr)
  {
    colW := seq(n, _ => 0);
    rowH := seq(nr, _ => 0);
    var k := 0;
    while k < total
      invariant 0 <= k <= total && |colW| == n && |rowH| == nr
      invariant forall c :: 0 <= c < n ==> colW[c] == ColMax(ms, n, c, k)
      invariant forall r :: 0 <= r < nr ==> rowH[r] == RowMax(ms, n, r, k)
    {
      RowBelow(k, n, total);
      var m := ms[k];
      colW := colW[k % n := Max(colW[k % n], m.x)];
      rowH := rowH[k / n := Max(rowH[k / n], m.y)];
      k := k + 1;
    }
  }

  /** Second pass over one row: places its cells left to right, returning the row's end offset. */
  method PlaceRow(ms: seq<Point>, cw: seq<int>, rh: seq<int>, gap: Point, n: nat, total: nat,
                  r: nat, base: nat, rowOff: int, rects: seq<Rect>)
    returns (rects': seq<Rect>, colOff: int)
    requires n > 0 && total <= |ms| && total <= |rects| && |cw| == n
    requires r < RowsOf(total, n) && r < |rh| && base == r * n
    requires rowOff == Offs(rh, gap.y, r)
    ensures |rects'| == |rects|
    ensures colOff == Offs(cw, gap.x, RowLen(total, n, r))
    ensures forall j :: base <= j < base + RowLen(total, n, r) ==>
              j / n < |rh| && rects'[j] == GridCell(ms, cw, rh, gap, n, j)
    ensures forall j :: 0 <= j < |rects| && !(base <= j < base + RowLen(total, n, r)) ==> rects'[j] == rects[j]
  {
    var len := RowLen(total, n, r);
    rects' := rects;
    colOff := 0;
    var c := 0;
    while c < len
      invariant 0 <= c <= len && |rects'| == |rects|
      invariant colOff == Offs(cw, gap.x, c)
      invariant forall j :: base <= j < base + c ==> j / n < |rh| && rects'[j] == GridCell(ms, cw, rh, gap, n, j)
      invariant forall j :: 0 <= j < |rects| && !(base <= j < base + c) ==> rects'[j] == rects[j]
    {
      DivModOf(r, n, c);
      rects' := rects'[base + c := SetOffset(Rect(Origin, ms[base + c]), Point(colOff, rowOff))];
      colOff := colOff + cw[c] + gap.x;
      c := c + 1;
    }
  }

  lemma {:induction false} MulAtLeast(a: int, n: nat)
    requires a >= 1
    ensures a * n >= n
  {
    assert a * n == (a - 1) * n + n;
  }

  /** Cell `c` of row `r` is cell number `r * n + c`. */
  lemma {:induction false} DivModOf(r: nat, n: nat, c: nat)
    requires 0 <= c < n
    ensures (r * n + c) / n == r && (r * n + c) % n == c
  {
    var a := r * n + c;
    var q, m := a / n, a % n;
    assert q * n + m == a;
    if q > r {
      MulAtLeast(q - r, n);
      assert false;
    } else if q < r {
      MulAtLeast(r - q, n);
      assert false;
    }
  }

  lemma {:induction false} DivLower(q: nat, n: nat, a: nat)
    requires n > 0 && q * n <= a
    ensures q <= a / n
  {
    var p, m := a / n, a % n;
    assert p * n + m == a;
    if q > p {
      MulAtLeast(q - p, n);
      assert false;
    }
  }

  lemma {:induction false} DivUpper(q: nat, n: nat, a: nat)
    requires n > 0 && a < (q + 1) * n
    ensures a / n <= q
  {
    var p, m := a / n, a % n;
    assert p * n + m == a;
    assert (q + 1) * n == q * n + n;
    if p > q {
      MulAtLeast(p - q, n);
      assert false;
    }
  }

  /** Every cell lies in one of the rows. */
  lemma {:induction false} RowBelow(k: nat, n: nat, total: nat)
    requires n > 0 && k < total
    ensures k / n < RowsOf(total, n)
  {
    var q := k / n;
    assert q * n + k % n == k;
    DivModOf(q + 1, n, 0);
    assert (q + 1) * n <= total + n - 1;
    DivLower(q + 1, n, total + n - 1);
  }

  /** Every row starts at a cell. */
  lemma {:induction false} RowStartBelow(r: nat, n: nat, total: nat)
    requires n > 0 && r < RowsOf(total, n)
    ensures r * n < total
  {
    if r * n >= total {
      assert (r + 1) * n == r * n + n;
      DivUpper(r, n, total + n - 1);
      assert false;
    }
  }

  /** The rows hold every cell. */
  lemma {:induction false} FullCover(total: nat, n: nat)
    requires n > 0
    ensures total <= RowsOf(total, n) * n
  {
    var a := total + n - 1;
    assert RowsOf(total, n) * n + a % n == a;
  }

  /** The aggregate size never shrinks across measurements. */
  lemma {:induction false} GridSizeGrows(start: int, cw: seq<int>, gap: int, total: nat, n: nat, r: nat)
    requires n > 0 && |cw| == n && r <= RowsOf(total, n)
    ensures start <= WidestRow(start, cw, gap, total, n, r)
    decreases r
  {
    if r > 0 {
      GridSizeGrows(start, cw, gap, total, n, r - 1);
    }
  }

  /** A column is at least as wide as each of its cells. */
  lemma {:induction false} ColMaxCovers(ms: seq<Point>, n: nat, k: nat, i: nat)
    requires n > 0 && i < k <= |ms|
    ensures ms[i].x <= ColMax(ms, n, i % n, k)
    decreases k
  {
    if i < k - 1 {
      ColMaxCovers(ms, n, k - 1, i);
    }
  }

  /**
   * With a non-negative gap, a cell ends no further right than the next
   * column begins, so cells in neighbouring columns do not overlap.
   */
  lemma {:induction false} GridColumnsDisjoint(ms: seq<Point>, n: nat, total: nat, gap: Point, k: nat)
    requires n > 0 && k < total <= |ms| && k % n + 1 < n && gap.x >= 0
    ensures var cw := ColWidths(ms, n, total);
            Offs(cw, gap.x, k % n) + ms[k].x <= Offs(cw, gap.x, k % n + 1)
  {
    ColMaxCovers(ms, n, total, k);
  }
}

=== FILE: reflow.dfy ===
/**
 * The reflow pass of the text editor, separated into its two phases: a scan
 * that records where breaks must be added or dropped, and a replay that
 * applies the recorded edits to the text in one batch, keeping a running
 * offset and shifting the cursor.
 */
module Reflow {

  /** One recorded edit: add a break before position `pos`, or drop the break at `pos`. */
  datatype Edit = Edit(pos: nat, isAdd: bool)

  /** Glyph metrics supplied by the renderer at the editor's text scale. */
  datatype Metrics = Metrics(
    charW: char -> nat,          // width of a glyph's box
    advW: char -> nat,           // horizontal advance of a glyph
    lineW: seq<char> -> nat,     // measured width of a run of text
    lineHeight: nat)

  /** Edit positions strictly increase. */
  predicate Increasing(es: seq<Edit>)
  {
    forall a, b :: 0 <= a < b < |es| ==> es[a].pos < es[b].pos
  }

  /** Every edit position lies in [lo, hi). */
  predicate Within(es: seq<Edit>, lo: nat, hi: nat)
  {
    forall k :: 0 <= k < |es| ==> lo <= es[k].pos < hi
  }

  /** Edits drop only break characters and add breaks only before other characters. */
  predicate OnlyBreaks(t: seq<char>, es: seq<Edit>)
  {
    forall k :: 0 <= k < |es| && es[k].pos < |t| ==> (es[k].isAdd <==> t[es[k].pos] != '\n')
  }

  /**
   * The scan: walks the text from position `j`, accumulating the line width
   * `lineX`. A break is due before a character whose box would cross the box
   * width `w`; an existing break that is not due is recorded for removal, and
   * a due break where there is none is recorded for insertion.
   */
  function Scan(t: seq<char>, j: nat, lineX: int, w: int, m: Metrics): (es: seq<Edit>)
    requires j <= |t|
    ensures Increasing(es)
    ensures Within(es, j, |t|)
    ensures OnlyBreaks(t, es)
    decreases |t| - j
  {
    if j == |t| then []
    else
      var c := t[j];
      var addBreak := lineX + m.charW(c) > w;
      var wasBreak := c == '\n';
      var x := if addBreak then 0 else lineX;
      var rest := Scan(t, j + 1, x + m.advW(c), w, m);
      (if addBreak != wasBreak then [Edit(j, addBreak)] else []) + rest
  }

  /**
   * The replay loop: each edit is applied at its recorded position plus the
   * running offset (the net number of breaks added so far); an edit strictly
   * before the cursor moves the cursor with the text.
   */
  function Replay(cur: seq<char>, cursor: nat, es: seq<Edit>, off: int): (r: (seq<char>, nat))
    requires cursor <= |cur|
    requires Increasing(es)
    requires |es| > 0 ==> es[0].pos + off >= 0
    requires forall k :: 0 <= k < |es| ==> es[k].pos + off < |cur|
    ensures r.1 <= |r.0|
    decreases |es|
  {
    if |es| == 0 then (cur, cursor)
    else
      var u := es[0].pos + off;
      assert |es| > 1 ==> es[1].pos > es[0].pos;
      if es[0].isAdd then
        Replay(cur[..u] + ['\n'] + cur[u..], if u < cursor then cursor + 1 else cursor, es[1..], off + 1)
      else
        Replay(cur[..u] + cur[u + 1..], if u < cursor then cursor - 1 else cursor, es[1..], off - 1)
  }

  /**
   * Reference meaning of a batch of edits on the original text from position
   * `q` on: copy the text, putting a break before each added position and
   * leaving out each dropped one.
   */
  function Rebuild(t: seq<char>, q: nat, es: seq<Edit>): seq<char>
    requires q <= |t|
    requires Increasing(es)
    requires Within(es, q, |t|)
    decreases |es|
  {
    if |es| == 0 then t[q..]
    else
      var p := es[0].pos;
      t[q..p] + (if es[0].isAdd then ['\n', t[p]] else []) + Rebuild(t, p + 1, es[1..])
  }

  /** Net number of breaks the edits strictly before position `c` add. */
  function NetBefore(es: seq<Edit>, c: nat): int
  {
    if |es| == 0 then 0
    else (if es[0].pos < c then (if es[0].isAdd then 1 else -1) else 0) + NetBefore(es[1..], c)
  }

  function Adds(es: seq<Edit>): nat
  {
    if |es| == 0 then 0 else (if es[0].isAdd then 1 else 0) + Adds(es[1..])
  }

  function Removes(es: seq<Edit>): nat
  {
    if |es| == 0 then 0 else (if es[0].isAdd then 0 else 1) + Removes(es[1..])
  }

  /** The text with every break filtered out. */
  function Strip(s: seq<char>): seq<char>
  {
    if |s| == 0 then [] else (if s[0] == '\n' then [] else [s[0]]) + Strip(s[1..])
  }

  lemma {:induction false} StripAppend(a: seq<char>, b: seq<char>)
    ensures Strip(a + b) == Strip(a) + Strip(b)
  {
    if |a| == 0 {
      assert a + b == b;
    } else {
      assert (a + b)[1..] == a[1..] + b;
      StripAppend(a[1..], b);
    }
  }

  /** No edit lies strictly before `c`. */
  lemma {:induction false} NetBeforeNone(es: seq<Edit>, c: nat)
    requires forall k :: 0 <= k < |es| ==> es[k].pos >= c
    ensures NetBefore(es, c) == 0
  {
    if |es| > 0 {
      NetBeforeNone(es[1..], c);
    }
  }

  /** Adding a break at the running position splices it in before `t[p]`. */
  lemma {:induction false} SpliceAdd(t: seq<char>, done: seq<char>, q: nat, p: nat)
    requires q <= p < |t|
    ensures var cur := done + t[q..]; var u := |done| + p - q;
            cur[..u] + ['\n'] + cur[u..] == (done + t[q..p] + ['\n', t[p]]) + t[p + 1..]
  {
    var cur := done + t[q..];
    var u := |done| + p - q;
    assert cur[..u] == done + t[q..p];
    assert cur[u..] == t[p..];
    assert t[p..] == [t[p]] + t[p + 1..];
  }

  /** Dropping the character at the running position drops `t[p]`. */
  lemma {:induction false} SpliceRemove(t: seq<char>, done: seq<char>, q: nat, p: nat)
    requires q <= p < |t|
    ensures var cur := done + t[q..]; var u := |done| + p - q;
            cur[..u] + cur[u + 1..] == (done + t[q..p]) + t[p + 1..]
  {
    var cur := done + t[q..];
    var u := |done| + p - q;
    assert cur[..u] == done + t[q..p];
    assert cur[u + 1..] == t[p + 1..];
  }

  /**
   * The replay loop computes the reference rebuild: started in a state where
   * the edits before `q` are done (`done`) and the rest of the text is
   * untouched, it yields `done` followed by the rebuilt remainder.
   */
  lemma {:induction false} ReplayRebuilds(t: seq<char>, done: seq<char>, q: nat, es: seq<Edit>,
                                          off: int, cc: nat)
    requires q <= |t|
    requires Increasing(es)
    requires Within(es, q, |t|)
    requires |done| == q + off
    requires cc <= |done| + |t| - q
    ensures Replay(done + t[q..], cc, es, off).0 == done + Rebuild(t, q, es)
    decreases |es|, 1
  {
    if |es| > 0 {
      var p := es[0].pos;
      assert Increasing(es[1..]) && Within(es[1..], p + 1, |t|);
      if es[0].isAdd {
        ReplayRebuildsAdd(t, done, q, es, off, cc);
      } else {
        ReplayRebuildsRemove(t, done, q, es, off, cc);
      }
    }
  }

  lemma {:induction false} ReplayRebuildsAdd(t: seq<char>, done: seq<char>, q: nat, es: seq<Edit>,
                                             off: int, cc: nat)
    requires q <= |t|
    requires |es| > 0 && es[0].isAdd
    requires Increasing(es)
    requires Within(es, q, |t|)
    requires Increasing(es[1..]) && Within(es[1..], es[0].pos + 1, |t|)
    requires |done| == q + off
    requires cc <= |done| + |t| - q
    ensures Replay(done + t[q..], cc, es, off).0 == done + Rebuild(t, q, es)
    decreases |es|, 0
  {
    var p := es[0].pos;
    var u := p + off;
    var rest := Rebuild(t, p + 1, es[1..]);
    var done' := done + t[q..p] + ['\n', t[p]];
    SpliceAdd(t, done, q, p);
    var cc' := if u < cc then cc + 1 else cc;
    ReplayRebuilds(t, done', p + 1, es[1..], off + 1, cc');
    assert done' + rest == done + (t[q..p] + ['\n', t[p]] + rest);
  }

  lemma {:induction false} ReplayRebuildsRemove(t: seq<char>, done: seq<char>, q: nat, es: seq<Edit>,
                                                off: int, cc: nat)
    requires q <= |t|
    requires |es| > 0 && !es[0].isAdd
    requires Increasing(es)
    requires Within(es, q, |t|)
    requires Increasing(es[1..]) && Within(es[1..], es[0].pos + 1, |t|)
    requires |done| == q + off
    requires cc <= |done| + |t| - q
    ensures Replay(done + t[q..], cc, es, off).0 == done + Rebuild(t, q, es)
    decreases |es|, 0
  {
    var p := es[0].pos;
    var u := p + off;
    var rest := Rebuild(t, p + 1, es[1..]);
    var done' := done + t[q..p];
    SpliceRemove(t, done, q, p);
    var cc' := if u < cc then cc - 1 else cc;
    ReplayRebuilds(t, done', p + 1, es[1..], off - 1, cc');
    assert done' + rest == done + (t[q..p] + [] + rest);
  }

  /**
   * The cursor the replay loop ends with: shifted by one for each edit
   * strictly before the original cursor `c`, and by nothing else. The
   * current cursor `cc` either still tracks `c` (all edits so far were
   * before it) or already lies at or before every remaining edit.
   */
  lemma {:induction false} ReplayShiftsCursor(cur: seq<char>, es: seq<Edit>, off: int,
                                              q: nat, cc: nat, c: nat)
    requires cc <= |cur|
    requires Increasing(es)
    requires |es| > 0 ==> es[0].pos + off >= 0
    requires forall k :: 0 <= k < |es| ==> q <= es[k].pos && es[k].pos + off < |cur|
    requires q <= c ==> cc == c + off
    requires c < q ==> cc <= q + off
    ensures Replay(cur, cc, es, off).1 == cc + NetBefore(es, c)
    decreases |es|
  {
    if |es| > 0 {
      var p := es[0].pos;
      var u := p + off;
      if es[0].isAdd {
        var cur' := cur[..u] + ['\n'] + cur[u..];
        var cc' := if u < cc then cc + 1 else cc;
        ReplayShiftsCursor(cur', es[1..], off + 1, p + 1, cc', c);
      } else {
        var cur' := cur[..u] + cur[u + 1..];
        var cc' := if u < cc then cc - 1 else cc;
        ReplayShiftsCursor(cur', es[1..], off - 1, p + 1, cc', c);
      }
    }
  }

  /** The rebuilt text has one character more per added break and one fewer per dropped one. */
  lemma {:induction false} RebuildLength(t: seq<char>, q: nat, es: seq<Edit>)
    requires q <= |t|
    requires Increasing(es)
    requires Within(es, q, |t|)
    ensures |Rebuild(t, q, es)| == |t| - q + Adds(es) - Removes(es)
    decreases |es|
  {
    if |es| > 0 {
      RebuildLength(t, es[0].pos + 1, es[1..]);
    }
  }

  /** The text of one edit's stretch keeps its non-break characters. */
  lemma {:induction false} StripHead(t: seq<char>, q: nat, e: Edit)
    requires q <= e.pos < |t|
    requires e.isAdd <==> t[e.pos] != '\n'
    ensures Strip(t[q..e.pos] + (if e.isAdd then ['\n', t[e.pos]] else [])) == Strip(t[q..e.pos + 1])
  {
    var p := e.pos;
    var mid: seq<char> := if e.isAdd then ['\n', t[p]] else [];
    StripAppend(t[q..p], mid);
    assert t[q..p + 1] == t[q..p] + [t[p]];
    StripAppend(t[q..p], [t[p]]);
    assert [t[p]][1..] == [];
    if e.isAdd {
      assert mid[1..] == [t[p]];
    }
  }

  /** Rebuilding only adds and drops breaks: with breaks filtered out, nothing changed. */
  lemma {:induction false} RebuildKeepsText(t: seq<char>, q: nat, es: seq<Edit>)
    requires q <= |t|
    requires Increasing(es)
    requires Within(es, q, |t|)
    requires OnlyBreaks(t, es)
    ensures Strip(Rebuild(t, q, es)) == Strip(t[q..])
    decreases |es|
  {
    if |es| > 0 {
      var p := es[0].pos;
      var mid: seq<char> := if es[0].isAdd then ['\n', t[p]] else [];
      var rest := Rebuild(t, p + 1, es[1..]);
      RebuildKeepsText(t, p + 1, es[1..]);
      StripHead(t, q, es[0]);
      StripAppend(t[q..p] + mid, rest);
      assert t[q..] == t[q..p + 1] + t[p + 1..];
      StripAppend(t[q..p + 1], t[p + 1..]);
    }
  }

  /** One edit's stretch followed by a prefix of the rest keeps the original text up to `k`. */
  lemma {:induction false} StripHeadPrefix(t: seq<char>, q: nat, e: Edit, k: nat, rest: seq<char>, n: nat)
    requires q <= e.pos < k <= |t|
    requires e.isAdd <==> t[e.pos] != '\n'
    requires n <= |rest|
    requires Strip(rest[..n]) == Strip(t[e.pos + 1..k])
    ensures var head := t[q..e.pos] + (if e.isAdd then ['\n', t[e.pos]] else []);
            Strip((head + rest)[..|head| + n]) == Strip(t[q..k])
  {
    var p := e.pos;
    var head := t[q..p] + (if e.isAdd then ['\n', t[p]] else []);
    assert (head + rest)[..|head| + n] == head + rest[..n];
    StripAppend(head, rest[..n]);
    StripHead(t, q, e);
    assert t[q..k] == t[q..p + 1] + t[p + 1..k];
    StripAppend(t[q..p + 1], t[p + 1..k]);
  }

  /** One step of the rebuild: the first edit's stretch, then the rest rebuilt. */
  lemma {:induction false} RebuildStep(t: seq<char>, q: nat, es: seq<Edit>)
    requires q <= |t|
    requires Increasing(es)
    requires Within(es, q, |t|)
    requires OnlyBreaks(t, es)
    requires |es| > 0
    ensures Increasing(es[1..]) && Within(es[1..], es[0].pos + 1, |t|) && OnlyBreaks(t, es[1..])
    ensures Rebuild(t, q, es)
         == t[q..es[0].pos] + (if es[0].isAdd then ['\n', t[es[0].pos]] else [])
          + Rebuild(t, es[0].pos + 1, es[1..])
  {
    assert Increasing(es[1..]) && Within(es[1..], es[0].pos + 1, |t|);
  }

  lemma {:induction false} PrefixOfHead(t: seq<char>, q: nat, p: nat, k: nat, head: seq<char>, rest: seq<char>)
    requires q <= k <= p <= |t|
    requires |head| >= p - q && head[..p - q] == t[q..p]
    ensures (head + rest)[..k - q] == t[q..k]
  {
    assert (head + rest)[..k - q] == head[..p - q][..k - q];
  }

  /**
   * Where a position of the original text ends up: position `k` moves by the
   * net number of breaks added strictly before it, and the rebuilt text up to
   * there holds, breaks aside, exactly the original text up to `k`.
   */
  lemma {:induction false} RebuildStripPrefix(t: seq<char>, q: nat, es: seq<Edit>, k: nat)
    requires q <= k <= |t|
    requires Increasing(es)
    requires Within(es, q, |t|)
    requires OnlyBreaks(t, es)
    ensures 0 <= k - q + NetBefore(es, k) <= |Rebuild(t, q, es)|
    ensures Strip(Rebuild(t, q, es)[..k - q + NetBefore(es, k)]) == Strip(t[q..k])
    decreases |es|, 1
  {
    if |es| == 0 {
      assert t[q..][..k - q] == t[q..k];
    } else {
      var p := es[0].pos;
      if k <= p {
        NetBeforeNone(es, k);
        var head := t[q..p] + (if es[0].isAdd then ['\n', t[p]] else []);
        var rest := Rebuild(t, p + 1, es[1..]);
        assert Rebuild(t, q, es) == head + rest;
        PrefixOfHead(t, q, p, k, head, rest);
      } else {
        RebuildStripPrefixPast(t, q, es, k);
      }
    }
  }

  lemma {:induction false} RebuildStripPrefixPast(t: seq<char>, q: nat, es: seq<Edit>, k: nat)
    requires q <= k <= |t|
    requires Increasing(es)
    requires Within(es, q, |t|)
    requires OnlyBreaks(t, es)
    requires |es| > 0 && es[0].pos < k
    ensures 0 <= k - q + NetBefore(es, k) <= |Rebuild(t, q, es)|
    ensures Strip(Rebuild(t, q, es)[..k - q + NetBefore(es, k)]) == Strip(t[q..k])
    decreases |es|, 0
  {
    var p := es[0].pos;
    RebuildStep(t, q, es);
    RebuildStripPrefix(t, p + 1, es[1..], k);
    assert es[0].isAdd <==> t[p] != '\n';
    PrefixPastHead(t, q, es[0], k, Rebuild(t, p + 1, es[1..]), NetBefore(es, k), NetBefore(es[1..], k));
  }

  /** The arithmetic and sequence step of RebuildStripPrefixPast, free of the edit list. */
  lemma {:induction false} PrefixPastHead(t: seq<char>, q: nat, e: Edit, k: nat, rest: seq<char>,
                                          net: int, netRest: int)
    requires q <= e.pos < k <= |t|
    requires e.isAdd <==> t[e.pos] != '\n'
    requires net == (if e.isAdd then 1 else -1) + netRest
    requires 0 <= k - (e.pos + 1) + netRest <= |rest|
    requires Strip(rest[..k - (e.pos + 1) + netRest]) == Strip(t[e.pos + 1..k])
    ensures var head := t[q..e.pos] + (if e.isAdd then ['\n', t[e.pos]] else []);
            0 <= k - q + net <= |head + rest|
            && Strip((head + rest)[..k - q + net]) == Strip(t[q..k])
  {
    var n := k - (e.pos + 1) + netRest;
    StripHeadPrefix(t, q, e, k, rest, n);
  }
}

=== FILE: rope.dfy ===
/**
 * The text buffer as a character sequence with lines split at '\n' only:
 * line `l` runs from the character after the l-th break up to and
 * including the next break, and the text always has one more line than it
 * has breaks.
 */
module Rope {

  /** Number of line breaks in `s`. */
  function CountNL(s: seq<char>): nat
  {
    if |s| == 0 then 0 else CountNL(s[..|s| - 1]) + (if s[|s| - 1] == '\n' then 1 else 0)
  }

  /** A prefix one character longer gains a break exactly when that character is one. */
  lemma {:induction false} CountNLPrefixStep(t: seq<char>, i: nat)
    requires i < |t|
    ensures CountNL(t[..i + 1]) == CountNL(t[..i]) + (if t[i] == '\n' then 1 else 0)
  {
    assert t[..i + 1][..i] == t[..i];
  }

  lemma {:induction false} CountNLAppend(a: seq<char>, b: seq<char>)
    ensures CountNL(a + b) == CountNL(a) + CountNL(b)
    decreases |b|
  {
    if |b| == 0 {
      assert a + b == a;
    } else {
      var b' := b[..|b| - 1];
      assert (a + b)[..|a + b| - 1] == a + b';
      CountNLAppend(a, b');
    }
  }

  /** Counting breaks in a prefix is monotone in the prefix length. */
  lemma {:induction false} CountNLPrefixMono(t: seq<char>, i: nat, j: nat)
    requires i <= j <= |t|
    ensures CountNL(t[..i]) <= CountNL(t[..j])
    decreases j
  {
    if i < j {
      CountNLPrefixStep(t, j - 1);
      CountNLPrefixMono(t, i, j - 1);
    }
  }

  lemma {:induction false} CountNLWhole(t: seq<char>)
    ensures CountNL(t[..|t|]) == CountNL(t)
  {
    assert t[..|t|] == t;
  }

  /** Number of lines. */
  function LenLines(t: seq<char>): nat
  {
    CountNL(t) + 1
  }

  /** Line containing character position `i`. */
  function CharToLine(t: seq<char>, i: nat): nat
    requires i <= |t|
  {
    CountNL(t[..i])
  }

  /** Start of the last line: just past the final break, or 0 without one. */
  function LastLineStart(t: seq<char>): (r: nat)
    ensures r <= |t|
    ensures CountNL(t[..r]) == CountNL(t)
    ensures r > 0 ==> t[r - 1] == '\n'
    ensures CountNL(t) == 0 ==> r == 0
    decreases |t|
  {
    if |t| == 0 then 0
    else if t[|t| - 1] == '\n' then
      assert t[..|t|] == t;
      |t|
    else
      var t' := t[..|t| - 1];
      var r := LastLineStart(t');
      assert t'[..r] == t[..r];
      r
  }

  /** Position of the first character of line `l`. */
  function LineStart(t: seq<char>, l: nat): (r: nat)
    requires l <= CountNL(t)
    ensures r <= |t|
    ensures CountNL(t[..r]) == l
    ensures l > 0 ==> r > 0 && t[r - 1] == '\n'
    ensures l == 0 ==> r == 0
    decreases |t|
  {
    if l == CountNL(t) && (l > 0 || |t| == 0) then LastLineStart(t)
    else
      var t' := t[..|t| - 1];
      var r := LineStart(t', l);
      assert t'[..r] == t[..r];
      r
  }

  /** Every position before the start of line `l` lies on an earlier line. */
  lemma {:induction false} BeforeLineStart(t: seq<char>, l: nat, j: nat)
    requires l <= CountNL(t)
    requires j < LineStart(t, l)
    ensures CountNL(t[..j]) < l
  {
    var r := LineStart(t, l);
    CountNLPrefixStep(t, r - 1);
    CountNLPrefixMono(t, j, r - 1);
  }

  /** Line starts strictly increase. */
  lemma {:induction false} LineStartMono(t: seq<char>, l: nat)
    requires l < CountNL(t)
    ensures LineStart(t, l) < LineStart(t, l + 1)
  {
    var a, b := LineStart(t, l), LineStart(t, l + 1);
    if b <= a {
      CountNLPrefixMono(t, b, a);
    }
  }

  /** Position just past the last character of line `l` (its break included). */
  function LineEnd(t: seq<char>, l: nat): (r: nat)
    requires l <= CountNL(t)
    ensures LineStart(t, l) <= r <= |t|
  {
    if l < CountNL(t) then
      LineStartMono(t, l);
      LineStart(t, l + 1)
    else |t|
  }

  /** The characters of line `l`, its trailing break included. */
  function Line(t: seq<char>, l: nat): seq<char>
    requires l <= CountNL(t)
  {
    t[LineStart(t, l)..LineEnd(t, l)]
  }

  /**
   * Where a position sits on its line `l`: at or after the line's start, and
   * strictly before the line's end unless it is the end of the whole text.
   */
  lemma {:induction false} PositionOnLine(t: seq<char>, i: nat, l: nat)
    requires i <= |t|
    requires l == CharToLine(t, i)
    ensures l <= CountNL(t)
    ensures LineStart(t, l) <= i <= LineEnd(t, l)
    ensures i < |t| ==> i < LineEnd(t, l)
    ensures i == |t| ==> l == CountNL(t)
  {
    CountNLPrefixMono(t, i, |t|);
    CountNLWhole(t);
    if i < LineStart(t, l) {
      BeforeLineStart(t, l, i);
    }
    if l < CountNL(t) {
      var b := LineStart(t, l + 1);
      if b <= i {
        CountNLPrefixMono(t, b, i);
      }
    }
  }

  /**
   * Converse of PositionOnLine: every position from the start of line `l` up
   * to (not including) its end lies on line `l`; on the last line the end of
   * the text does too.
   */
  lemma {:induction false} CharToLineWithin(t: seq<char>, l: nat, i: nat)
    requires l <= CountNL(t)
    requires LineStart(t, l) <= i <= LineEnd(t, l)
    requires l < CountNL(t) ==> i < LineEnd(t, l)
    ensures CharToLine(t, i) == l
  {
    CountNLPrefixMono(t, LineStart(t, l), i);
    if l < CountNL(t) {
      assert LineEnd(t, l) == LineStart(t, l + 1);
      BeforeLineStart(t, l + 1, i);
    } else {
      CountNLPrefixMono(t, i, |t|);
      CountNLWhole(t);
    }
  }

  /** Line starts are determined by their line count and the break before them. */
  lemma {:induction false} LineStartUnique(t: seq<char>, l: nat, r: nat)
    requires 0 < l <= CountNL(t)
    requires 0 < r <= |t| && CountNL(t[..r]) == l && t[r - 1] == '\n'
    ensures r == LineStart(t, l)
  {
    var s := LineStart(t, l);
    if r < s {
      BeforeLineStart(t, l, r);
    } else if s < r {
      CountNLPrefixStep(t, r - 1);
      CountNLPrefixMono(t, s, r - 1);
    }
  }

  /** A line holds no break except, possibly, as its last character. */
  lemma {:induction false} LineBreakOnlyAtEnd(t: seq<char>, l: nat, k: nat)
    requires l <= CountNL(t)
    requires LineStart(t, l) <= k < LineEnd(t, l) - 1
    ensures t[k] != '\n'
  {
    if t[k] == '\n' {
      CountNLPrefixStep(t, k);
      CountNLPrefixMono(t, LineStart(t, l), k);
      if l == CountNL(t) {
        CountNLWhole(t);
        CountNLPrefixMono(t, k + 1, |t|);
      } else {
        BeforeLineStart(t, l + 1, k + 1);
      }
    }
  }

  /** The last line holds no break at all. */
  lemma {:induction false} LastLineHasNoBreak(t: seq<char>, k: nat)
    requires LineStart(t, CountNL(t)) <= k < |t|
    ensures t[k] != '\n'
  {
    if t[k] == '\n' {
      CountNLPrefixStep(t, k);
      CountNLPrefixMono(t, LineStart(t, CountNL(t)), k);
      CountNLPrefixMono(t, k + 1, |t|);
      CountNLWhole(t);
    }
  }

  /** Splicing text in adds exactly its breaks to the line count. */
  lemma {:induction false} CountNLSplice(t: seq<char>, i: nat, s: seq<char>)
    requires i <= |t|
    ensures CountNL(t[..i] + s + t[i..]) == CountNL(t) + CountNL(s)
  {
    var a, b := t[..i], t[i..];
    assert t == a + b;
    CountNLAppend(a, b);
    CountNLAppend(a + s, b);
    CountNLAppend(a, s);
  }

  /**
   * An edit at or after the start of line `l` does not move that start,
   * provided the line still exists afterwards.
   */
  lemma {:induction false} LineStartStable(t: seq<char>, t': seq<char>, l: nat, c: nat)
    requires l <= CountNL(t) && l <= CountNL(t')
    requires LineStart(t, l) <= c <= |t| && c <= |t'|
    requires t'[..c] == t[..c]
    ensures LineStart(t', l) == LineStart(t, l)
  {
    if l > 0 {
      var r := LineStart(t, l);
      assert t'[..r] == t[..c][..r] == t[..r];
      assert t'[r - 1] == t'[..c][r - 1];
      LineStartUnique(t', l, r);
    }
  }

  /** Removing a character removes a line exactly when it was a break. */
  lemma {:induction false} CountNLRemove(t: seq<char>, i: nat)
    requires i < |t|
    ensures CountNL(t[..i] + t[i + 1..]) == CountNL(t) - (if t[i] == '\n' then 1 else 0)
  {
    var a, b := t[..i], t[i + 1..];
    assert t == (a + [t[i]]) + b;
    CountNLAppend(a + [t[i]], b);
    CountNLAppend(a, [t[i]]);
    CountNLAppend(a, b);
    assert [t[i]][..0] == [];
  }
}

=== FILE: routing.dfy ===
/**
 * Event routing through the widget tree, and the tree-wide passes: a click
 * or hover is offered to a node's own hook and, when the hook declines, to
 * the first child whose rectangle contains the point, in that child's
 * coordinates; remeasuring measures the children and lays them out;
 * deselecting closes every open dropdown.
 */
module Routing {
  import opened Base
  import opened Status
  import opened Geometry
  import opened Tree
  import opened Layout

  // ---------------------------------------------------------------------------
  // Hit testing

  /** Position of the first rectangle that contains `p`. */
  function GetIdx(rects: seq<Rect>, p: Point): (r: Option<nat>)
    ensures r.Some? ==> r.value < |rects| && InBounds(rects[r.value], p)
    ensures r.Some? ==> forall j :: 0 <= j < r.value ==> !InBounds(rects[j], p)
    ensures r.None? <==> forall j :: 0 <= j < |rects| ==> !InBounds(rects[j], p)
    decreases |rects|
  {
    if |rects| == 0 then None
    else if InBounds(rects[0], p) then Some(0)
    else
      var rest := GetIdx(rects[1..], p);
      assert forall j :: 1 <= j < |rects| ==> rects[j] == rects[1..][j - 1];
      if rest.None? then None else Some(rest.value + 1)
  }

  /** The rectangles that are paired with one of `n` children: iteration stops at the shorter of the two. */
  function Paired(rects: seq<Rect>, n: nat): (r: seq<Rect>)
    ensures |r| <= n && |r| <= |rects| && (|r| == n || |r| == |rects|)
    ensures r == rects[..|r|]
  {
    if |rects| <= n then rects else rects[..n]
  }

  // ---------------------------------------------------------------------------
  // The event context

  /** The widget event context: the result accumulated so far and the index of the widget being visited. */
  datatype Ctx = Ctx(res: EventResult, widx: nat)

  /** A node after routing, with the context and the routing's answer. */
  datatype Routed = Routed(w: Widget, ctx: Ctx, resp: Option<Response>)

  /** A child list after routing. */
  datatype RoutedList = RoutedList(ws: seq<Widget>, ctx: Ctx, resp: Option<Response>)

  /** `b` is `a` with flags possibly added and callbacks possibly appended, nothing removed. */
  predicate Extends(a: EventResult, b: EventResult)
  {
    Grows(a.status, b.status) && |a.callbacks| <= |b.callbacks| && b.callbacks[..|a.callbacks|] == a.callbacks
  }

  lemma ExtendsTrans(a: EventResult, b: EventResult, c: EventResult)
    requires Extends(a, b) && Extends(b, c)
    ensures Extends(a, c)
  {
    assert c.callbacks[..|a.callbacks|] == c.callbacks[..|b.callbacks|][..|a.callbacks|];
  }

  /**
   * Index of child `c` of the node at walk position `p`, read from the
   * subtree-size table: one past the parent plus the sizes of the earlier
   * siblings. A position outside the table keeps the parent's index.
   */
  function ChildIdx(sizes: seq<seq<nat>>, p: nat, c: nat): (idx: nat)
    ensures p < |sizes| && c <= |sizes[p]| ==> idx == p + 1 + Sum(sizes[p][..c])
    ensures idx >= p
  {
    if p < |sizes| && c <= |sizes[p]| then p + 1 + Sum(sizes[p][..c]) else p
  }

  /** The shape of a tree: its nodes' child counts, nothing else. */
  datatype Shape = Node(kids: seq<Shape>)

  function ShapeOf(w: Widget): Shape
    decreases w
  {
    Node(seq(|w.children|, i requires 0 <= i < |w.children| => ShapeOf(w.children[i])))
  }

  // ---------------------------------------------------------------------------
  // Clicks

  /**
   * A click at `p`, in the node's coordinates. A dropdown answers it
   * itself; a button queues its callback and reports the click handled,
   * which the composite click turns into None; any other node declines and
   * the click goes to the first child hit.
   */
  function Click(w: Widget, p: Point, ctx: Ctx, sizes: seq<seq<nat>>): (r: Routed)
    ensures Extends(ctx.res, r.ctx.res)
    ensures r.ctx.res.status - REMEASURE == ctx.res.status - REMEASURE
    ensures r.resp.Some? ==> r.resp == Some(Handled)
    ensures ShapeOf(r.w) == ShapeOf(w) && r.w.visible == w.visible && r.w.layout == w.layout
    ensures w.bhv.Button? ==> r == Routed(w, ctx.(res := PushCb(ctx.res, w.bhv.onclick)), None)
    ensures w.bhv.DropDown? ==> r.resp == Some(Handled) && Has(r.ctx.res.status, REMEASURE)
    decreases w, 1
  {
    match w.bhv
    case DropDown(_, _, _, _, _) => DropDownClick(w, p, ctx)
    case Button(cb) => Routed(w, ctx.(res := PushCb(ctx.res, cb)), None)
    case _ =>
      var l := ClickL(w.children, w.layout.rects, p, ctx, sizes);
      var w' := w.(children := l.ws);
      assert forall i :: 0 <= i < |w.children| ==> ShapeOf(w'.children[i]) == ShapeOf(w.children[i]);
      assert ShapeOf(w').kids == ShapeOf(w).kids;
      Routed(w', l.ctx, l.resp)
  }

  /**
   * The layout's share of a click: the first paired child whose rectangle
   * contains the point gets the click, translated into its coordinates and
   * with the context's index set to that child's; when no rectangle
   * contains the point the answer is None.
   */
  function ClickL(ws: seq<Widget>, rects: seq<Rect>, p: Point, ctx: Ctx, sizes: seq<seq<nat>>): (r: RoutedList)
    ensures Extends(ctx.res, r.ctx.res)
    ensures r.ctx.res.status - REMEASURE == ctx.res.status - REMEASURE
    ensures r.resp.Some? ==> r.resp == Some(Handled)
    ensures |r.ws| == |ws|
    ensures forall i :: 0 <= i < |ws| ==> ShapeOf(r.ws[i]) == ShapeOf(ws[i]) && r.ws[i].visible == ws[i].visible
    ensures GetIdx(Paired(rects, |ws|), p).None? ==> r == RoutedList(ws, ctx, None)
    ensures forall i :: 0 <= i < |ws| && GetIdx(Paired(rects, |ws|), p) != Some(i) ==> r.ws[i] == ws[i]
    ensures GetIdx(Paired(rects, |ws|), p).Some? ==>
      var c := GetIdx(Paired(rects, |ws|), p).value;
      var child := Click(ws[c], Sub(p, rects[c].c1), ctx.(widx := ChildIdx(sizes, ctx.widx, c)), sizes);
      r.ws[c] == child.w && r.ctx == child.ctx && r.resp == child.resp
    decreases ws, 0
  {
    match GetIdx(Paired(rects, |ws|), p)
    case None => RoutedList(ws, ctx, None)
    case Some(c) =>
      var child := Click(ws[c], Sub(p, rects[c].c1), ctx.(widx := ChildIdx(sizes, ctx.widx, c)), sizes);
      RoutedList(ws[c := child.w], child.ctx, child.resp)
  }

  /** The children with every one but `keep` collapsed. */
  function CollapseOthers(ws: seq<Widget>, keep: nat): (r: seq<Widget>)
    ensures |r| == |ws|
    ensures forall i :: 0 <= i < |ws| && i != keep ==> r[i] == ws[i].(visible := Collapsed)
    ensures keep < |ws| ==> r[keep] == ws[keep]
  {
    seq(|ws|, i requires 0 <= i < |ws| => if i == keep then ws[i] else ws[i].(visible := Collapsed))
  }

  /**
   * A dropdown's click. If the list was open, the option under the point
   * (or option 0 when none is) becomes the selected one and every other
   * option is collapsed; then the list is opened or closed, a remeasure is
   * requested and the click is reported handled. Opening it again does not
   * make collapsed options visible.
   */
  function DropDownClick(w: Widget, p: Point, ctx: Ctx): (r: Routed)
    requires w.bhv.DropDown?
    ensures r.w.bhv.DropDown? && r.w.bhv.open == !w.bhv.open
    ensures r.w.bhv == w.bhv.(selected := r.w.bhv.selected, open := !w.bhv.open)
    ensures !w.bhv.open ==> r.w == w.(bhv := w.bhv.(open := true))
    ensures w.bhv.open ==> r.w.bhv.selected == (match GetIdx(w.layout.rects, p) case Some(i) => i case None => 0)
    ensures w.bhv.open ==> r.w.children == CollapseOthers(w.children, r.w.bhv.selected)
    ensures r.w.layout == w.layout && r.w.visible == w.visible && |r.w.children| == |w.children|
    ensures forall i :: 0 <= i < |w.children| ==> r.w.children[i].children == w.children[i].children
    ensures r.ctx == ctx.(res := SetRemeasure(ctx.res)) && r.resp == Some(Handled)
    ensures ShapeOf(r.w) == ShapeOf(w)
  {
    var d := w.bhv;
    var sel := if d.open then (match GetIdx(w.layout.rects, p) case Some(i) => i case None => 0) else d.selected;
    var kids := if d.open then CollapseOthers(w.children, sel) else w.children;
    var w' := w.(bhv := d.(selected := sel, open := !d.open), children := kids);
    assert forall i :: 0 <= i < |w.children| ==> ShapeOf(w'.children[i]) == ShapeOf(w.children[i]);
    assert ShapeOf(w').kids == ShapeOf(w).kids;
    Routed(w', ctx.(res := SetRemeasure(ctx.res)), Some(Handled))
  }

  /** Some node of the tree is a dropdown. */
  predicate AnyDropDown(w: Widget)
    decreases w
  {
    w.bhv.DropDown? || exists i :: 0 <= i < |w.children| && AnyDropDown(w.children[i])
  }

  /**
   * Only a dropdown ever answers a click: in a tree without one every
   * click comes back None, so the application treats it as a missed click.
   */
  lemma {:induction false} ClickWithoutDropDownMisses(w: Widget, p: Point, ctx: Ctx, sizes: seq<seq<nat>>)
    requires !AnyDropDown(w)
    ensures Click(w, p, ctx, sizes).resp == None
    decreases w
  {
    if !w.bhv.Button? {
      var k := GetIdx(Paired(w.layout.rects, |w.children|), p);
      if k.Some? {
        var c := k.value;
        assert !AnyDropDown(w.children[c]);
        ClickWithoutDropDownMisses(w.children[c], Sub(p, w.layout.rects[c].c1),
                                   ctx.(widx := ChildIdx(sizes, ctx.widx, c)), sizes);
      }
    }
  }

  /**
   * With the size table of the whole tree, a click routed from the node at
   * walk position `ctx.widx` leaves the context's index at a walk position
   * inside that node's subtree: the index arithmetic follows the tree.
   */
  lemma {:induction false} ClickStaysInSubtree(root: Widget, w: Widget, p: Point, ctx: Ctx, sizes: seq<seq<nat>>)
    requires sizes == ChildrenSizes(root)
    requires ctx.widx < |Flatten(root)| && Flatten(root)[ctx.widx] == w
    ensures var r := Click(w, p, ctx, sizes);
            ctx.widx <= r.ctx.widx < ctx.widx + |Flatten(w)| && r.ctx.widx < |Flatten(root)|
    decreases w
  {
    SubtreeBlock(root, ctx.widx);
    if !w.bhv.Button? && !w.bhv.DropDown? {
      var k := GetIdx(Paired(w.layout.rects, |w.children|), p);
      if k.Some? {
        var c := k.value;
        var idx := ChildIdx(sizes, ctx.widx, c);
        ChildSlot(root, w, ctx.widx, c);
        ClickStaysInSubtree(root, w.children[c], Sub(p, w.layout.rects[c].c1), ctx.(widx := idx), sizes);
      }
    }
  }

  /** Child `c` of the node at `q` sits at its context index, and its subtree lies inside its parent's. */
  lemma {:induction false} ChildSlot(root: Widget, w: Widget, q: nat, c: nat)
    requires q < |Flatten(root)| && Flatten(root)[q] == w && c < |w.children|
    ensures var idx := ChildIdx(ChildrenSizes(root), q, c);
            q < idx && idx + |Flatten(w.children[c])| <= q + |Flatten(w)| &&
            idx < |Flatten(root)| && Flatten(root)[idx] == w.children[c]
  {
    var ns, sizes := Flatten(root), ChildrenSizes(root);
    assert sizes[q] == Sizes(w.children);
    ChildIndexIsPreorder(root, q, c);
    var at := q + 1 + Sum(sizes[q][..c]);
    assert at < |ns| && ns[at] == ns[q].children[c];
    assert ChildIdx(sizes, q, c) == at;
    ChildWithinParent(w, c);
  }

  /** Child `c`'s subtree ends within its parent's. */
  lemma {:induction false} ChildWithinParent(w: Widget, c: nat)
    requires c < |w.children|
    ensures 1 + Sum(Sizes(w.children)[..c]) + |Flatten(w.children[c])| <= |Flatten(w)|
  {
    var s := Sizes(w.children);
    SubtreeSize(w);
    SumPrefixStep(s, c);
    assert s == s[..c + 1] + s[c + 1..];
    SumAppend(s[..c + 1], s[c + 1..]);
  }

  // ---------------------------------------------------------------------------
  // Hovering

  /**
   * The pointer moving over `p`. A button shows the hand cursor; a label
   * with a hover colour that is not yet shown hovered becomes so and asks
   * for a remeasure; both report the hover handled, which the composite
   * hover turns into None. Containers and dropdowns pass it to the first
   * child hit.
   */
  function Hover(w: Widget, p: Point, ctx: Ctx, sizes: seq<seq<nat>>): (r: Routed)
    ensures r.resp == None
    ensures Grows(ctx.res.status, r.ctx.res.status) && r.ctx.res.callbacks == ctx.res.callbacks
    ensures r.ctx.res.status - REMEASURE == ctx.res.status - REMEASURE
    ensures ShapeOf(r.w) == ShapeOf(w) && r.w.visible == w.visible && r.w.layout == w.layout
    ensures w.bhv.Button? ==> r == Routed(w, ctx.(res := SetCursor(ctx.res, Hand)), None)
    ensures w.bhv.Label? ==> r.w.bhv.Label? && r.w.bhv.hasHoverColor == w.bhv.hasHoverColor
    ensures w.bhv.Label? && w.bhv.hasHoverColor ==> r.w.bhv.isHover
    ensures w.bhv.Label? && w.bhv.hasHoverColor && !w.bhv.isHover ==> Has(r.ctx.res.status, REMEASURE)
    ensures w.bhv.Label? && !(w.bhv.hasHoverColor && !w.bhv.isHover) ==> r == Routed(w, ctx, None)
    decreases w, 1
  {
    match w.bhv
    case Button(_) => Routed(w, ctx.(res := SetCursor(ctx.res, Hand)), None)
    case Label(hc, ih) =>
      if hc && !ih then Routed(w.(bhv := Label(hc, true)), ctx.(res := SetRemeasure(ctx.res)), None)
      else Routed(w, ctx, None)
    case _ =>
      var l := HoverL(w.children, w.layout.rects, p, ctx, sizes);
      var w' := w.(children := l.ws);
      assert forall i :: 0 <= i < |w.children| ==> ShapeOf(w'.children[i]) == ShapeOf(w.children[i]);
      assert ShapeOf(w').kids == ShapeOf(w).kids;
      Routed(w', l.ctx, l.resp)
  }

  /** The layout's share of a hover, routed like a click. */
  function HoverL(ws: seq<Widget>, rects: seq<Rect>, p: Point, ctx: Ctx, sizes: seq<seq<nat>>): (r: RoutedList)
    ensures r.resp == None
    ensures Grows(ctx.res.status, r.ctx.res.status) && r.ctx.res.callbacks == ctx.res.callbacks
    ensures r.ctx.res.status - REMEASURE == ctx.res.status - REMEASURE
    ensures |r.ws| == |ws|
    ensures forall i :: 0 <= i < |ws| ==> ShapeOf(r.ws[i]) == ShapeOf(ws[i]) && r.ws[i].visible == ws[i].visible
    ensures GetIdx(Paired(rects, |ws|), p).None? ==> r == RoutedList(ws, ctx, None)
    ensures forall i :: 0 <= i < |ws| && GetIdx(Paired(rects, |ws|), p) != Some(i) ==> r.ws[i] == ws[i]
    ensures GetIdx(Paired(rects, |ws|), p).Some? ==>
      var c := GetIdx(Paired(rects, |ws|), p).value;
      var child := Hover(ws[c], Sub(p, rects[c].c1), ctx.(widx := ChildIdx(sizes, ctx.widx, c)), sizes);
      r.ws[c] == child.w && r.ctx == child.ctx && r.resp == child.resp
    decreases ws, 0
  {
    match GetIdx(Paired(rects, |ws|), p)
    case None => RoutedList(ws, ctx, None)
    case Some(c) =>
      var child := Hover(ws[c], Sub(p, rects[c].c1), ctx.(widx := ChildIdx(sizes, ctx.widx, c)), sizes);
      RoutedList(ws[c := child.w], child.ctx, child.resp)
  }

  /**
   * The child a click or hover goes to, described without `GetIdx`: a
   * paired child whose rectangle contains the point while no earlier
   * paired rectangle does.
   */
  lemma FirstHit(rects: seq<Rect>, n: nat, p: Point, c: nat)
    requires c < n && c < |rects| && InBounds(rects[c], p)
    requires forall j :: 0 <= j < c ==> !InBounds(rects[j], p)
    ensures GetIdx(Paired(rects, n), p) == Some(c)
  {
    assert Paired(rects, n)[c] == rects[c];
  }

  /** A click inside the first paired rectangle that contains it reaches that child, and only that child. */
  lemma ClickGoesToFirstHit(ws: seq<Widget>, rects: seq<Rect>, p: Point, ctx: Ctx, sizes: seq<seq<nat>>, c: nat)
    requires c < |ws| && c < |rects| && InBounds(rects[c], p)
    requires forall j :: 0 <= j < c ==> !InBounds(rects[j], p)
    ensures var child := Click(ws[c], Sub(p, rects[c].c1), ctx.(widx := ChildIdx(sizes, ctx.widx, c)), sizes);
      ClickL(ws, rects, p, ctx, sizes) == RoutedList(ws[c := child.w], child.ctx, child.resp)
  {
    FirstHit(rects, |ws|, p, c);
  }

  /** A hover inside the first paired rectangle that contains it reaches that child, and only that child. */
  lemma HoverGoesToFirstHit(ws: seq<Widget>, rects: seq<Rect>, p: Point, ctx: Ctx, sizes: seq<seq<nat>>, c: nat)
    requires c < |ws| && c < |rects| && InBounds(rects[c], p)
    requires forall j :: 0 <= j < c ==> !InBounds(rects[j], p)
    ensures var child := Hover(ws[c], Sub(p, rects[c].c1), ctx.(widx := ChildIdx(sizes, ctx.widx, c)), sizes);
      HoverL(ws, rects, p, ctx, sizes) == RoutedList(ws[c := child.w], child.ctx, child.resp)
  {
    FirstHit(rects, |ws|, p, c);
  }

  // ---------------------------------------------------------------------------
  // Deselecting

  /** Some dropdown in the tree is open. */
  predicate AnyOpen(w: Widget)
    decreases w
  {
    (w.bhv.DropDown? && w.bhv.open) || exists i :: 0 <= i < |w.children| && AnyOpen(w.children[i])
  }

  /**
   * Deselecting a tree: the node's own hook runs (a dropdown closes), then
   * each child is deselected in turn. Afterwards no dropdown is open,
   * nothing else changed, and a tree with nothing open is left as it was.
   */
  function Deselect(w: Widget): (r: Widget)
    ensures !AnyOpen(r)
    ensures ShapeOf(r) == ShapeOf(w)
    ensures r.layout == w.layout && r.visible == w.visible && r.sizeCache == w.sizeCache
    ensures Selection(r.bhv) == Selection(w.bhv)
    ensures w.bhv.DropDown? ==> r.bhv == w.bhv.(open := false)
    ensures !w.bhv.DropDown? ==> r.bhv == w.bhv
    ensures !AnyOpen(w) ==> r == w
    decreases w
  {
    var b := if w.bhv.DropDown? then w.bhv.(open := false) else w.bhv;
    var kids := seq(|w.children|, i requires 0 <= i < |w.children| => Deselect(w.children[i]));
    var r := w.(bhv := b, children := kids);
    assert forall i :: 0 <= i < |w.children| ==> ShapeOf(r.children[i]) == ShapeOf(w.children[i]);
    assert ShapeOf(r).kids == ShapeOf(w).kids;
    if !AnyOpen(w) then
      assert forall i :: 0 <= i < |w.children| ==> kids[i] == w.children[i];
      assert kids == w.children;
      r
    else r
  }

  // ---------------------------------------------------------------------------
  // Remeasuring

  /** Every grid in the tree has at least one column. */
  predicate GridsOk(w: Widget)
    decreases w
  {
    (w.layout.GridLayout? ==> w.layout.nCols > 0) &&
    forall i :: 0 <= i < |w.children| ==> GridsOk(w.children[i])
  }

  /** A click changes no layout, so every grid keeps its columns. */
  lemma {:induction false} ClickKeepsGrids(w: Widget, p: Point, ctx: Ctx, sizes: seq<seq<nat>>)
    requires GridsOk(w)
    ensures GridsOk(Click(w, p, ctx, sizes).w)
    decreases w
  {
    var r := Click(w, p, ctx, sizes).w;
    if w.bhv.DropDown? {
      if w.bhv.open {
        forall i | 0 <= i < |r.children|
          ensures GridsOk(r.children[i])
        {
          assert GridsOk(w.children[i]);
        }
      }
    } else if !w.bhv.Button? {
      var k := GetIdx(Paired(w.layout.rects, |w.children|), p);
      if k.Some? {
        var c := k.value;
        var cctx := ctx.(widx := ChildIdx(sizes, ctx.widx, c));
        ClickKeepsGrids(w.children[c], Sub(p, w.layout.rects[c].c1), cctx, sizes);
        var child := Click(w.children[c], Sub(p, w.layout.rects[c].c1), cctx, sizes);
        assert ClickL(w.children, w.layout.rects, p, ctx, sizes).ws == w.children[c := child.w];
        assert forall i :: 0 <= i < |r.children| ==> GridsOk(r.children[i]);
      }
    }
  }

  /** A hover changes no layout, so every grid keeps its columns. */
  lemma {:induction false} HoverKeepsGrids(w: Widget, p: Point, ctx: Ctx, sizes: seq<seq<nat>>)
    requires GridsOk(w)
    ensures GridsOk(Hover(w, p, ctx, sizes).w)
    decreases w
  {
    var r := Hover(w, p, ctx, sizes).w;
    if !w.bhv.Button? && !w.bhv.Label? {
      var k := GetIdx(Paired(w.layout.rects, |w.children|), p);
      if k.Some? {
        var c := k.value;
        var cctx := ctx.(widx := ChildIdx(sizes, ctx.widx, c));
        HoverKeepsGrids(w.children[c], Sub(p, w.layout.rects[c].c1), cctx, sizes);
        var child := Hover(w.children[c], Sub(p, w.layout.rects[c].c1), cctx, sizes);
        assert HoverL(w.children, w.layout.rects, p, ctx, sizes).ws == w.children[c := child.w];
        assert forall i :: 0 <= i < |r.children| ==> GridsOk(r.children[i]);
      }
    }
  }

  /** The empty rectangle, which under the half-open `InBounds` contains no point. */
  const EmptyRect: Rect := Rect(Origin, Origin)

  /** Pads the rectangle table with empty rectangles until it has a slot for each of `n` children. */
  function Fit(rects: seq<Rect>, n: nat): (r: seq<Rect>)
    ensures |r| == if |rects| < n then n else |rects|
    ensures forall i :: 0 <= i < |rects| ==> r[i] == rects[i]
    ensures forall i :: |rects| <= i < |r| ==> r[i] == EmptyRect
  {
    if |rects| < n then rects + seq(n - |rects|, _ => EmptyRect) else rects
  }

  /** Visibilities of the children. */
  function VisOf(ws: seq<Widget>): (v: seq<Visibility>)
    ensures |v| == |ws| && forall i :: 0 <= i < |ws| ==> v[i] == ws[i].visible
  {
    seq(|ws|, i requires 0 <= i < |ws| => ws[i].visible)
  }

  /** Cached sizes of the children. */
  function SizesOf(ws: seq<Widget>): (m: seq<Point>)
    ensures |m| == |ws| && forall i :: 0 <= i < |ws| ==> m[i] == ws[i].sizeCache
  {
    seq(|ws|, i requires 0 <= i < |ws| => ws[i].sizeCache)
  }

  /**
   * Remeasuring a node: its layout measures the children (a stack skips
   * collapsed ones, a grid measures all) and places them, and the node's
   * cached size becomes the layout's aggregate size. The rectangle table is
   * first given a slot per child, and a grid's row table has a row for
   * each started row of cells.
   */
  function Remeasure(w: Widget): (r: Widget)
    requires GridsOk(w)
    ensures r.bhv == w.bhv && r.visible == w.visible && ShapeOf(r) == ShapeOf(w) && |r.children| == |w.children|
    ensures r.layout.ListLayout? == w.layout.ListLayout? && r.sizeCache == r.layout.size
    ensures |r.layout.rects| >= |w.children|
    ensures forall i :: 0 <= i < |w.children| && (r.layout.GridLayout? || w.children[i].visible != Collapsed) ==>
              Extent(r.layout.rects[i]) == r.children[i].sizeCache
    ensures r.layout.ListLayout? ==> forall i :: 0 <= i < |w.children| && w.children[i].visible == Collapsed ==>
              r.children[i] == w.children[i]
    ensures GridsOk(r)
    decreases w, 1
  {
    if w.layout.ListLayout? then RemeasureList(w) else RemeasureGrid(w)
  }

  /** A stack's remeasure: collapsed children are neither measured nor moved. */
  function RemeasureList(w: Widget): (r: Widget)
    requires GridsOk(w) && w.layout.ListLayout?
    ensures r.bhv == w.bhv && r.visible == w.visible && ShapeOf(r) == ShapeOf(w) && |r.children| == |w.children|
    ensures r.layout.ListLayout? && r.sizeCache == r.layout.size
    ensures r.layout.orientation == w.layout.orientation && r.layout.spacing == w.layout.spacing
    ensures |r.layout.rects| >= |w.children|
    ensures forall i :: 0 <= i < |w.children| && w.children[i].visible != Collapsed ==>
              Extent(r.layout.rects[i]) == r.children[i].sizeCache
    ensures forall i :: 0 <= i < |w.children| && w.children[i].visible == Collapsed ==>
              r.children[i] == w.children[i]
    ensures VisOf(r.children) == VisOf(w.children)
    ensures (r.layout.rects, r.layout.size) ==
            StackPlace(w.layout.orientation, w.layout.spacing, Fit(w.layout.rects, |w.children|),
                       VisOf(r.children), SizesOf(r.children))
    ensures GridsOk(r)
    decreases w, 0
  {
    var n := |w.children|;
    var o, sp := w.layout.orientation, w.layout.spacing;
    var kids := seq(n, i requires 0 <= i < n =>
                  if w.children[i].visible == Collapsed then w.children[i] else Remeasure(w.children[i]));
    assert VisOf(kids) == VisOf(w.children);
    var fitted := Fit(w.layout.rects, n);
    assert |fitted| >= n;
    var placed := StackPlace(o, sp, fitted, VisOf(kids), SizesOf(kids));
    var r := w.(layout := ListLayout(o, sp, placed.1, placed.0), children := kids, sizeCache := placed.1);
    assert forall i :: 0 <= i < n ==> ShapeOf(r.children[i]) == ShapeOf(w.children[i]);
    assert ShapeOf(r).kids == ShapeOf(w).kids;
    r
  }

  /** A grid's remeasure: every child is measured and placed. */
  function RemeasureGrid(w: Widget): (r: Widget)
    requires GridsOk(w) && w.layout.GridLayout?
    ensures r.bhv == w.bhv && r.visible == w.visible && ShapeOf(r) == ShapeOf(w) && |r.children| == |w.children|
    ensures r.layout.GridLayout? && r.sizeCache == r.layout.size
    ensures |r.layout.rects| >= |w.children|
    ensures forall i :: 0 <= i < |w.children| ==> Extent(r.layout.rects[i]) == r.children[i].sizeCache
    ensures r.layout.size.x >= w.layout.size.x && r.layout.size.y >= w.layout.size.y
    ensures GridsOk(r)
    decreases w, 0
  {
    var n := |w.children|;
    var nc, gap, size0 := w.layout.nCols, w.layout.gap, w.layout.size;
    var kids := seq(n, i requires 0 <= i < n => Remeasure(w.children[i]));
    var fitted := Fit(w.layout.rects, n);
    var placed := GridPlace(nc, gap, size0, fitted, SizesOf(kids), RowsOf(n, nc));
    forall k | 0 <= k < n
      ensures Extent(placed.0[k]) == kids[k].sizeCache
    {
      GridPlaceCells(nc, gap, size0, fitted, SizesOf(kids), RowsOf(n, nc), n, k);
    }
    GridSizeGrows(size0.x, ColWidths(SizesOf(kids), nc, n), gap.x, n, nc, RowsOf(n, nc));
    var r := w.(layout := GridLayout(nc, gap, placed.1, placed.0), children := kids, sizeCache := placed.1);
    assert forall i :: 0 <= i < n ==> ShapeOf(r.children[i]) == ShapeOf(w.children[i]);
    assert ShapeOf(r).kids == ShapeOf(w).kids;
    r
  }

  // ---------------------------------------------------------------------------
  // The layouts' rectangle tables as the program keeps them

  /**
   * Whether the program's stack pass can index a rectangle for every
   * visible child: the table is created empty and nothing ever grows it.
   */
  predicate ListFitsAsWritten(w: Widget)
  {
    w.layout.ListLayout? ==>
      forall i :: 0 <= i < |w.children| && w.children[i].visible != Collapsed ==> i < |w.layout.rects|
  }

  /** A fresh dropdown with one option already indexes past its empty table. */
  lemma FreshDropDownCannotRemeasure()
    ensures NewDropDown(1, 0).layout.rects == []
    ensures !ListFitsAsWritten(NewDropDown(1, 0))
  {
    var w := NewDropDown(1, 0);
    assert w.children[0].visible == Visible;
  }

  /** Appending children never adds rectangle slots. */
  lemma {:induction false} PushKeepsRects(w: Widget, c: Widget)
    ensures Push(w, c).layout.rects == w.layout.rects
  {
  }

  /**
   * A grid's table is created empty and nothing grows it, so the program's
   * pass pairs no cell: no child is placed, the width stays and the height
   * only rises to 0; the padded pass instead gives every child a rectangle
   * of its measured size.
   */
  lemma {:induction false} EmptyGridPlacesNothing(w: Widget)
    requires GridsOk(w) && w.layout.GridLayout? && w.layout.rects == []
    ensures var l := w.layout;
            GridPlace(l.nCols, l.gap, l.size, l.rects, SizesOf(w.children), 0) == ([], Point(l.size.x, Max(l.size.y, 0)))
    ensures |w.children| > 0 ==> |RemeasureGrid(w).layout.rects| >= |w.children| > 0
  {
    var l := w.layout;
    assert RowsOf(0, l.nCols) == 0;
    var placed := GridPlace(l.nCols, l.gap, l.size, l.rects, SizesOf(w.children), 0);
    assert placed.0 == [];
  }

  /** Whether the program's grid pass has a row-height slot for every row of paired cells. */
  predicate GridRowsFitAsWritten(n: nat, nRects: nat, total: nat)
    requires n > 0
  {
    RowsOf(total, n) <= nRects / n
  }

  /** Three cells in two columns start a second row that the table of 3 / 2 = 1 rows lacks. */
  lemma GridPartialRowPanics()
    ensures !GridRowsFitAsWritten(2, 3, 3)
  {
  }

  /** After remeasuring, a stack's visible children are laid out one gap apart. */
  lemma {:induction false} RemeasuredStackAdjacent(w: Widget, i: nat, j: nat)
    requires GridsOk(w) && w.layout.ListLayout?
    requires i < j < |w.children|
    requires w.children[i].visible != Collapsed && w.children[j].visible != Collapsed
    requires forall k :: i < k < j ==> w.children[k].visible == Collapsed
    ensures var r := Remeasure(w);
            Main(r.layout.rects[j].c1, w.layout.orientation) ==
            Main(r.layout.rects[i].c2, w.layout.orientation) + w.layout.spacing
  {
    var r := RemeasureList(w);
    var o, sp := w.layout.orientation, w.layout.spacing;
    StackAdjacent(o, sp, VisOf(r.children), SizesOf(r.children), i, j);
  }

  // ---------------------------------------------------------------------------
  // The size table survives events

  /** Trees of one shape flatten to node sequences of one length whose nodes pair up by shape. */
  lemma {:induction false} FlattenShape(a: Widget, b: Widget)
    requires ShapeOf(a) == ShapeOf(b)
    ensures |Flatten(a)| == |Flatten(b)|
    ensures forall k :: 0 <= k < |Flatten(a)| ==> ShapeOf(Flatten(a)[k]) == ShapeOf(Flatten(b)[k])
    decreases a, 1
  {
    assert |a.children| == |ShapeOf(a).kids| == |b.children|;
    assert forall i :: 0 <= i < |a.children| ==> ShapeOf(a.children[i]) == ShapeOf(a).kids[i];
    FlattenListShape(a.children, b.children);
  }

  lemma {:induction false} FlattenListShape(xs: seq<Widget>, ys: seq<Widget>)
    requires |xs| == |ys| && forall i :: 0 <= i < |xs| ==> ShapeOf(xs[i]) == ShapeOf(ys[i])
    ensures |FlattenList(xs)| == |FlattenList(ys)|
    ensures forall k :: 0 <= k < |FlattenList(xs)| ==> ShapeOf(FlattenList(xs)[k]) == ShapeOf(FlattenList(ys)[k])
    decreases xs, 0
  {
    if |xs| > 0 {
      FlattenShape(xs[0], ys[0]);
      FlattenListShape(xs[1..], ys[1..]);
    }
  }

  /** Nodes of one shape have one row in the size table. */
  lemma {:induction false} SizesShape(x: Widget, y: Widget)
    requires ShapeOf(x) == ShapeOf(y)
    ensures Sizes(x.children) == Sizes(y.children)
  {
    assert |x.children| == |ShapeOf(x).kids| == |y.children|;
    forall i | 0 <= i < |x.children|
      ensures |Flatten(x.children[i])| == |Flatten(y.children[i])|
    {
      assert ShapeOf(x.children[i]) == ShapeOf(x).kids[i];
      FlattenShape(x.children[i], y.children[i]);
    }
  }

  /** The size table depends on the tree's shape only. */
  lemma {:induction false} ShapeKeepsSizeTable(a: Widget, b: Widget)
    requires ShapeOf(a) == ShapeOf(b)
    ensures ChildrenSizes(a) == ChildrenSizes(b)
  {
    FlattenShape(a, b);
    forall k | 0 <= k < |Flatten(a)|
      ensures Rows(Flatten(a))[k] == Rows(Flatten(b))[k]
    {
      SizesShape(Flatten(a)[k], Flatten(b)[k]);
    }
  }

  /**
   * The size table, built once from the tree, stays the table of the tree
   * through clicks, hovers, remeasures and deselects, none of which adds or
   * removes a node.
   */
  lemma {:induction false} EventsKeepSizeTable(w: Widget, p: Point, ctx: Ctx, sizes: seq<seq<nat>>)
    ensures ChildrenSizes(Click(w, p, ctx, sizes).w) == ChildrenSizes(w)
    ensures ChildrenSizes(Hover(w, p, ctx, sizes).w) == ChildrenSizes(w)
    ensures ChildrenSizes(Deselect(w)) == ChildrenSizes(w)
    ensures GridsOk(w) ==> ChildrenSizes(Remeasure(w)) == ChildrenSizes(w)
  {
    ShapeKeepsSizeTable(Click(w, p, ctx, sizes).w, w);
    ShapeKeepsSizeTable(Hover(w, p, ctx, sizes).w, w);
    ShapeKeepsSizeTable(Deselect(w), w);
    if GridsOk(w) {
      ShapeKeepsSizeTable(Remeasure(w), w);
    }
  }
}

=== FILE: selection.dfy ===
/**
 * The keyboard selection: the selection list of the widget tree, the index
 * of the current entry if any, and the size table used to compute child
 * widget indices. Selection changes and key presses are forwarded to the
 * entries' hooks.
 */
module Selection {
  import opened Base
  import opened Status
  import opened Reflow
  import opened Entries
  import opened Tree

  datatype SelectionState = SelectionState(list: SelectionList, cur: Option<nat>, childSizes: seq<seq<nat>>)

  /** The current index, when there is one, names an entry, and every entry is well formed. */
  predicate Consistent(s: SelectionState)
  {
    && (s.cur.Some? ==> s.cur.value < |s.list.entries|)
    && forall i :: 0 <= i < |s.list.entries| ==> EntryValid(s.list.entries[i])
  }

  /** The state built from a tree: its selection list and size table, nothing selected. */
  function NewSelectionState(root: Widget): (s: SelectionState)
    ensures Consistent(s) && s.cur.None?
    ensures s.list.entries == EntriesOf(Flatten(root))
    ensures s.list.widgetIdx == IndexMap(Flatten(root), 0)
    ensures s.childSizes == Rows(Flatten(root))
  {
    SelectionState(NewSelectionList(root), None, ChildrenSizes(root))
  }

  predicate IsSelect(s: SelectionState)
  {
    s.cur.Some?
  }

  /** The state after a hook ran, with the event result and the hook's answer. */
  datatype Outcome = Outcome(state: SelectionState, res: EventResult, resp: Option<Response>)

  /** No flag and no callback was added or removed. */
  predicate SameFlags(r: EventResult, r': EventResult)
  {
    r'.status == r.status && r'.callbacks == r.callbacks
  }

  /**
   * Changes the selection: the current entry, if any, is deselected first;
   * then `idx` becomes current and, if it names an entry, that entry is
   * selected. The hooks' answers are discarded.
   */
  function SetSelect(s: SelectionState, idx: Option<nat>, r: EventResult): (o: Outcome)
    requires Consistent(s)
    requires idx.Some? ==> idx.value < |s.list.entries|
    ensures Consistent(o.state) && o.state.cur == idx && o.resp.None?
    ensures o.state.childSizes == s.childSizes && o.state.list.widgetIdx == s.list.widgetIdx
    ensures |o.state.list.entries| == |s.list.entries|
    ensures forall i :: 0 <= i < |s.list.entries| && Some(i) != s.cur && Some(i) != idx ==>
              o.state.list.entries[i] == s.list.entries[i]
    ensures SameFlags(r, o.res)
    ensures !(idx.Some? && s.list.entries[idx.value].TextEntry?) ==> o.res == r
    ensures s.cur.Some? && s.cur != idx && s.list.entries[s.cur.value].TextEntry? ==>
              o.state.list.entries[s.cur.value] == TextEntry(s.list.entries[s.cur.value].t.(active := false))
    ensures idx.Some? && s.list.entries[idx.value].TextEntry? ==>
              o.state.list.entries[idx.value] == TextEntry(s.list.entries[idx.value].t.(active := true))
              && o.res.cursor == IBeam
    ensures forall i :: 0 <= i < |s.list.entries| && s.list.entries[i].DropEntry? ==>
              o.state.list.entries[i] == s.list.entries[i]
  {
    var es := s.list.entries;
    var (es1, r1) :=
      if s.cur.Some? then
        var h := OnDeselect(es[s.cur.value], r);
        (es[s.cur.value := h.entry], h.res)
      else (es, r);
    var (es2, r2) :=
      if idx.Some? then
        var h := OnSelect(es1[idx.value], r1);
        (es1[idx.value := h.entry], h.res)
      else (es1, r1);
    Outcome(SelectionState(s.list.(entries := es2), idx, s.childSizes), r2, None)
  }

  /**
   * Tab: moves to the next entry and selects it, unless nothing is selected
   * or the last entry is. The entry left behind is not deselected.
   */
  function SelectNext(s: SelectionState, r: EventResult): (o: Outcome)
    requires Consistent(s)
    ensures Consistent(o.state)
    ensures s.cur.None? || s.cur.value + 1 >= |s.list.entries| ==> o == Outcome(s, r, None)
    ensures s.cur.Some? && s.cur.value + 1 < |s.list.entries| ==>
              var i := s.cur.value;
              var h := OnSelect(s.list.entries[i + 1], r);
              && o.state == s.(cur := Some(i + 1), list := s.list.(entries := s.list.entries[i + 1 := h.entry]))
              && o.res == h.res && o.resp == h.resp
  {
    if s.cur.Some? && s.cur.value < |s.list.entries| - 1 then
      var i := s.cur.value;
      var h := OnSelect(s.list.entries[i + 1], r);
      Outcome(s.(cur := Some(i + 1), list := s.list.(entries := s.list.entries[i + 1 := h.entry])), h.res, h.resp)
    else Outcome(s, r, None)
  }

  /**
   * Shift-Tab: the mirror image of `SelectNext`, moving to the previous
   * entry unless nothing or the first entry is selected.
   */
  function SelectPrev(s: SelectionState, r: EventResult): (o: Outcome)
    requires Consistent(s)
    ensures Consistent(o.state)
    ensures s.cur.None? || s.cur.value == 0 ==> o == Outcome(s, r, None)
    ensures s.cur.Some? && s.cur.value > 0 ==>
              var i := s.cur.value;
              var h := OnSelect(s.list.entries[i - 1], r);
              && o.state == s.(cur := Some(i - 1), list := s.list.(entries := s.list.entries[i - 1 := h.entry]))
              && o.res == h.res && o.resp == h.resp
  {
    if s.cur.Some? && s.cur.value > 0 then
      var i := s.cur.value;
      var h := OnSelect(s.list.entries[i - 1], r);
      Outcome(s.(cur := Some(i - 1), list := s.list.(entries := s.list.entries[i - 1 := h.entry])), h.res, h.resp)
    else Outcome(s, r, None)
  }

  /**
   * A key press goes to the current entry; with nothing selected it is not
   * handled. The event result is untouched.
   */
  function HandleKeyDown(s: SelectionState, kc: Keycode, m: Metrics, r: EventResult): (o: Outcome)
    requires Consistent(s)
    ensures Consistent(o.state) && o.state.cur == s.cur && o.res == r
    ensures s.cur.None? ==> o == Outcome(s, r, None)
    ensures s.cur.Some? ==>
              var h := OnKey(s.list.entries[s.cur.value], kc, m, r);
              && o.state == s.(list := s.list.(entries := s.list.entries[s.cur.value := h.entry]))
              && o.res == h.res && o.resp == h.resp
  {
    if s.cur.Some? then
      var h := OnKey(s.list.entries[s.cur.value], kc, m, r);
      Outcome(s.(list := s.list.(entries := s.list.entries[s.cur.value := h.entry])), h.res, h.resp)
    else Outcome(s, r, None)
  }

  /** Whether the node at widget index `w` holds the current entry. */
  predicate IsSelectW(s: SelectionState, w: nat)
    requires w < |s.list.widgetIdx|
  {
    s.list.widgetIdx[w] == s.cur
  }

  /** Tab never moves past the last entry, and from the last entry does nothing. */
  lemma {:induction false} SelectNextBounded(s: SelectionState, r: EventResult, n: nat)
    requires Consistent(s) && s.cur.Some?
    ensures TabTimes(s, r, n).cur.Some?
    ensures TabTimes(s, r, n).cur.value == if s.cur.value + n < |s.list.entries| then s.cur.value + n
                                           else |s.list.entries| - 1
    decreases n
  {
    if n > 0 {
      var o := SelectNext(s, r);
      SelectNextBounded(o.state, o.res, n - 1);
    }
  }

  /** The state after `n` presses of Tab. */
  function TabTimes(s: SelectionState, r: EventResult, n: nat): (s': SelectionState)
    requires Consistent(s)
    ensures Consistent(s')
    decreases n
  {
    if n == 0 then s else var o := SelectNext(s, r); TabTimes(o.state, o.res, n - 1)
  }

  /**
   * Selecting the entry a node maps to makes that node the selected widget,
   * and the current entry is the node's own selector.
   */
  lemma {:induction false} SelectWidget(root: Widget, k: nat, r: EventResult)
    requires k < |Flatten(root)| && Selection(Flatten(root)[k].bhv).Some?
    ensures var s := NewSelectionState(root);
            var idx := s.list.widgetIdx[k];
            && idx.Some? && idx.value < |s.list.entries|
            && IsSelectW(SetSelect(s, idx, r).state, k)
            && SetSelect(s, idx, r).state.list.entries[idx.value] == Selection(Flatten(root)[k].bhv).value
  {
    IndexMapNumbers(Flatten(root), 0, k);
  }
}

=== FILE: status.dfy ===
/**
 * Widget status flags and the per-event result that event handlers accumulate:
 * a bit set of status flags OR-ed together, an ordered queue of deferred
 * application callbacks, and the pointer cursor to show afterwards.
 */
module Status {

  /**
   * The 32-bit flag set behind `WidgetStatus`, written as the set of the
   * positions of its one bits; bitwise OR is then set union.
   */
  type Bits = set<nat>

  /** The integer value 0. */
  const FINE: Bits := {}
  /** The integer value 1. */
  const REDRAW: Bits := {0}
  /** The integer value 3: it shares its low bit with REDRAW, so it implies a redraw. */
  const REMEASURE: Bits := {0, 1}
  /** The integer value 4: requests that the keyboard selection be dropped. */
  const DESELECT: Bits := {2}

  /** `flag` is contained in `s` (every bit of `flag` is set in `s`). */
  predicate Has(s: Bits, flag: Bits)
  {
    flag <= s
  }

  /** Operating-system pointer cursors the widgets ask for. */
  datatype Cursor = Arrow | Hand | IBeam | Crosshair

  /** A deferred whole-application callback, identified by an opaque tag. */
  datatype Callback = Callback(tag: nat)

  /** What a hook reports about an event it was offered. */
  datatype Response = Handled | NotHandled

  /** The accumulated result of dispatching one event. */
  datatype EventResult = EventResult(status: Bits, callbacks: seq<Callback>, cursor: Cursor)

  /** A fresh result: no flags, no callbacks, the default arrow cursor. */
  const Fresh: EventResult := EventResult(FINE, [], Arrow)

  /** `b` keeps every flag of `a`. */
  predicate Grows(a: Bits, b: Bits)
  {
    a <= b
  }

  /** Appends a callback to the queue. */
  function PushCb(r: EventResult, cb: Callback): (r': EventResult)
    ensures |r'.callbacks| == |r.callbacks| + 1
    ensures r'.callbacks[..|r.callbacks|] == r.callbacks
    ensures r'.callbacks[|r.callbacks|] == cb
    ensures r'.status == r.status && r'.cursor == r.cursor
  {
    r.(callbacks := r.callbacks + [cb])
  }

  /** ORs `flag` into the status; no bit is ever cleared. */
  function SetStatus(r: EventResult, flag: Bits): (r': EventResult)
    ensures Has(r'.status, flag)
    ensures Grows(r.status, r'.status)
    ensures r'.status - flag == r.status - flag
    ensures r'.callbacks == r.callbacks && r'.cursor == r.cursor
  {
    r.(status := r.status + flag)
  }

  /** Requests a redraw. */
  function SetRedraw(r: EventResult): (r': EventResult)
    ensures Has(r'.status, REDRAW)
    ensures Grows(r.status, r'.status)
    ensures r'.status - REDRAW == r.status - REDRAW
    ensures r'.callbacks == r.callbacks && r'.cursor == r.cursor
  {
    SetStatus(r, REDRAW)
  }

  /** Requests a remeasure, which also requests a redraw. */
  function SetRemeasure(r: EventResult): (r': EventResult)
    ensures Has(r'.status, REMEASURE) && Has(r'.status, REDRAW)
    ensures Grows(r.status, r'.status)
    ensures r'.status - REMEASURE == r.status - REMEASURE
    ensures r'.callbacks == r.callbacks && r'.cursor == r.cursor
  {
    SetStatus(r, REMEASURE)
  }

  /** Chooses the pointer cursor; nothing else changes. */
  function SetCursor(r: EventResult, c: Cursor): (r': EventResult)
    ensures r'.cursor == c
    ensures r'.status == r.status && r'.callbacks == r.callbacks
  {
    r.(cursor := c)
  }

  /** One call on the event context. */
  datatype CtxOp = OpPushCb(cb: Callback) | OpRedraw | OpRemeasure | OpCursor(c: Cursor)

  /** Performs one call. */
  function Step(r: EventResult, op: CtxOp): EventResult
  {
    match op
    case OpPushCb(cb) => PushCb(r, cb)
    case OpRedraw => SetRedraw(r)
    case OpRemeasure => SetRemeasure(r)
    case OpCursor(c) => SetCursor(r, c)
  }

  /** The flag one call ORs in. */
  function FlagOf(op: CtxOp): Bits
  {
    match op
    case OpRedraw => REDRAW
    case OpRemeasure => REMEASURE
    case _ => FINE
  }

  /** The callbacks one call enqueues. */
  function CallbackOf(op: CtxOp): seq<Callback>
  {
    if op.OpPushCb? then [op.cb] else []
  }

  /** Performs the calls in order, as a dispatch does. */
  function Run(r: EventResult, ops: seq<CtxOp>): EventResult
    decreases |ops|
  {
    if |ops| == 0 then r else Run(Step(r, ops[0]), ops[1..])
  }

  /** The flags a sequence of calls contributes, as one OR. */
  function FlagsOf(ops: seq<CtxOp>): Bits
    decreases |ops|
  {
    if |ops| == 0 then FINE else FlagOf(ops[0]) + FlagsOf(ops[1..])
  }

  /** The callbacks a sequence of calls enqueues, in call order. */
  function CallbacksOf(ops: seq<CtxOp>): seq<Callback>
    decreases |ops|
  {
    if |ops| == 0 then [] else CallbackOf(ops[0]) + CallbacksOf(ops[1..])
  }

  lemma {:induction false} StepAccumulates(r: EventResult, op: CtxOp)
    ensures Step(r, op).status == r.status + FlagOf(op)
    ensures Step(r, op).callbacks == r.callbacks + CallbackOf(op)
  {
    match op
    case OpPushCb(cb) =>
    case OpRedraw =>
    case OpRemeasure =>
    case OpCursor(c) =>
  }

  /**
   * Accumulation is a monoid action: the final status is the start status
   * OR-ed with every flag set along the way, and the queue is the start queue
   * followed by every pushed callback in order.
   */
  lemma {:induction false} RunAccumulates(r: EventResult, ops: seq<CtxOp>)
    ensures Run(r, ops).status == r.status + FlagsOf(ops)
    ensures Run(r, ops).callbacks == r.callbacks + CallbacksOf(ops)
    decreases |ops|
  {
    if |ops| > 0 {
      var r1 := Step(r, ops[0]);
      StepAccumulates(r, ops[0]);
      RunAccumulates(r1, ops[1..]);
      assert r.callbacks + CallbacksOf(ops)
          == r.callbacks + CallbackOf(ops[0]) + CallbacksOf(ops[1..]);
    }
  }
}

=== FILE: textedit.dfy ===
/**
 * The text editor behind a text box: a character buffer split into lines at
 * '\n', a cursor offset, and a fixed box size in pixels. Inserting or
 * deleting a character may trigger a reflow of the lines from the edited
 * line on, which adds breaks where a line would overflow the box width and
 * drops breaks that are no longer needed.
 */
module TextEditor {
  import opened Base
  import opened Rope
  import opened Reflow

  datatype Direction = DirLeft | DirRight | DirUp | DirDown

  /**
   * Editor state. `active` stands for the focus timestamp being set; the
   * timestamp's value is only used for drawing the caret.
   */
  datatype TextEdit = TextEdit(text: seq<char>, topLine: nat, width: int, height: int,
                               cursor: nat, active: bool)

  /** The cursor is a position within the text. */
  predicate Valid(e: TextEdit)
  {
    e.cursor <= |e.text|
  }

  /** A fresh editor for the given initial text and box size, cursor at 0, not focused. */
  function NewTextEdit(text: seq<char>, width: int, height: int): (e: TextEdit)
    ensures Valid(e) && e.cursor == 0 && e.text == text && !e.active
  {
    TextEdit(text, 0, width, height, 0, false)
  }

  /** Moves the cursor to `idx`, clamped to the end of the text. */
  function SetCursorPos(e: TextEdit, idx: nat): (r: TextEdit)
    ensures Valid(r)
    ensures r.cursor <= idx && (r.cursor == idx || r.cursor == |e.text|)
    ensures r.text == e.text && r == e.(cursor := r.cursor)
  {
    e.(cursor := if |e.text| < idx then |e.text| else idx)
  }

  /** Clamping is idempotent: setting the same position twice is setting it once. */
  lemma {:induction false} SetCursorPosIdempotent(e: TextEdit, idx: nat)
    ensures SetCursorPos(SetCursorPos(e, idx), idx) == SetCursorPos(e, idx)
  {
  }

  /**
   * Whether reflow from `sl` is needed: the line overflows the box, or the
   * first character of the next line would still fit after it.
   */
  function NeedsFormat(e: TextEdit, sl: nat, m: Metrics): (b: bool)
    requires sl <= CountNL(e.text)
    ensures m.lineW(Line(e.text, sl)) > e.width ==> b
    ensures sl == CountNL(e.text) ==> (b <==> m.lineW(Line(e.text, sl)) > e.width)
    ensures sl < CountNL(e.text) && m.lineW(Line(e.text, sl)) <= e.width ==>
              (b <==> |Line(e.text, sl + 1)| > 0 &&
                      m.lineW(Line(e.text, sl)) + m.charW(Line(e.text, sl + 1)[0]) <= e.width)
  {
    var t := e.text;
    var w0 := m.lineW(Line(t, sl));
    if w0 > e.width then true
    else if sl < LenLines(t) - 1 && |Line(t, sl + 1)| > 0 then
      w0 + m.charW(Line(t, sl + 1)[0]) <= e.width
    else false
  }

  /** The edits a reflow from line `sl` records. */
  function FormatEdits(e: TextEdit, sl: nat, m: Metrics): (es: seq<Edit>)
    requires sl <= CountNL(e.text)
    ensures Increasing(es) && Within(es, LineStart(e.text, sl), |e.text|)
    ensures OnlyBreaks(e.text, es)
  {
    Scan(e.text, LineStart(e.text, sl), 0, e.width, m)
  }

  /**
   * Reflow from line `sl`. When needed, the text before the line's first
   * character is kept, the rest is rebuilt with breaks added and dropped,
   * and the cursor moves by one for every edit strictly before it.
   */
  function FormatText(e: TextEdit, sl: nat, m: Metrics): (r: TextEdit)
    requires Valid(e) && sl <= CountNL(e.text)
    ensures Valid(r)
    ensures !NeedsFormat(e, sl, m) ==> r == e
    ensures NeedsFormat(e, sl, m) ==>
      var sc := LineStart(e.text, sl);
      var es := FormatEdits(e, sl, m);
      && r.text == e.text[..sc] + Rebuild(e.text, sc, es)
      && r.cursor == e.cursor + NetBefore(es, e.cursor)
    ensures r == e.(text := r.text, cursor := r.cursor)
  {
    if !NeedsFormat(e, sl, m) then e
    else
      var sc := LineStart(e.text, sl);
      var es := FormatEdits(e, sl, m);
      var t := e.text;
      assert t[..sc] + t[sc..] == t;
      ReplayRebuilds(t, t[..sc], sc, es, 0, e.cursor);
      ReplayShiftsCursor(t, es, 0, sc, e.cursor, e.cursor);
      var (t', c') := Replay(t, e.cursor, es, 0);
      e.(text := t', cursor := c')
  }

  /**
   * What reflow preserves: the text before the start line, every non-break
   * character in order, and a length that changes by one per added or
   * dropped break.
   */
  lemma {:induction false} FormatTextOnlyMovesBreaks(e: TextEdit, sl: nat, m: Metrics)
    requires Valid(e) && sl <= CountNL(e.text)
    ensures var r := FormatText(e, sl, m);
            var sc := LineStart(e.text, sl);
            && |r.text| >= sc
            && r.text[..sc] == e.text[..sc]
            && Strip(r.text) == Strip(e.text)
    ensures NeedsFormat(e, sl, m) ==>
            var es := FormatEdits(e, sl, m);
            |FormatText(e, sl, m).text| == |e.text| + Adds(es) - Removes(es)
  {
    var r := FormatText(e, sl, m);
    var sc := LineStart(e.text, sl);
    if NeedsFormat(e, sl, m) {
      var es := FormatEdits(e, sl, m);
      var t := e.text;
      RebuildLength(t, sc, es);
      RebuildKeepsText(t, sc, es);
      assert r.text[..sc] == t[..sc];
      StripAppend(t[..sc], Rebuild(t, sc, es));
      assert t == t[..sc] + t[sc..];
      StripAppend(t[..sc], t[sc..]);
    }
  }

  /**
   * Reflow never moves the cursor relative to the text: breaks aside, the
   * text before the cursor is the same before and after.
   */
  lemma {:induction false} FormatTextKeepsCursor(e: TextEdit, sl: nat, m: Metrics)
    requires Valid(e) && sl <= CountNL(e.text)
    ensures var r := FormatText(e, sl, m);
            Strip(r.text[..r.cursor]) == Strip(e.text[..e.cursor])
  {
    if NeedsFormat(e, sl, m) {
      if e.cursor < LineStart(e.text, sl) {
        CursorBeforeReflow(e, sl, m);
      } else {
        CursorInReflow(e, sl, m);
      }
    }
  }

  lemma {:induction false} CursorBeforeReflow(e: TextEdit, sl: nat, m: Metrics)
    requires Valid(e) && sl <= CountNL(e.text) && NeedsFormat(e, sl, m)
    requires e.cursor < LineStart(e.text, sl)
    ensures var r := FormatText(e, sl, m);
            r.cursor == e.cursor && r.text[..r.cursor] == e.text[..e.cursor]
  {
    var t, c := e.text, e.cursor;
    var sc := LineStart(t, sl);
    var es := FormatEdits(e, sl, m);
    NetBeforeNone(es, c);
    PrefixOfSplice(t[..sc], Rebuild(t, sc, es), t, c);
  }

  lemma {:induction false} CursorInReflow(e: TextEdit, sl: nat, m: Metrics)
    requires Valid(e) && sl <= CountNL(e.text) && NeedsFormat(e, sl, m)
    requires LineStart(e.text, sl) <= e.cursor
    ensures var r := FormatText(e, sl, m);
            Strip(r.text[..r.cursor]) == Strip(e.text[..e.cursor])
  {
    var t, c := e.text, e.cursor;
    var sc := LineStart(t, sl);
    var es := FormatEdits(e, sl, m);
    RebuildStripPrefix(t, sc, es, c);
    StripSplicePrefix(t, sc, c, Rebuild(t, sc, es), c - sc + NetBefore(es, c));
  }

  lemma {:induction false} PrefixOfSplice(a: seq<char>, b: seq<char>, t: seq<char>, c: nat)
    requires c <= |a| <= |t| && a == t[..|a|]
    ensures (a + b)[..c] == t[..c]
  {
    assert (a + b)[..c] == a[..c];
  }

  lemma {:induction false} StripSplicePrefix(t: seq<char>, sc: nat, c: nat, rb: seq<char>, n: int)
    requires sc <= c <= |t|
    requires 0 <= n <= |rb|
    requires Strip(rb[..n]) == Strip(t[sc..c])
    ensures Strip((t[..sc] + rb)[..sc + n]) == Strip(t[..c])
  {
    assert (t[..sc] + rb)[..sc + n] == t[..sc] + rb[..n];
    StripAppend(t[..sc], rb[..n]);
    assert t[..c] == t[..sc] + t[sc..c];
    StripAppend(t[..sc], t[sc..c]);
  }

  function Min(a: int, b: int): int
  {
    if a < b then a else b
  }

  /** The line the cursor is on, with where the cursor sits on it. */
  function CursorLine(e: TextEdit): (l: nat)
    requires Valid(e)
    ensures l == CharToLine(e.text, e.cursor) && l <= CountNL(e.text)
    ensures LineStart(e.text, l) <= e.cursor <= LineEnd(e.text, l)
    ensures e.cursor < |e.text| ==> e.cursor < LineEnd(e.text, l)
    ensures e.cursor == |e.text| ==> l == CountNL(e.text)
  {
    PositionOnLine(e.text, e.cursor, CharToLine(e.text, e.cursor));
    CharToLine(e.text, e.cursor)
  }

  /** Characters of line `l` a cursor can stand before: all but a trailing break. */
  function VisibleLen(t: seq<char>, l: nat): (n: nat)
    requires l <= CountNL(t)
    ensures n <= LineEnd(t, l) - LineStart(t, l)
    ensures l < CountNL(t) ==> n == LineEnd(t, l) - LineStart(t, l) - 1
    ensures l == CountNL(t) ==> n == |t| - LineStart(t, l)
  {
    if l < CountNL(t) then
      LineStartMono(t, l);
      LineEnd(t, l) - LineStart(t, l) - 1
    else LineEnd(t, l) - LineStart(t, l)
  }

  /** Typing is refused when the line would overflow and no further line fits in the box. */
  predicate InsertBlocked(e: TextEdit, ch: char, m: Metrics)
    requires Valid(e)
  {
    var line := Line(e.text, CursorLine(e));
    m.charW(ch) + m.lineW(line) > e.width && (1 + LenLines(e.text)) * m.lineHeight > e.height
  }

  /**
   * Whether typing `ch` forces a break in front of it: the cursor is at the
   * end of its line and of the text, and the line would overflow the box.
   */
  predicate ForcedBreak(e: TextEdit, ch: char, m: Metrics)
    requires Valid(e)
  {
    var cl := CursorLine(e);
    var line := Line(e.text, cl);
    && e.cursor - LineStart(e.text, cl) == |line|
    && m.charW(ch) + m.lineW(line) > e.width
    && e.cursor == |e.text|
  }

  /**
   * The character and, on a full last line, a break before it, spliced in at
   * the cursor, the cursor moved past them; no reflow yet.
   */
  function Typed(e: TextEdit, ch: char, m: Metrics): (e1: TextEdit)
    requires Valid(e)
    ensures Valid(e1) && CursorLine(e) <= CountNL(e1.text)
    ensures e.cursor < e1.cursor <= |e1.text|
    ensures e1.text == e.text[..e.cursor] + (if ForcedBreak(e, ch, m) then ['\n', ch] else [ch]) + e.text[e.cursor..]
    ensures e1.cursor == e.cursor + (if ForcedBreak(e, ch, m) then 2 else 1)
    ensures e1.text[..e.cursor] == e.text[..e.cursor]
    ensures e1 == e.(text := e1.text, cursor := e1.cursor)
  {
    var t, c := e.text, e.cursor;
    var ins := if ForcedBreak(e, ch, m) then ['\n', ch] else [ch];
    CountNLSplice(t, c, ins);
    assert (t[..c] + ins + t[c..])[..c] == t[..c];
    e.(text := t[..c] + ins + t[c..], cursor := c + |ins|)
  }

  /**
   * Types `ch` at the cursor. Typing at the very end of the text onto a full
   * line puts a break in front of the character; typing anywhere else
   * reflows from the cursor's line.
   */
  function InsertChar(e: TextEdit, ch: char, m: Metrics): (r: TextEdit)
    requires Valid(e)
    ensures Valid(r)
    ensures InsertBlocked(e, ch, m) ==> r == e
    ensures !InsertBlocked(e, ch, m) && Typed(e, ch, m).cursor == |Typed(e, ch, m).text| ==> r == Typed(e, ch, m)
    ensures !InsertBlocked(e, ch, m) && Typed(e, ch, m).cursor < |Typed(e, ch, m).text| ==>
              r == FormatText(Typed(e, ch, m), CursorLine(e), m)
    ensures r == e.(text := r.text, cursor := r.cursor)
  {
    if InsertBlocked(e, ch, m) then e
    else
      var e1 := Typed(e, ch, m);
      if e1.cursor < |e1.text| then FormatText(e1, CursorLine(e), m) else e1
  }

  /**
   * Typing at the end of the text appends the character, after a break when
   * the last line would overflow, leaves the cursor at the end, and does not
   * reflow.
   */
  lemma {:induction false} InsertAtEnd(e: TextEdit, ch: char, m: Metrics)
    requires Valid(e) && e.cursor == |e.text| && !InsertBlocked(e, ch, m)
    ensures var full := m.charW(ch) + m.lineW(Line(e.text, CountNL(e.text))) > e.width;
            var r := InsertChar(e, ch, m);
            && (ForcedBreak(e, ch, m) <==> full)
            && r.text == e.text + (if full then ['\n', ch] else [ch])
            && r.cursor == |r.text|
  {
    var t := e.text;
    var cl := CursorLine(e);
    assert cl == CountNL(t) && LineEnd(t, cl) == |t|;
    assert t[..e.cursor] == t && t[e.cursor..] == [];
  }

  /** Breaks aside, typing splices in exactly the typed character, the cursor right after it. */
  lemma {:induction false} TypedSplices(e: TextEdit, ch: char, m: Metrics)
    requires Valid(e)
    ensures var e1 := Typed(e, ch, m);
            && Strip(e1.text) == Strip(e.text[..e.cursor] + [ch] + e.text[e.cursor..])
            && Strip(e1.text[..e1.cursor]) == Strip(e.text[..e.cursor] + [ch])
  {
    var t, c := e.text, e.cursor;
    var e1 := Typed(e, ch, m);
    if |e1.text| == |t| + 2 {
      StripBreakBefore(t[..c], ch, t[c..]);
    } else {
      assert e1.text == t[..c] + [ch] + t[c..];
      assert e1.text[..e1.cursor] == t[..c] + [ch];
    }
  }

  lemma {:induction false} StripBreakBefore(a: seq<char>, ch: char, b: seq<char>)
    ensures Strip(a + ['\n', ch] + b) == Strip(a + [ch] + b)
    ensures Strip((a + ['\n', ch] + b)[..|a| + 2]) == Strip(a + [ch])
  {
    assert ['\n', ch] == ['\n'] + [ch];
    StripAppend(['\n'], [ch]);
    StripAppend(a + ['\n', ch], b);
    StripAppend(a, ['\n', ch]);
    StripAppend(a + [ch], b);
    StripAppend(a, [ch]);
    assert (a + ['\n', ch] + b)[..|a| + 2] == a + ['\n', ch];
  }

  /**
   * Typing inserts exactly the typed character at the cursor, breaks aside,
   * and leaves the cursor right after it.
   */
  lemma {:induction false} InsertCharSplices(e: TextEdit, ch: char, m: Metrics)
    requires Valid(e) && !InsertBlocked(e, ch, m)
    ensures var r := InsertChar(e, ch, m);
            && Strip(r.text) == Strip(e.text[..e.cursor] + [ch] + e.text[e.cursor..])
            && Strip(r.text[..r.cursor]) == Strip(e.text[..e.cursor] + [ch])
  {
    var e1 := Typed(e, ch, m);
    TypedSplices(e, ch, m);
    if e1.cursor < |e1.text| {
      FormatTextOnlyMovesBreaks(e1, CursorLine(e), m);
      FormatTextKeepsCursor(e1, CursorLine(e), m);
    }
  }

  /** Typing never changes the lines above the cursor's line. */
  lemma {:induction false} InsertCharKeepsEarlierLines(e: TextEdit, ch: char, m: Metrics)
    requires Valid(e)
    ensures var r := InsertChar(e, ch, m);
            var sc := LineStart(e.text, CursorLine(e));
            |r.text| >= sc && r.text[..sc] == e.text[..sc]
  {
    var cl := CursorLine(e);
    var sc := LineStart(e.text, cl);
    if !InsertBlocked(e, ch, m) {
      var e1 := Typed(e, ch, m);
      assert e1.text[..sc] == e.text[..sc] by {
        assert e1.text[..sc] == e1.text[..e.cursor][..sc];
      }
      if e1.cursor < |e1.text| {
        LineStartStable(e.text, e1.text, cl, e.cursor);
        FormatTextOnlyMovesBreaks(e1, cl, m);
      }
    }
  }

  /**
   * Where backspace deletes: the character before the cursor, except at the
   * start of a line after the first, where the cursor first steps back over
   * the break and the character before the break goes.
   */
  function DeletePoint(e: TextEdit): (d: nat)
    requires Valid(e)
    ensures d <= e.cursor && e.cursor <= d + 1
    ensures d < e.cursor <==> CursorLine(e) > 0 && e.cursor == LineStart(e.text, CursorLine(e))
  {
    var cl := CursorLine(e);
    if cl > 0 && e.cursor == LineStart(e.text, cl) then e.cursor - 1 else e.cursor
  }

  /** The text and cursor right after the deletion, before any reflow. */
  function Deleted(e: TextEdit): (e1: TextEdit)
    requires Valid(e) && DeletePoint(e) > 0
    ensures Valid(e1) && |e1.text| == |e.text| - 1
    ensures e1.text == e.text[..DeletePoint(e) - 1] + e.text[DeletePoint(e)..]
    ensures e1.cursor == DeletePoint(e) - 1
    ensures e1 == e.(text := e1.text, cursor := e1.cursor)
  {
    var d := DeletePoint(e);
    e.(text := e.text[..d - 1] + e.text[d..], cursor := d - 1)
  }

  /** Putting the deleted character back at the new cursor restores the text exactly. */
  lemma {:induction false} DeletedReinserts(e: TextEdit)
    requires Valid(e) && DeletePoint(e) > 0
    ensures var e1 := Deleted(e);
            e.text == e1.text[..e1.cursor] + [e.text[e1.cursor]] + e1.text[e1.cursor..]
  {
    var e1, d := Deleted(e), DeletePoint(e);
    assert e1.text[..d - 1] == e.text[..d - 1];
    assert e1.text[d - 1..] == e.text[d..];
    assert e.text == e.text[..d - 1] + [e.text[d - 1]] + e.text[d..];
  }

  /** Whether deleting reflows: some text is left after the character after the new cursor. */
  predicate DeleteReflows(e1: TextEdit)
  {
    |e1.text| > 0 && e1.cursor < |e1.text| - 1
  }

  /**
   * Backspace as the editor performs it, where `None` stands for a panic:
   * at position 0 of a non-empty text the cursor arithmetic underflows, and
   * the reflow is started from the cursor's line as it was before the
   * deletion, which no longer exists once the deletion joined it to the
   * line above.
   */
  function DeleteCharAsWritten(e: TextEdit, m: Metrics): (r: Option<TextEdit>)
    requires Valid(e)
    ensures r.Some? ==> Valid(r.value)
    ensures |e.text| == 0 ==> r == Some(e)
    ensures |e.text| > 0 && DeletePoint(e) == 0 ==> r.None?
    ensures DeletePoint(e) > 0 && !DeleteReflows(Deleted(e)) ==> r == Some(Deleted(e))
    ensures DeletePoint(e) > 0 && DeleteReflows(Deleted(e)) ==>
              (r.Some? <==> CursorLine(e) <= CountNL(Deleted(e).text))
  {
    if |e.text| == 0 then Some(e)
    else if DeletePoint(e) == 0 then None
    else
      var e1 := Deleted(e);
      var cl := CursorLine(e);
      if DeleteReflows(e1) then
        if cl <= CountNL(e1.text) then Some(FormatText(e1, cl, m)) else None
      else Some(e1)
  }

  /**
   * Backspace with both panics removed: nothing happens where there is no
   * character to delete, and the reflow starts from the cursor's old line or,
   * when that line is gone, from the last line.
   */
  function DeleteChar(e: TextEdit, m: Metrics): (r: TextEdit)
    requires Valid(e)
    ensures Valid(r)
    ensures |e.text| == 0 || DeletePoint(e) == 0 ==> r == e
    ensures |e.text| > 0 && DeletePoint(e) > 0 && !DeleteReflows(Deleted(e)) ==> r == Deleted(e)
    ensures |e.text| > 0 && DeletePoint(e) > 0 && DeleteReflows(Deleted(e)) ==>
              r == FormatText(Deleted(e), Min(CursorLine(e), CountNL(Deleted(e).text)), m)
    ensures r == e.(text := r.text, cursor := r.cursor)
  {
    if |e.text| == 0 || DeletePoint(e) == 0 then e
    else
      var e1 := Deleted(e);
      if DeleteReflows(e1) then FormatText(e1, Min(CursorLine(e), CountNL(e1.text)), m) else e1
  }

  /** Wherever the editor as written does not panic, the corrected backspace does the same. */
  lemma {:induction false} DeleteCharAgrees(e: TextEdit, m: Metrics)
    requires Valid(e)
    ensures DeleteCharAsWritten(e, m).Some? ==> DeleteCharAsWritten(e, m).value == DeleteChar(e, m)
  {
  }

  /** Backspace at the start of a non-empty text panics in the editor as written. */
  lemma {:induction false} DeleteAtStartPanics(m: Metrics)
    ensures DeleteCharAsWritten(TextEdit("a", 0, 100, 100, 0, true), m).None?
    ensures DeleteChar(TextEdit("a", 0, 100, 100, 0, true), m) == TextEdit("a", 0, 100, 100, 0, true)
  {
    var e := TextEdit("a", 0, 100, 100, 0, true);
    assert CountNL(e.text[..0]) == 0;
  }

  /**
   * Backspace at the start of a last line that follows an empty line removes
   * a break, and the editor as written then reflows from a line index past
   * the end: "a", empty line, "b" with the cursor before "b".
   */
  lemma {:induction false} DeleteAfterEmptyLinePanics(m: Metrics)
    ensures DeleteCharAsWritten(TextEdit("a\n\nb", 0, 100, 100, 3, true), m).None?
  {
    var t := "a\n\nb";
    var e := TextEdit(t, 0, 100, 100, 3, true);
    CountNLPrefixStep(t, 0);
    CountNLPrefixStep(t, 1);
    CountNLPrefixStep(t, 2);
    CountNLPrefixStep(t, 3);
    CountNLWhole(t);
    assert CountNL(t) == 2 && CharToLine(t, 3) == 2;
    LineStartUnique(t, 2, 3);
    assert DeletePoint(e) == 2;
    var t1 := Deleted(e).text;
    assert t1 == "a\nb";
    CountNLPrefixStep(t1, 0);
    CountNLPrefixStep(t1, 1);
    CountNLPrefixStep(t1, 2);
    CountNLWhole(t1);
    assert CountNL(t1) == 1;
  }

  /**
   * Backspace removes exactly one character, breaks aside, and leaves the
   * cursor where that character was.
   */
  lemma {:induction false} DeleteCharRemoves(e: TextEdit, m: Metrics)
    requires Valid(e) && |e.text| > 0 && DeletePoint(e) > 0
    ensures var r := DeleteChar(e, m);
            var d := DeletePoint(e);
            && Strip(r.text) == Strip(e.text[..d - 1] + e.text[d..])
            && Strip(r.text[..r.cursor]) == Strip(e.text[..d - 1])
  {
    var e1 := Deleted(e);
    var d := DeletePoint(e);
    assert e1.text[..e1.cursor] == e.text[..d - 1];
    if DeleteReflows(e1) {
      var sl := Min(CursorLine(e), CountNL(e1.text));
      FormatTextOnlyMovesBreaks(e1, sl, m);
      FormatTextKeepsCursor(e1, sl, m);
    }
  }

  /** Typing back the deleted character where the cursor was left restores the text, breaks aside. */
  lemma {:induction false} DeleteThenRetype(e: TextEdit, m: Metrics)
    requires Valid(e) && |e.text| > 0 && DeletePoint(e) > 0
    ensures Strip(Typed(Deleted(e), e.text[DeletePoint(e) - 1], m).text) == Strip(e.text)
  {
    var d := DeletePoint(e);
    var e1 := Deleted(e);
    TypedSplices(e1, e.text[d - 1], m);
    SpliceBack(e.text, d);
  }

  lemma {:induction false} SpliceBack(t: seq<char>, d: nat)
    requires 0 < d <= |t|
    ensures var u := t[..d - 1] + t[d..];
            u[..d - 1] + [t[d - 1]] + u[d - 1..] == t
  {
    var u := t[..d - 1] + t[d..];
    assert u[..d - 1] == t[..d - 1];
    assert u[d - 1..] == t[d..];
  }

  /** Offset of the cursor from the start of its line. */
  function Column(e: TextEdit): (p: nat)
    requires Valid(e)
    ensures p <= LineEnd(e.text, CursorLine(e)) - LineStart(e.text, CursorLine(e))
  {
    e.cursor - LineStart(e.text, CursorLine(e))
  }

  /**
   * Arrow-key movement as the editor performs it, where `None` stands for a
   * panic. Left at a line start skips two positions, which underflows at
   * position 1; Up clamps the column to the full length of the line above,
   * break included, which is the start of the current line; Down clamps to
   * the next line's length minus one even when that line has no break.
   */
  function MoveCursorAsWritten(e: TextEdit, dir: Direction): (r: Option<TextEdit>)
    requires Valid(e)
    ensures r.Some? ==> Valid(r.value) && r.value == e.(cursor := r.value.cursor)
  {
    match dir
    case DirLeft => LeftAsWritten(e)
    case DirRight => Some(RightAsWritten(e))
    case DirUp => Some(UpAsWritten(e))
    case DirDown => Some(DownAsWritten(e))
  }

  function LeftAsWritten(e: TextEdit): (r: Option<TextEdit>)
    requires Valid(e)
    ensures r.Some? ==> Valid(r.value) && r.value == e.(cursor := r.value.cursor)
  {
    var c := e.cursor;
    if c > 0 then
      if Column(e) == 0 then (if c >= 2 then Some(e.(cursor := c - 2)) else None)
      else Some(e.(cursor := c - 1))
    else Some(e)
  }

  /** Right as written; its two-step branch, taken at the end of a line, is unreachable. */
  function RightAsWritten(e: TextEdit): (r: TextEdit)
    requires Valid(e)
    ensures Valid(r) && r == e.(cursor := r.cursor)
  {
    var c := e.cursor;
    if c < |e.text| then
      if Column(e) == |Line(e.text, CursorLine(e))| then assert false; e
      else e.(cursor := c + 1)
    else e
  }

  /**
   * Up as written: on the first line nothing moves; where the column exists
   * on the line above it agrees with the corrected Up; otherwise the cursor
   * lands on the start of its own line.
   */
  function UpAsWritten(e: TextEdit): (r: TextEdit)
    requires Valid(e)
    ensures Valid(r) && r == e.(cursor := r.cursor)
    ensures CursorLine(e) == 0 ==> r == e
    ensures CursorLine(e) > 0 && Column(e) <= VisibleLen(e.text, CursorLine(e) - 1) ==> r == MoveUp(e)
    ensures CursorLine(e) > 0 && Column(e) > VisibleLen(e.text, CursorLine(e) - 1) ==>
              r.cursor == LineStart(e.text, CursorLine(e))
  {
    var t, cl := e.text, CursorLine(e);
    if cl > 0 then
      var ps := LineStart(t, cl - 1);
      LineStartMono(t, cl - 1);
      AboveLine(e);
      e.(cursor := Min(ps + |Line(t, cl - 1)|, ps + Column(e)))
    else e
  }

  /** The line above the cursor's ends in a break where the cursor's line starts. */
  lemma {:induction false} AboveLine(e: TextEdit)
    requires Valid(e) && CursorLine(e) > 0
    ensures var t, cl := e.text, CursorLine(e);
            && |Line(t, cl - 1)| == LineStart(t, cl) - LineStart(t, cl - 1)
            && VisibleLen(t, cl - 1) + 1 == |Line(t, cl - 1)|
            && MoveUp(e).cursor == LineStart(t, cl - 1) + Min(Column(e), VisibleLen(t, cl - 1))
  {
    var t, cl := e.text, CursorLine(e);
    LineStartMono(t, cl - 1);
    assert LineEnd(t, cl - 1) == LineStart(t, cl);
  }

  /**
   * Where the corrected Down puts the cursor when it leaves line `l` at
   * column `col`: the same column on the next line, or that line's end
   * when it is shorter.
   */
  function NextLineTarget(t: seq<char>, l: nat, col: nat): (c: nat)
    requires l < CountNL(t)
    ensures LineStart(t, l + 1) <= c <= LineStart(t, l + 1) + VisibleLen(t, l + 1) <= |t|
  {
    LineStart(t, l + 1) + Min(col, VisibleLen(t, l + 1))
  }

  /**
   * Where Down as written puts the cursor when it leaves line `l` at column
   * `col`: the next line's start plus the column, clamped to that line's
   * length minus one. Onto a line ending in a break this is the corrected
   * target; onto a last line too short for the column it stops one short of
   * the end of the text.
   */
  function DownTarget(t: seq<char>, l: nat, col: nat): (c: nat)
    requires l < CountNL(t)
    ensures c < |t|
    ensures l + 1 < CountNL(t) || col < VisibleLen(t, l + 1) ==> c == NextLineTarget(t, l, col)
    ensures l + 1 == CountNL(t) && col >= VisibleLen(t, l + 1) ==>
              c + 1 == |t| == NextLineTarget(t, l, col)
  {
    BelowLine(t, l);
    Min(LineStart(t, l + 1) + |Line(t, l + 1)| - 1, LineStart(t, l + 1) + col)
  }

  /**
   * Down as written clamps to the next line's length minus one; the next
   * line starts after a break, so the cursor stays within the text.
   */
  function DownAsWritten(e: TextEdit): (r: TextEdit)
    requires Valid(e)
    ensures Valid(r) && r == e.(cursor := r.cursor)
    ensures CursorLine(e) == CountNL(e.text) ==> r == e
  {
    var t, cl := e.text, CursorLine(e);
    if cl < LenLines(t) - 1 then e.(cursor := DownTarget(t, cl, Column(e)))
    else e
  }

  lemma {:induction false} DownAsWrittenAgrees(e: TextEdit)
    requires Valid(e)
    ensures CursorLine(e) < CountNL(e.text) &&
            (CursorLine(e) + 1 < CountNL(e.text) || Column(e) < VisibleLen(e.text, CursorLine(e) + 1)) ==>
              DownAsWritten(e) == MoveDown(e)
    ensures CursorLine(e) + 1 == CountNL(e.text) && Column(e) >= VisibleLen(e.text, CursorLine(e) + 1) ==>
              DownAsWritten(e).cursor + 1 == |e.text| == MoveDown(e).cursor
  {
    var t, cl := e.text, CursorLine(e);
    if cl < CountNL(t) {
      var col := Column(e);
      assert DownAsWritten(e).cursor == DownTarget(t, cl, col);
      assert MoveDown(e).cursor == NextLineTarget(t, cl, col);
    }
  }


  /**
   * The line below line `l`: it starts after a break; its visible characters
   * are all but a trailing break, which only the last line lacks; and the
   * last line runs to the end of the text.
   */
  lemma {:induction false} BelowLine(t: seq<char>, l: nat)
    requires l < CountNL(t)
    ensures LineStart(t, l + 1) > 0
    ensures |Line(t, l + 1)| == LineEnd(t, l + 1) - LineStart(t, l + 1)
    ensures l + 1 < CountNL(t) ==> VisibleLen(t, l + 1) + 1 == |Line(t, l + 1)|
    ensures l + 1 == CountNL(t) ==> VisibleLen(t, l + 1) == |Line(t, l + 1)| &&
                                    LineStart(t, l + 1) + |Line(t, l + 1)| == |t|
  {
    var ns, ne := LineStart(t, l + 1), LineEnd(t, l + 1);
    assert |Line(t, l + 1)| == |t[ns..ne]| == ne - ns;
  }

  /**
   * Arrow-key movement with the defects removed: Left stops at position 0,
   * and Up and Down keep the column, clamped to the characters of the target
   * line that precede its break.
   */
  function MoveCursor(e: TextEdit, dir: Direction): (r: TextEdit)
    requires Valid(e)
    ensures Valid(r) && r == e.(cursor := r.cursor)
  {
    match dir
    case DirLeft => MoveLeft(e)
    case DirRight => RightAsWritten(e)
    case DirUp => MoveUp(e)
    case DirDown => MoveDown(e)
  }

  function MoveLeft(e: TextEdit): (r: TextEdit)
    requires Valid(e)
    ensures Valid(r) && r == e.(cursor := r.cursor)
    ensures e.cursor == 0 ==> r == e
    ensures e.cursor > 0 ==> r.cursor < e.cursor <= r.cursor + 2
    ensures Column(e) > 0 ==> r.cursor == e.cursor - 1
  {
    var c := e.cursor;
    if c > 0 then
      if Column(e) == 0 then e.(cursor := if c >= 2 then c - 2 else 0)
      else e.(cursor := c - 1)
    else e
  }

  function MoveUp(e: TextEdit): (r: TextEdit)
    requires Valid(e)
    ensures Valid(r) && r == e.(cursor := r.cursor)
  {
    var t, cl := e.text, CursorLine(e);
    if cl > 0 then
      LineStartMono(t, cl - 1);
      e.(cursor := LineStart(t, cl - 1) + Min(Column(e), VisibleLen(t, cl - 1)))
    else e
  }

  function MoveDown(e: TextEdit): (r: TextEdit)
    requires Valid(e)
    ensures Valid(r) && r == e.(cursor := r.cursor)
  {
    var t, cl := e.text, CursorLine(e);
    if cl < CountNL(t) then e.(cursor := NextLineTarget(t, cl, Column(e)))
    else e
  }

  /** Right moves one position, up to the end of the text. */
  lemma {:induction false} MoveRightSteps(e: TextEdit)
    requires Valid(e)
    ensures RightAsWritten(e).cursor == Min(e.cursor + 1, |e.text|)
  {
  }

  /** Up moves to the line above, keeping the column where that line is long enough. */
  lemma {:induction false} MoveUpLandsAbove(e: TextEdit)
    requires Valid(e) && CursorLine(e) > 0
    ensures CursorLine(MoveUp(e)) == CursorLine(e) - 1
    ensures Column(MoveUp(e)) == Min(Column(e), VisibleLen(e.text, CursorLine(e) - 1))
  {
    var t, cl := e.text, CursorLine(e);
    var r := MoveUp(e);
    LineStartMono(t, cl - 1);
    CharToLineWithin(t, cl - 1, r.cursor);
  }

  /** Down moves to the line below, keeping the column where that line is long enough. */
  lemma {:induction false} MoveDownLandsBelow(e: TextEdit)
    requires Valid(e) && CursorLine(e) < CountNL(e.text)
    ensures CursorLine(MoveDown(e)) == CursorLine(e) + 1
    ensures Column(MoveDown(e)) == Min(Column(e), VisibleLen(e.text, CursorLine(e) + 1))
  {
    var t, cl := e.text, CursorLine(e);
    var r := MoveDown(e);
    CharToLineWithin(t, cl + 1, r.cursor);
  }

  /** On the first line Up does nothing; on the last line Down does nothing. */
  lemma {:induction false} MoveUpDownAtEdges(e: TextEdit)
    requires Valid(e)
    ensures CursorLine(e) == 0 ==> MoveUp(e) == e
    ensures CursorLine(e) == CountNL(e.text) ==> MoveDown(e) == e
  {
  }

  /** Down then Up returns to the starting position when the column exists on the line below. */
  lemma {:induction false} DownThenUp(e: TextEdit)
    requires Valid(e) && CursorLine(e) < CountNL(e.text)
    requires Column(e) <= VisibleLen(e.text, CursorLine(e) + 1)
    ensures MoveUp(MoveDown(e)) == e
  {
    var t, cl, p := e.text, CursorLine(e), Column(e);
    var d := MoveDown(e);
    MoveDownLandsBelow(e);
    assert CursorLine(d) == cl + 1 && Column(d) == p;
    MoveUpLandsAbove(d);
    ColumnFits(e);
    var u := MoveUp(d);
    assert CursorLine(u) == cl && Column(u) == p;
    assert u.cursor == e.cursor;
  }

  /** The cursor's column never passes the visible part of its own line. */
  lemma {:induction false} ColumnFits(e: TextEdit)
    requires Valid(e)
    ensures Column(e) <= VisibleLen(e.text, CursorLine(e))
  {
  }

  /** Up then Down returns to the starting position when the column exists on the line above. */
  lemma {:induction false} UpThenDown(e: TextEdit)
    requires Valid(e) && CursorLine(e) > 0
    requires Column(e) <= VisibleLen(e.text, CursorLine(e) - 1)
    ensures MoveDown(MoveUp(e)) == e
  {
    var u := MoveUp(e);
    MoveUpLandsAbove(e);
    MoveDownLandsBelow(u);
    ColumnFits(e);
    assert MoveDown(u).cursor == e.cursor;
  }

  /** Where Left as written does not panic, it agrees with the corrected Left. */
  lemma {:induction false} MoveLeftAgrees(e: TextEdit)
    requires Valid(e)
    ensures LeftAsWritten(e).Some? ==> LeftAsWritten(e) == Some(MoveLeft(e))
  {
  }

  /** Left as written panics from position 1 after a leading break. */
  lemma {:induction false} MoveLeftPanics()
    ensures LeftAsWritten(TextEdit("\nx", 0, 100, 100, 1, true)).None?
    ensures MoveLeft(TextEdit("\nx", 0, 100, 100, 1, true)).cursor == 0
  {
    var t := "\nx";
    CountNLPrefixStep(t, 0);
    LineStartUnique(t, 1, 1);
  }

  /** Up as written from column 2 of "bcd" below the one-character line "a" stays on "bcd". */
  lemma {:induction false} MoveUpStaysOnLine()
    ensures var e := TextEdit("a\nbcd", 0, 100, 100, 4, true);
            && UpAsWritten(e) == e.(cursor := 2)
            && CharToLine(e.text, 2) == 1
            && CursorLine(MoveUp(e)) == 0
  {
    var t := "a\nbcd";
    var e := TextEdit(t, 0, 100, 100, 4, true);
    CountNLPrefixStep(t, 0);
    CountNLPrefixStep(t, 1);
    CountNLPrefixStep(t, 2);
    CountNLPrefixStep(t, 3);
    CountNLPrefixStep(t, 4);
    CountNLWhole(t);
    LineStartUnique(t, 1, 2);
    assert CursorLine(e) == 1 && Column(e) == 2;
    MoveUpLandsAbove(e);
  }

  /**
   * Down as written from the start of a text that is a single break: the
   * empty last line is below, yet the cursor stays on the first line.
   */
  lemma {:induction false} MoveDownStaysOnLine(e: TextEdit)
    requires e.text == "\n" && e.cursor == 0
    ensures Valid(e) && CursorLine(e) == 0
    ensures DownAsWritten(e) == e
    ensures CursorLine(MoveDown(e)) == 1
  {
    var t := e.text;
    assert t[..0] == [] && t[..1] == t;
    assert CountNL(t) == 1;
    LineStartUnique(t, 1, 1);
    MoveDownLandsBelow(e);
  }

  /** Total advance of the glyphs `t[start..k]`. */
  function Advance(m: Metrics, t: seq<char>, start: nat, k: nat): nat
    requires start <= k <= |t|
    decreases k
  {
    if k == start then 0 else Advance(m, t, start, k - 1) + m.advW(t[k - 1])
  }

  /** Integer division truncating toward zero, as a cast of a float quotient does. */
  function TruncDiv(a: int, b: int): (q: int)
    requires b > 0
    ensures a >= 0 ==> q * b <= a < (q + 1) * b
    ensures a < 0 ==> q <= 0 && -a < (-q + 1) * b
  {
    if a >= 0 then a / b else -((-a) / b)
  }

  /**
   * Maps a point in the box's pixel coordinates to a text position. The row
   * is the truncated quotient of `y` by the line height, so a point less than
   * a line above the box still falls on row 0; a point left of the box,
   * right of its width `w`, or whose row is negative or past the last line
   * gives `None`.
   * Otherwise the answer is the last position `i` after the line's first
   * character whose preceding glyphs on the line advance no further than
   * `x`, and `None` when not even the first glyph fits.
   */
  method HoverText(e: TextEdit, x: int, y: int, w: int, m: Metrics) returns (r: Option<nat>)
    requires m.lineHeight > 0
    ensures var n := TruncDiv(y, m.lineHeight);
            r.Some? ==> 0 <= x <= w && 0 <= n < LenLines(e.text) && r.value < |e.text|
                        && CharToLine(e.text, r.value) == n
    ensures var n := TruncDiv(y, m.lineHeight);
            (x < 0 || x > w || n < 0 || n >= LenLines(e.text)) ==> r.None?
    ensures var n := TruncDiv(y, m.lineHeight);
            0 <= x <= w && 0 <= n < LenLines(e.text) ==>
              r == LastFit(e.text, m, LineStart(e.text, n), LineEnd(e.text, n), x)
  {
    var t := e.text;
    var n := TruncDiv(y, m.lineHeight);
    if x < 0 || x > w || n < 0 || n >= LenLines(t) {
      return None;
    }
    var start, end := LineStart(t, n), LineEnd(t, n);
    r := ScanLine(t, m, start, end, x);
    if r.Some? {
      CharToLineWithin(t, n, r.value);
    }
  }

  /**
   * The largest `i` in (start, end) such that the glyphs `t[start..i]`
   * advance at most `x`; advances never shrink as `i` grows, so this is
   * where a walk that stops at the first glyph overshooting `x` ends.
   */
  function LastFit(t: seq<char>, m: Metrics, start: nat, end: nat, x: int): (r: Option<nat>)
    requires start <= end <= |t|
    ensures r.Some? ==> start < r.value < end && Advance(m, t, start, r.value) <= x
    ensures r.Some? && r.value + 1 < end ==> Advance(m, t, start, r.value + 1) > x
    ensures r.None? ==> start + 1 >= end || Advance(m, t, start, start + 1) > x
    decreases end
  {
    if end <= start + 1 then None
    else if Advance(m, t, start, end - 1) <= x then Some(end - 1)
    else LastFit(t, m, start, end - 1, x)
  }

  /** Advances of longer runs from the same start are at least as large. */
  lemma {:induction false} AdvanceMono(m: Metrics, t: seq<char>, start: nat, i: nat, j: nat)
    requires start <= i <= j <= |t|
    ensures Advance(m, t, start, i) <= Advance(m, t, start, j)
    decreases j - i
  {
    if i < j {
      AdvanceMono(m, t, start, i, j - 1);
    }
  }

  /** The walk over one line: the running advance of the glyphs before `i`, stopping at the first overshoot. */
  method ScanLine(t: seq<char>, m: Metrics, start: nat, end: nat, x: int) returns (r: Option<nat>)
    requires start <= end <= |t|
    ensures r == LastFit(t, m, start, end, x)
  {
    r := None;
    if end <= start + 1 {
      return;
    }
    var lineX := 0;
    var i := start + 1;
    while i < end
      invariant start + 1 <= i <= end
      invariant lineX == Advance(m, t, start, i - 1)
      invariant r == (if i == start + 1 then None else Some(i - 1))
      invariant i > start + 1 ==> Advance(m, t, start, i - 1) <= x
      decreases end - i
    {
      lineX := lineX + m.advW(t[i - 1]);
      if lineX > x {
        ScanStoppedIsLastFit(t, m, start, end, i, x);
        return;
      }
      r := Some(i);
      i := i + 1;
    }
  }

  /** When the glyph before `i` overshoots after the earlier ones fit, the last fit is `i - 1`. */
  lemma {:induction false} ScanStoppedIsLastFit(t: seq<char>, m: Metrics, start: nat, end: nat, i: nat, x: int)
    requires start < i < end <= |t|
    requires i > start + 1 ==> Advance(m, t, start, i - 1) <= x
    requires Advance(m, t, start, i) > x
    ensures LastFit(t, m, start, end, x) == (if i == start + 1 then None else Some(i - 1))
    decreases end
  {
    if end - 1 > i {
      AdvanceMono(m, t, start, i, end - 1);
      ScanStoppedIsLastFit(t, m, start, end - 1, i, x);
    }
  }
}

=== FILE: tree.dfy ===
/**
 * The widget tree and the two tables built from it by a pre-order walk:
 * the subtree-size table (one row per node listing its children's subtree
 * sizes) and the selection list (the keyboard-selectable entries in walk
 * order, with a per-node index into them). A node's position in the walk
 * is its widget index.
 */
module Tree {
  import opened Base
  import opened Status
  import opened Geometry
  import opened Entries

  datatype Visibility = Visible | Invisible | Collapsed

  datatype Orientation = Vertical | Horizontal

  /**
   * How a node places its children: a stack along one axis with a fixed gap,
   * or a grid of `nCols` columns. Both keep one rectangle per child and the
   * aggregate size of the last measurement.
   */
  datatype Layout =
    | ListLayout(orientation: Orientation, spacing: nat, size: Point, rects: seq<Rect>)
    | GridLayout(nCols: nat, gap: Point, size: Point, rects: seq<Rect>)

  /**
   * A node's own behaviour. A label records whether it has a hover colour and
   * whether it is currently shown hovered; a dropdown records its selected
   * option, whether its list is open and how many options it has.
   */
  datatype Behavior =
    | Container
    | Button(onclick: Callback)
    | Label(hasHoverColor: bool, isHover: bool)
    | DropDown(selected: nat, hoverIdx: nat, open: bool, nItems: nat, size: Point)

  datatype Widget = Widget(bhv: Behavior, layout: Layout, children: seq<Widget>,
                           visible: Visibility, sizeCache: Point)

  /** The layout every leaf gets: a vertical stack with a gap of 10. */
  const DefaultLayout: Layout := ListLayout(Vertical, 10, Origin, [])

  /** A visible leaf with the given behaviour. */
  function NewWidget(b: Behavior): (w: Widget)
    ensures w.bhv == b && w.children == [] && w.visible == Visible && w.layout == DefaultLayout
  {
    Widget(b, DefaultLayout, [], Visible, Origin)
  }

  /** A visible, empty container with the given layout. */
  function NewContainer(l: Layout): (w: Widget)
    ensures w.bhv == Container && w.children == [] && w.visible == Visible && w.layout == l
  {
    Widget(Container, l, [], Visible, Origin)
  }

  /**
   * A closed dropdown over `n` hover-highlighting labels, one per option,
   * stacked vertically.
   */
  function NewDropDown(n: nat, selected: nat): (w: Widget)
    ensures w.bhv == DropDown(selected, 0, false, n, Origin)
    ensures |w.children| == n
    ensures forall i :: 0 <= i < n ==> w.children[i] == NewWidget(Label(true, false))
  {
    Widget(DropDown(selected, 0, false, n, Origin), DefaultLayout,
           seq(n, _ => NewWidget(Label(true, false))), Visible, Origin)
  }

  /** Appends a child. */
  function Push(w: Widget, c: Widget): (r: Widget)
    ensures r.children == w.children + [c]
    ensures r == w.(children := r.children)
  {
    w.(children := w.children + [c])
  }

  /**
   * The entry a node contributes to the selection list: dropdowns contribute
   * their option selector, bounded by their last option.
   */
  function Selection(b: Behavior): (r: Option<Entry>)
    ensures r.Some? <==> b.DropDown?
    ensures b.DropDown? ==> r == Some(DropEntry(OptionSelect(b.selected, b.nItems)))
  {
    match b
    case DropDown(sel, _, _, n, _) => Some(DropEntry(OptionSelect(sel, n)))
    case _ => None
  }

  /** The nodes of a tree in pre-order: a node, then each child's subtree in turn. */
  function Flatten(w: Widget): (ns: seq<Widget>)
    ensures |ns| > 0 && ns[0] == w
    decreases w, 1
  {
    [w] + FlattenList(w.children)
  }

  function FlattenList(ws: seq<Widget>): seq<Widget>
    decreases ws, 0
  {
    if |ws| == 0 then [] else Flatten(ws[0]) + FlattenList(ws[1..])
  }

  /** The subtree size of each widget in `ws`. */
  function Sizes(ws: seq<Widget>): (s: seq<nat>)
    ensures |s| == |ws|
  {
    seq(|ws|, i requires 0 <= i < |ws| => |Flatten(ws[i])|)
  }

  /** The size table over a node sequence: per node, its children's subtree sizes. */
  function Rows(ns: seq<Widget>): (rs: seq<seq<nat>>)
    ensures |rs| == |ns|
  {
    seq(|ns|, k requires 0 <= k < |ns| => Sizes(ns[k].children))
  }

  lemma {:induction false} RowsAppend(a: seq<Widget>, b: seq<Widget>)
    ensures Rows(a + b) == Rows(a) + Rows(b)
  {
  }

  lemma {:induction false} SizesTail(ws: seq<Widget>)
    requires |ws| > 0
    ensures Sizes(ws) == [|Flatten(ws[0])|] + Sizes(ws[1..])
  {
  }

  /** A forest flattens to as many nodes as its subtree sizes add up to. */
  lemma {:induction false} FlattenListSize(ws: seq<Widget>)
    ensures |FlattenList(ws)| == Sum(Sizes(ws))
    decreases |ws|
  {
    if |ws| > 0 {
      SizesTail(ws);
      FlattenListSize(ws[1..]);
    }
  }

  /** Every subtree size is one more than the sum of its children's subtree sizes. */
  lemma {:induction false} SubtreeSize(w: Widget)
    ensures |Flatten(w)| == 1 + Sum(Sizes(w.children))
  {
    FlattenListSize(w.children);
  }

  /**
   * The size-table walk as the program performs it: the node's row is
   * appended empty, then each child is walked and its subtree size pushed
   * onto the node's row. The returned size counts the node and its
   * descendants. The walk's position counter always equals the table's
   * length, so it is not kept separately.
   */
  function ChildrenRecurse(w: Widget, vec: seq<seq<nat>>): (r: (nat, seq<seq<nat>>))
    ensures r == (|Flatten(w)|, vec + Rows(Flatten(w)))
    decreases w, 1
  {
    var r := RecurseKids(w.children, |vec|, vec + [[]], 1);
    SubtreeSize(w);
    RowsAppend([w], FlattenList(w.children));
    assert Rows([w]) == [Sizes(w.children)];
    NewRowFilled(vec, Sizes(w.children));
    assert vec + Rows(Flatten(w)) == vec + [Sizes(w.children)] + Rows(FlattenList(w.children));
    r
  }

  function RecurseKids(ws: seq<Widget>, idx: nat, vec: seq<seq<nat>>, size: nat): (r: (nat, seq<seq<nat>>))
    requires idx < |vec|
    ensures r == (size + Sum(Sizes(ws)), vec[idx := vec[idx] + Sizes(ws)] + Rows(FlattenList(ws)))
    decreases ws, 0
  {
    if |ws| == 0 then
      assert Sizes(ws) == [] && Rows(FlattenList(ws)) == [];
      assert vec[idx] + Sizes(ws) == vec[idx];
      assert vec[idx := vec[idx] + Sizes(ws)] + Rows(FlattenList(ws)) == vec;
      assert Sum(Sizes(ws)) == 0;
      (size, vec)
    else
      var c := ChildrenRecurse(ws[0], vec);
      var v2 := c.1[idx := c.1[idx] + [c.0]];
      var r := RecurseKids(ws[1..], idx, v2, size + c.0);
      KidsStep(ws, idx, vec, c.0, v2);
      r
  }

  lemma {:induction false} KidsStep(ws: seq<Widget>, idx: nat, vec: seq<seq<nat>>, cs: nat, v2: seq<seq<nat>>)
    requires idx < |vec| && |ws| > 0 && cs == |Flatten(ws[0])|
    requires v2 == (vec + Rows(Flatten(ws[0])))[idx := (vec + Rows(Flatten(ws[0])))[idx] + [cs]]
    ensures v2[idx := v2[idx] + Sizes(ws[1..])] + Rows(FlattenList(ws[1..]))
            == vec[idx := vec[idx] + Sizes(ws)] + Rows(FlattenList(ws))
    ensures cs + Sum(Sizes(ws[1..])) == Sum(Sizes(ws))
  {
    SizesTail(ws);
    RowsAppend(Flatten(ws[0]), FlattenList(ws[1..]));
    var r0 := Rows(Flatten(ws[0]));
    assert v2 == vec[idx := vec[idx] + [cs]] + r0;
    RowExtended(vec, idx, [cs], Sizes(ws[1..]), r0);
  }

  lemma {:induction false} NewRowFilled(vec: seq<seq<nat>>, s: seq<nat>)
    ensures (vec + [[]])[|vec| := (vec + [[]])[|vec|] + s] == vec + [s]
  {
    var e: seq<nat> := [];
    assert (vec + [[]])[|vec|] == e;
    assert e + s == s;
  }

  lemma {:induction false} RowExtended(vec: seq<seq<nat>>, idx: nat, a: seq<nat>, b: seq<nat>, r0: seq<seq<nat>>)
    requires idx < |vec|
    ensures (vec[idx := vec[idx] + a] + r0)[idx := (vec[idx := vec[idx] + a] + r0)[idx] + b]
            == vec[idx := vec[idx] + (a + b)] + r0
  {
    assert (vec[idx := vec[idx] + a] + r0)[idx] == vec[idx] + a;
    assert vec[idx] + a + b == vec[idx] + (a + b);
  }

  /** The size table of a whole tree. */
  function ChildrenSizes(root: Widget): (t: seq<seq<nat>>)
    ensures t == Rows(Flatten(root))
  {
    ChildrenRecurse(root, []).1
  }

  /** The selection entries of a node sequence, in order. */
  function EntriesOf(ns: seq<Widget>): (es: seq<Entry>)
    ensures |es| <= |ns|
    ensures forall i :: 0 <= i < |es| ==> es[i].DropEntry?
    decreases |ns|
  {
    if |ns| == 0 then []
    else (if Selection(ns[0].bhv).Some? then [Selection(ns[0].bhv).value] else []) + EntriesOf(ns[1..])
  }

  /**
   * The widget-to-selection map of a node sequence: selectable nodes are
   * numbered consecutively from `base`, the others map to `None`.
   */
  function IndexMap(ns: seq<Widget>, base: nat): (m: seq<Option<nat>>)
    ensures |m| == |ns|
    decreases |ns|
  {
    if |ns| == 0 then []
    else if Selection(ns[0].bhv).Some? then [Some(base)] + IndexMap(ns[1..], base + 1)
    else [None] + IndexMap(ns[1..], base)
  }

  lemma {:induction false} EntriesAppend(a: seq<Widget>, b: seq<Widget>)
    ensures EntriesOf(a + b) == EntriesOf(a) + EntriesOf(b)
    decreases |a|
  {
    if |a| > 0 {
      assert (a + b)[1..] == a[1..] + b;
      EntriesAppend(a[1..], b);
    } else {
      assert a + b == b;
    }
  }

  lemma {:induction false} IndexMapAppend(a: seq<Widget>, b: seq<Widget>, base: nat)
    ensures IndexMap(a + b, base) == IndexMap(a, base) + IndexMap(b, base + |EntriesOf(a)|)
    decreases |a|
  {
    if |a| > 0 {
      assert (a + b)[1..] == a[1..] + b;
      if Selection(a[0].bhv).Some? {
        IndexMapAppend(a[1..], b, base + 1);
      } else {
        IndexMapAppend(a[1..], b, base);
      }
    } else {
      assert a + b == b;
    }
  }

  /**
   * The selection-list walk as the program performs it: a selectable node's
   * entry is appended and its map slot records the entry's position; any
   * other node's slot is `None`; then the children are walked in order.
   */
  function RecurseBuild(w: Widget, v: seq<Entry>, widx: seq<Option<nat>>): (r: (seq<Entry>, seq<Option<nat>>))
    ensures r == (v + EntriesOf(Flatten(w)), widx + IndexMap(Flatten(w), |v|))
    decreases w, 1
  {
    var s := Selection(w.bhv);
    var v1 := if s.Some? then v + [s.value] else v;
    var x1 := if s.Some? then widx + [Some(|v|)] else widx + [None];
    BuildNodeStep(w, v, widx, v1, x1);
    BuildKids(w.children, v1, x1)
  }

  lemma {:induction false} BuildNodeStep(w: Widget, v: seq<Entry>, widx: seq<Option<nat>>,
                                         v1: seq<Entry>, x1: seq<Option<nat>>)
    requires var s := Selection(w.bhv);
             && v1 == (if s.Some? then v + [s.value] else v)
             && x1 == (if s.Some? then widx + [Some(|v|)] else widx + [None])
    ensures v + EntriesOf(Flatten(w)) == v1 + EntriesOf(FlattenList(w.children))
    ensures widx + IndexMap(Flatten(w), |v|) == x1 + IndexMap(FlattenList(w.children), |v1|)
  {
    var s, rest := Selection(w.bhv), FlattenList(w.children);
    EntriesAppend([w], rest);
    IndexMapAppend([w], rest, |v|);
    assert [w][1..] == [];
    var head, hx := EntriesOf([w]), IndexMap([w], |v|);
    assert head == (if s.Some? then [s.value] else []);
    assert hx == (if s.Some? then [Some(|v|)] else [None]);
    assert v1 == v + head && |v1| == |v| + |head|;
    assert x1 == widx + hx;
    ConcatAssoc(v, head, EntriesOf(rest));
    ConcatAssoc(widx, hx, IndexMap(rest, |v1|));
  }

  lemma {:induction false} BuildKidsStep(ws: seq<Widget>, v: seq<Entry>, widx: seq<Option<nat>>)
    requires |ws| > 0
    ensures var v2 := v + EntriesOf(Flatten(ws[0]));
            && v2 + EntriesOf(FlattenList(ws[1..])) == v + EntriesOf(FlattenList(ws))
            && widx + IndexMap(Flatten(ws[0]), |v|) + IndexMap(FlattenList(ws[1..]), |v2|)
               == widx + IndexMap(FlattenList(ws), |v|)
  {
    assert FlattenList(ws) == Flatten(ws[0]) + FlattenList(ws[1..]);
    BuildConcat(Flatten(ws[0]), FlattenList(ws[1..]), v, widx);
  }

  lemma {:induction false} BuildConcat(a: seq<Widget>, b: seq<Widget>, v: seq<Entry>, widx: seq<Option<nat>>)
    ensures v + EntriesOf(a) + EntriesOf(b) == v + EntriesOf(a + b)
    ensures widx + IndexMap(a, |v|) + IndexMap(b, |v + EntriesOf(a)|) == widx + IndexMap(a + b, |v|)
  {
    EntriesAppend(a, b);
    IndexMapAppend(a, b, |v|);
    ConcatAssoc(v, EntriesOf(a), EntriesOf(b));
    ConcatAssoc(widx, IndexMap(a, |v|), IndexMap(b, |v| + |EntriesOf(a)|));
  }

  lemma ConcatAssoc<T>(x: seq<T>, y: seq<T>, z: seq<T>)
    ensures x + y + z == x + (y + z)
  {
  }

  function BuildKids(ws: seq<Widget>, v: seq<Entry>, widx: seq<Option<nat>>): (r: (seq<Entry>, seq<Option<nat>>))
    ensures r == (v + EntriesOf(FlattenList(ws)), widx + IndexMap(FlattenList(ws), |v|))
    decreases ws, 0
  {
    if |ws| == 0 then
      assert EntriesOf([]) == [] && IndexMap([], |v|) == [];
      assert v + EntriesOf(FlattenList(ws)) == v && widx + IndexMap(FlattenList(ws), |v|) == widx;
      (v, widx)
    else
      var c := RecurseBuild(ws[0], v, widx);
      BuildKidsStep(ws, v, widx);
      BuildKids(ws[1..], c.0, c.1)
  }

  /** The selection list of a tree: its entries and the per-node map into them. */
  datatype SelectionList = SelectionList(entries: seq<Entry>, widgetIdx: seq<Option<nat>>)

  function NewSelectionList(root: Widget): (l: SelectionList)
    ensures l.entries == EntriesOf(Flatten(root)) && l.widgetIdx == IndexMap(Flatten(root), 0)
    ensures |l.widgetIdx| == |Flatten(root)|
  {
    var r := RecurseBuild(root, [], []);
    SelectionList(r.0, r.1)
  }

  /** Number of selectable nodes. */
  function SelCount(ns: seq<Widget>): nat
    decreases |ns|
  {
    if |ns| == 0 then 0 else (if Selection(ns[0].bhv).Some? then 1 else 0) + SelCount(ns[1..])
  }

  /**
   * The map numbers the selectable nodes 0, 1, 2, … in walk order: node `k`
   * maps to `Some(j)` exactly when it is selectable, `j` counts the
   * selectable nodes before it, and entry `j` is that node's selector.
   */
  lemma {:induction false} IndexMapNumbers(ns: seq<Widget>, base: nat, k: nat)
    requires k < |ns|
    ensures IndexMap(ns, base)[k].Some? <==> Selection(ns[k].bhv).Some?
    ensures IndexMap(ns, base)[k].Some? ==>
              IndexMap(ns, base)[k].value == base + SelCount(ns[..k])
              && SelCount(ns[..k]) < |EntriesOf(ns)|
              && EntriesOf(ns)[SelCount(ns[..k])] == Selection(ns[k].bhv).value
    decreases k
  {
    if k > 0 {
      assert ns[1..][..k - 1] == ns[..k][1..];
      if Selection(ns[0].bhv).Some? {
        IndexMapNumbers(ns[1..], base + 1, k - 1);
      } else {
        IndexMapNumbers(ns[1..], base, k - 1);
      }
    }
  }

  /** The list holds exactly one entry per selectable node. */
  lemma {:induction false} EntriesCount(ns: seq<Widget>)
    ensures |EntriesOf(ns)| == SelCount(ns)
    decreases |ns|
  {
    if |ns| > 0 {
      EntriesCount(ns[1..]);
    }
  }

  /**
   * The widget index of child `c` of node `p`: one past the parent plus the
   * subtree sizes of the children before it, read from the size table.
   */
  method ChildWidgetIdx(sizes: seq<seq<nat>>, p: nat, c: nat) returns (idx: nat)
    requires p < |sizes| && c <= |sizes[p]|
    ensures idx == p + 1 + Sum(sizes[p][..c])
  {
    var sz := 0;
    var i := 0;
    while i < c
      invariant 0 <= i <= c
      invariant sz == Sum(sizes[p][..i])
    {
      SumPrefixStep(sizes[p], i);
      sz := sz + sizes[p][i];
      i := i + 1;
    }
    idx := p + sz + 1;
  }

  /** The walk of a subtree occupies a contiguous block of the whole walk, starting at the node. */
  lemma {:induction false} SubtreeBlock(w: Widget, p: nat)
    requires p < |Flatten(w)|
    ensures p + |Flatten(Flatten(w)[p])| <= |Flatten(w)|
    ensures Flatten(w)[p..p + |Flatten(Flatten(w)[p])|] == Flatten(Flatten(w)[p])
    decreases w, 1
  {
    if p > 0 {
      SubtreeBlockList(w.children, p - 1);
      assert Flatten(w)[p] == FlattenList(w.children)[p - 1];
      var n := |Flatten(Flatten(w)[p])|;
      assert Flatten(w)[p..p + n] == FlattenList(w.children)[p - 1..p - 1 + n];
    }
  }

  lemma {:induction false} SubtreeBlockList(ws: seq<Widget>, q: nat)
    requires q < |FlattenList(ws)|
    ensures q + |Flatten(FlattenList(ws)[q])| <= |FlattenList(ws)|
    ensures FlattenList(ws)[q..q + |Flatten(FlattenList(ws)[q])|] == Flatten(FlattenList(ws)[q])
    decreases ws, 0
  {
    var h := Flatten(ws[0]);
    var fl := FlattenList(ws);
    if q < |h| {
      SubtreeBlock(ws[0], q);
      assert fl[q] == h[q];
      var n := |Flatten(h[q])|;
      assert fl[q..q + n] == h[q..q + n];
    } else {
      SubtreeBlockList(ws[1..], q - |h|);
      assert fl[q] == FlattenList(ws[1..])[q - |h|];
      var n := |Flatten(fl[q])|;
      assert fl[q..q + n] == FlattenList(ws[1..])[q - |h|..q - |h| + n];
    }
  }

  /** In a flattened forest, tree `c` starts after the subtree sizes of the trees before it. */
  lemma {:induction false} ChildOffset(ws: seq<Widget>, c: nat)
    requires c < |ws|
    ensures Sum(Sizes(ws)[..c]) < |FlattenList(ws)|
    ensures FlattenList(ws)[Sum(Sizes(ws)[..c])] == ws[c]
    decreases c
  {
    SizesTail(ws);
    if c == 0 {
      assert Sizes(ws)[..0] == [];
    } else {
      ChildOffset(ws[1..], c - 1);
      assert Sizes(ws)[..c] == [|Flatten(ws[0])|] + Sizes(ws[1..])[..c - 1];
    }
  }

  /**
   * The index arithmetic is exact: with the size table of the tree, the
   * index computed for child `c` of the node at walk position `p` is that
   * child's own walk position, and child 0 sits right after its parent.
   */
  lemma {:induction false} ChildIndexIsPreorder(root: Widget, p: nat, c: nat)
    requires p < |Flatten(root)| && c < |Flatten(root)[p].children|
    ensures c <= |ChildrenSizes(root)[p]|
    ensures var idx := p + 1 + Sum(ChildrenSizes(root)[p][..c]);
            idx < |Flatten(root)| && Flatten(root)[idx] == Flatten(root)[p].children[c]
    ensures c == 0 ==> p + 1 + Sum(ChildrenSizes(root)[p][..c]) == p + 1
  {
    var ns := Flatten(root);
    var n := ns[p];
    var s := Sum(Sizes(n.children)[..c]);
    assert ChildrenSizes(root)[p] == Sizes(n.children);
    SubtreeBlock(root, p);
    ChildOffset(n.children, c);
    assert Flatten(n)[1 + s] == n.children[c];
    assert ns[p + 1 + s] == Flatten(n)[1 + s];
    if c == 0 {
      assert Sizes(n.children)[..0] == [];
    }
  }

  /** Appending a child leaves every existing node's walk position unchanged and walks the new subtree last. */
  lemma {:induction false} PushKeepsIndices(w: Widget, c: Widget)
    ensures Flatten(Push(w, c))[1..] == Flatten(w)[1..] + Flatten(c)
  {
    FlattenListAppend(w.children, [c]);
    assert [c][1..] == [];
    assert FlattenList([c]) == Flatten(c) + FlattenList([]);
    assert FlattenList([c]) == Flatten(c);
    assert Flatten(Push(w, c))[1..] == FlattenList(w.children + [c]);
  }

  lemma {:induction false} FlattenListAppend(a: seq<Widget>, b: seq<Widget>)
    ensures FlattenList(a + b) == FlattenList(a) + FlattenList(b)
    decreases |a|
  {
    if |a| > 0 {
      assert (a + b)[1..] == a[1..] + b;
      FlattenListAppend(a[1..], b);
    } else {
      assert a + b == b;
    }
  }
}
